=== FILE: README.md ===
# Stock dashboard data pipeline in Dafny

This project models the data pipeline of a static, backend-less stock dashboard. The pipeline
is the code that sits between the CSV snapshots and the HTML. The model covers:

- **Data adapter** (`static/js/api.js`) — module `StockApi`, with the class
  `StockApi.DataAdapter`:
  - a naive comma-split CSV reader and the `toNumber`/`toInt`/`toPercent` coercions;
  - the stock and daily row normalisers;
  - date sorting, inclusive date-range filtering and window statistics;
  - the gainers and losers rankings;
  - the time-to-live cache keyed `stock:{code}` and `daily:{date}`;
  - the `StockAPI` methods that load through that cache.
- **Notes page** (`static/js/notes.js`) — modules `NotesCsv`, `Notes`, `Coerce` and `DateValue`:
  - the quote-aware CSV scanner and its field escaper;
  - the header-alias table and record normalisation;
  - the `toDateValue` sort key;
  - confidence calibration and the browse filter;
  - export line building;
  - the store of CSV-backed and locally entered records, `Notes.NotesStore`.
- **Shared client state** (`static/js/state.js`) — module `AppState`: the view and status
  fields, and a second cache with a time to live per entry, in `AppState.State`.
- **Pure rendering helpers** (`static/js/render/*.js`) — modules `RenderDaily`,
  `RenderAnalysis`, `RenderStats`, `RenderCompare` and `RenderStock`:
  - market breadth and the ranked lists;
  - range statistics;
  - the trend, volatility and performance figures;
  - best and worst performers;
  - date, price and volume formatting.
- **Backend sanitiser** (`core/json_utils.py`) — module `JsonUtils`: `sanitize_json`, which
  replaces every `NaN` and infinity in a response by `None`.

Support modules:

- `Wrappers` defines `Option` and `Result`.
- `JsString` holds the JavaScript string operations the code relies on:
  - `trim`, using the whitespace set of ECMA-262;
  - ASCII `toUpperCase`;
  - `split` and `join`;
  - the removal of every occurrence, or only the first, of a character;
  - integer printing.
- `Seqs` holds filter, count, sum, mean and the extremes.
- `Sorting` holds the stable sort the code gets from `Array.prototype.sort` with a numeric
  comparator.
- `JsNumber` holds the finite, infinite and `NaN` outcomes of a division.

How the host is modelled:

- Host services are parameters of the model:
  - `Number(text)` followed by `Number.isFinite` is `parse: string -> Option<real>`, where
    `None` stands for `NaN` and the infinities;
  - `Date.parse` is `dateParse`;
  - `toFixed` is `toFixed` or `fmt`;
  - a data-file request is `fetch: string -> Result<string, string>`;
  - the clock is a `now` parameter.
- Prices are exact `real`s.
- Every object the source updates in place is a class:
  - `StockApi.DataAdapter` holds the cache of `api.js`;
  - `AppState.State` holds the `State` object;
  - `Notes.NotesStore` holds the module-level record lists of `notes.js`.
- Every loop of the source is a method whose contract ties it to a specification function:
  - `NotesCsv.ParseCsv`;
  - `Notes.Tally`, `Notes.ConfidenceCalibration` and `Notes.ConfidenceBias`;
  - `StockApi.DataAdapter.Compare` and `StockApi.DataAdapter.GetSummary`.

The source's quirks are reproduced as written:

- The range statistics take the maximum and the minimum from the closing prices.
- `toPercent` removes only the first `%` and the first `+`, wherever they stand, and keeps
  commas.
- `filterByDateRange` reads a missing date as 0.
- A missing price takes part in the compare-card arithmetic as 0.
- On rows sorted newest first, the range change is measured from the newest price.

## Model

Members without a row are specification helpers that the rows' contracts are written in:

- `StockApi.CodesOfText` is the comma split of a code list, and `StockApi.Lines` is the line split that `StockApi.ParseCsv` states;
- `StockApi.CacheLookup`, `StockApi.AfterLookup` and `StockApi.CacheStore` are stated by `StockApi.StoreThenLookup`, `StockApi.StoreThenExpire`, `StockApi.ZeroTtlNeverHits` and `StockApi.OtherKeysUntouched`;
- `NotesCsv.Parse` is the scanner function `NotesCsv.ParseCsv` returns, stated by the `NotesCsv.Run*` and `NotesCsv.Parse*` lemmas;
- `Notes.Keep` is the filter condition `Notes.ApplyFilters` states, and `Notes.ExportText` is the text `Notes.ExportRoundTrip` reads back;
- `RenderCompare.Ratio`, `RenderCompare.PercentFromAverage` and `RenderCompare.PerformanceKey` are the figures of `RenderCompare.PerformanceClass`, `RenderCompare.LabelByPercent` and `RenderCompare.RankPerformance`;
- `RenderStats.TrendPercent` is the percentage `RenderStats.TrendAgainstAverage` states;
- `DateValue.TrimmedDateValue`, `RenderAnalysis.VolumeOf` and `Sorting.KeyIs` name a branch, a row's volume and a key test;
- `StockApi.StatsCode`, `StockApi.SummaryCode` and `StockApi.CodesOf` read the codes of the entries that `StockApi.CompareKeepsOrder` and `StockApi.SummaryKeepsOrder` state.

| member | source | states |
|---|---|---|
| Coerce.Cleaned | static/js/api.js:71 | the cleaned text holds no comma and no whitespace at either end |
| Coerce.ToNumber | static/js/api.js:69-75 | a number exactly when the value is present and its comma-free, trimmed text is non-empty and reads as a finite number, and then that number; `toNumber` at static/js/notes.js:122-128 is the same code |
| Coerce.ToNumberIgnoresCommas | static/js/api.js:71 | removing the commas first changes nothing: `1,234` and `1234` read alike |
| Coerce.ToNumberBlank | static/js/api.js:71-72 | text made only of commas and whitespace reads as `null` |
| Coerce.ToInt | static/js/api.js:77-80 | `null` exactly when `toNumber` is; otherwise the number truncated toward zero (floor for non-negative numbers, ceiling for negative ones) |
| Coerce.ToPercent | static/js/api.js:82-88 | a number exactly when the value is present and its text, less the first `%` and the first `+`, trimmed, is non-empty and reads as a finite number, and then that number |
| Coerce.ToPercentSigned | static/js/api.js:84 | `+n%` reads as `n` |
| Coerce.PercentCleanedKeepsSecond | static/js/api.js:84 | only the first `%` is removed: `n%%` cleans to `n%` |
| JsString.Trim | static/js/api.js:71 | no whitespace remains at either end, and the result is the input less a whitespace prefix and a whitespace suffix |
| JsString.TrimEmptyIffAllSpace | static/js/api.js:72 | trimming gives the empty string exactly when every character is whitespace |
| JsString.ToUpper | static/js/notes.js:162 | same length, each ASCII letter upper-cased and every other character kept, so no lower-case ASCII letter is left |
| JsString.RemoveAll | static/js/api.js:71 | no occurrence of the character is left, nothing is added, and text without it is unchanged |
| JsString.RemoveFirst | static/js/api.js:84 | only the first occurrence is removed; text without it is unchanged |
| JsString.SplitJoin | static/js/notes.js:135-138 | splitting a join of separator-free pieces gives back the pieces |
| DateValue.SlashesToDashes | static/js/notes.js:150 | each `/` becomes `-` and every other character is kept |
| DateValue.ToDateValueCompact | static/js/notes.js:145-147 | an eight-digit date is its `Date.UTC` day number times 86400000 |
| DateValue.CompactDateOrder | static/js/notes.js:141-147 | of two valid eight-digit dates with years from 100 on, the earlier calendar date has the smaller sort key |
| DateValue.CompactTwoDigitYear | static/js/notes.js:146 | a year 0-99 is read as 1900-1999, the `Date.UTC` rule |
| DateValue.CivilOrder | static/js/notes.js:146 | the day number increases strictly in calendar order |
| DateValue.EpochIsDayZero | static/js/notes.js:146 | 1970-01-01 is day 0 |
| DateValue.ToDateValue | static/js/notes.js:141-142 | an empty value sorts as 0 |
| DateValue.ToDateValueSeparated | static/js/notes.js:149-153 | a dashed or slashed date is the host's reading of it with its slashes turned into dashes, so `2024/01/05` and `2024-01-05` get the same value |
| DateValue.SeparatedTrimmed | static/js/notes.js:143 | a dashed or slashed date is its own trim |
| DateValue.SlashesToDashesSeparated | static/js/notes.js:150 | turning the slashes of a dashed or slashed date into dashes gives a dashed date without slashes |
| DateValue.ToDateValueGeneric | static/js/notes.js:155-156 | a non-empty date that is neither eight digits nor a dashed or slashed date is the host's reading of its trimmed text, or 0 when that is `NaN` |
| DateValue.ToDateValueFallback | static/js/notes.js:141-156 | an empty date, or one the host cannot read, sorts as 0 |
| NotesCsv.NormalizeNewlines | static/js/notes.js:73 | no carriage return is left, and text without one is unchanged |
| NotesCsv.NormalizeCrLf | static/js/notes.js:73 | a CR LF pair after carriage-return-free text becomes one line feed, and the rest is normalised the same way |
| NotesCsv.NormalizeLoneCr | static/js/notes.js:73 | a carriage return not followed by a line feed becomes a line feed, and the rest is normalised the same way |
| NotesCsv.ParseCsv | static/js/notes.js:68-119 | the character loop returns exactly the rows of the scanner function `Parse` |
| NotesCsv.ParseEmpty | static/js/notes.js:113-118 | the empty text has no rows |
| NotesCsv.ParseRowsNonEmpty | static/js/notes.js:103-118 | every row has at least one field |
| NotesCsv.RunQuoted | static/js/notes.js:78-90 | inside quotes a doubled quote is one literal quote, a lone quote closes the run, and every other character (comma and line feed included) joins the field |
| NotesCsv.RunPlain | static/js/notes.js:110 | outside quotes a field with no quote, comma or line feed joins the value as it is |
| NotesCsv.RunCommaStep | static/js/notes.js:97-101 | outside quotes a comma ends the field |
| NotesCsv.RunNewlineStep | static/js/notes.js:103-109 | outside quotes a line feed ends the field and the row |
| NotesCsv.RunAppend | static/js/notes.js:75-111 | the scan of a concatenation is the scan of the second part from the state the first leaves, unless a quote ends one part and starts the next |
| NotesCsv.CsvEscape | static/js/notes.js:650-657 | a field with a quote, a comma or a line feed is wrapped in quotes; any other field is returned unchanged |
| NotesCsv.RunField | static/js/notes.js:650-657 | scanning an escaped field outside quotes appends exactly that field |
| NotesCsv.ParseEscapeRow | static/js/notes.js:650-657 | a row of fields without carriage returns, escaped and comma-joined into a non-empty line, parses back to exactly that row |
| NotesCsv.ParseEncodeRows | static/js/notes.js:619-641 | rows escaped, comma-joined and joined by line feeds parse back to exactly those rows |
| Notes.ExportHeadersKnown | static/js/notes.js:6-61 | every export header is in the alias table and denotes the key of its column |
| Notes.Text | static/js/notes.js:160-176 | a string field is its trimmed text, empty exactly when missing or blank |
| Notes.SplitTags | static/js/notes.js:130-139 | empty input has no tags; otherwise the tags are the trimmed non-empty pieces between `,` `;` `\|` `、`, in order |
| Notes.SplitTagsJoin | static/js/notes.js:130-139 | tags joined with `;` on export split back to the same tags |
| Notes.NormalizeRecord | static/js/notes.js:159-178 | the record is well formed (every text field trimmed, the code upper-cased, well-formed tags) and carries the given source |
| Notes.NormalizedText | static/js/notes.js:160-176 | every text field except the code is the trimmed raw text |
| Notes.NormalizedEmptyIff | static/js/notes.js:160-176 | a text field is empty exactly when the raw field is missing or blank |
| Notes.HeaderKey | static/js/notes.js:184-187 | a header denotes a key exactly when its text, without a leading BOM and trimmed, is in the alias table |
| Notes.HeaderKeyBom | static/js/notes.js:184-186 | a leading byte order mark does not change what a header denotes |
| Notes.RowRaw | static/js/notes.js:192-197 | the raw record has exactly the keys of the recognised headers, each holding the cell of its last column, `''` past the end of a short row |
| Notes.ParseNotesCsv | static/js/notes.js:180-199 | one record per data row with a non-blank cell; every record is well formed and stamped `csv` |
| Notes.UnknownKeyEmpty | static/js/notes.js:187-196 | a field no header denotes is empty in every record |
| Notes.RowField | static/js/notes.js:160-197 | a text field is its column's cell trimmed, the code also upper-cased, and `''` for a missing trailing cell |
| Notes.WinsAtMost | static/js/notes.js:262-267 | a bucket never has more successes than records |
| Notes.Tally | static/js/notes.js:259-268 | one bucket per confidence of the records with a result and a finite confidence; each bucket's total and wins are the counts of those records and of their successes; the totals add up to the number of such records |
| Notes.TallyPermutation | static/js/notes.js:270-276 | any reordering of a tally is still a tally of the same records |
| Notes.ConfidenceCalibration | static/js/notes.js:259-277 | a tally of the records, ordered by strictly decreasing confidence |
| Notes.WinRate | static/js/notes.js:274 | the win rate lies between 0 and 100; it is 0 exactly when there is no success and 100 exactly when every record succeeded |
| Notes.ConfidenceBias | static/js/notes.js:243-257 | one row per distinct confidence of the counted records, none missing, with win rate = successes / records × 100 |
| Notes.CalibrationAdvice | static/js/notes.js:396-403 | over-confident below ten times the confidence minus 20, under-rated above it plus 20, well calibrated in between: exactly one holds |
| Notes.CalibrationReading | static/js/notes.js:318-319 | over-estimated below 50 %, stable above 65 %, neutral in between |
| Notes.MinConfidence | static/js/notes.js:561 | an empty control means 1; otherwise the number the host reads |
| Notes.ApplyFilters | static/js/notes.js:557-573 | a subsequence of the records holding every copy of each record whose code and mood match when set, that carries the tag when set, and whose confidence (missing counts as 0) reaches the minimum when it is finite, and no other record |
| Notes.ApplyFiltersUnset | static/js/notes.js:563-572 | with no setting and no finite minimum, every record is kept |
| Notes.ApplyFiltersDefault | static/js/notes.js:558-572 | with the controls at their defaults, the records kept are those with a confidence of at least 1 |
| Notes.SortByDate | static/js/notes.js:618 | a permutation of the records with non-increasing `toDateValue`; records with the same `toDateValue` keep their input order |
| Notes.ExportRow | static/js/notes.js:622-637 | one value per export column |
| Notes.ExportLinesEncode | static/js/notes.js:619-641 | the export lines joined by line feeds are the CSV encoding of the header row followed by one row per record |
| Notes.ExportRoundTrip | static/js/notes.js:617-657 | for well-formed records without carriage returns, whose numbers print as text that reads back, reading the exported text gives back every record (sorted by date, stamped `csv`) |
| Notes.NewRecord | static/js/notes.js:675-690 | the new record is well formed, stamped `local` with its creation time, and has no result and no review note |
| Notes.NewRecordFields | static/js/notes.js:675-690 | each text field is the form's value, the code upper-cased, and the confidence is `toNumber` of the form's value |
| Notes.FirstMatch | static/js/notes.js:716-720 | the first local record with the picked record's date, code and creation time, or none when no record matches |
| Notes.PickedIsLocal | static/js/notes.js:708-727 | a local record picked from all the records always has a match among the local records |
| Notes.AllRecordsSources | static/js/notes.js:222-224 | the local records of `getAllRecords()` are `localRecords` and its CSV records are `baseRecords`, both in order |
| Notes.NotesStore.constructor | static/js/notes.js:202-212 | no base records and not loaded; the stored records, if any could be read, become the local records, stamped `local` |
| Notes.NotesStore.AllRecords | static/js/notes.js:222-224 | every base record and every local record |
| Notes.NotesStore.Load | static/js/notes.js:587-614 | once loaded and not forced, nothing changes; otherwise a fetched file replaces the base records and marks the store loaded, and a failed fetch changes nothing; local records never change |
| Notes.NotesStore.AddRecord | static/js/notes.js:659-706 | rejects a missing date, then a missing code, then a missing analysis, changing nothing; otherwise prepends the new record to the local records; the base records never change |
| Notes.NotesStore.ResultChange | static/js/notes.js:708-730 | changes nothing unless the picked row of the date-sorted records is local; then only the `result` of the first matching local record changes; the base records never change |
| StockApi.DropCr | static/js/api.js:57 | a line keeps no carriage return that stood before its line feed |
| StockApi.RowOf | static/js/api.js:59-66 | a row has exactly the header names as keys, each holding the cell of the last column with that name, `''` past the end of a short line |
| StockApi.ParseCsv | static/js/api.js:54-67 | whitespace-only text has no rows; otherwise row i is the i-th non-empty line after the header line, split on commas and keyed by the comma-split header line |
| StockApi.ParseCsvOneRow | static/js/api.js:54-67 | a header line and one data line give exactly the row pairing each header with its cell |
| StockApi.NormalizeStockRow | static/js/api.js:90-100 | the date and the volume are `toInt` of their cells; open, high, low and close are `toNumber` of theirs; the name is the trimmed `Name` cell, `''` without one |
| StockApi.ChangeText | static/js/api.js:111 | the `ChangePct` cell when the column exists, else the `ChangePercent` cell |
| StockApi.NormalizeDailyRow | static/js/api.js:102-114 | the date and the volume are `toInt` of their cells; open, high, low and close are `toNumber` of theirs; the code and the name are the trimmed `Symbol` and `Name` cells, `''` without one; the change is `toPercent` of the change cell |
| StockApi.SortByDateDesc | static/js/api.js:116-118 | a permutation of the rows with non-increasing date (a missing date counts as 0); rows with the same date keep their input order; the input is not reordered |
| Sorting.SortDescPrefixTies | static/js/api.js:268 | for each key value, the elements of that key in the first `k` sorted elements are a prefix of that key's elements in input order |
| Sorting.SortDescStable | static/js/api.js:117 | sorting by a numeric key, largest first, keeps the elements of each key in their input order, as the stable `Array.prototype.sort` does |
| StockApi.FilterByDateRange | static/js/api.js:120-127 | a subsequence of the rows holding every copy of each row dated between both bounds, inclusive, and no other row |
| StockApi.CalculateStats | static/js/api.js:153-186 | an empty window gives count 0 and nothing else. Otherwise: the count of rows; the latest close and date from the first row; the mean of the present closes; the largest present high, attained and bounding every high; the smallest present low, attained and bounding every low. Each figure is missing exactly when it has no values |
| StockApi.DateText | static/js/api.js:184 | the latest date has a text exactly when it is present and not 0 (a falsy date gives `null`) |
| StockApi.AverageWithinCloses | static/js/api.js:171-173 | the average lies between two of the window's closing prices |
| StockApi.SliceLimit | static/js/api.js:192 | a missing or zero limit falls back to the default; any other limit is truncated toward zero; a limit of at least 1 keeps between 1 and that many rows |
| StockApi.Window | static/js/api.js:207 | the `slice(0, limit)` count of rows (the fallback when the limit is missing or zero), newest first, drawn from the rows, and no row left out is newer than one kept |
| StockApi.Gainers | static/js/api.js:265-271 | the `slice(0, limit)` count of the rows with a finite change (10 when the limit is missing or zero, never more than a limit of 1 or more), in non-increasing change, drawn from the rows; no row left out has a larger change than one kept; for each change value the rows kept are the first rows of that change in input order, as the stable sort and the slice leave them |
| StockApi.GainerTies | static/js/api.js:268-270 | for each change value, the rows of that change among the top `k` by change are the first rows of that change in input order |
| StockApi.LoserTies | static/js/api.js:276-278 | for each change value, the rows of that change among the bottom `k` by change are the first rows of that change in input order |
| StockApi.Losers | static/js/api.js:273-279 | the `slice(0, limit)` count of the rows with a finite change (10 when the limit is missing or zero, never more than a limit of 1 or more), in non-decreasing change, drawn from the rows; no row left out has a smaller change than one kept; for each change value the rows kept are the first rows of that change in input order |
| StockApi.CacheTtl | static/js/api.js:6-12 | five minutes when the setting is not a finite number, 0 for a setting of 0 or less, else the setting in milliseconds; never negative |
| StockApi.StoreThenLookup | static/js/api.js:16-30 | a value written is read back unchanged until it expires, and the read leaves the cache as it was |
| StockApi.StoreThenExpire | static/js/api.js:20-23 | after expiry the read misses and deletes the entry |
| StockApi.ZeroTtlNeverHits | static/js/api.js:16-30 | with a time to live of 0, a write changes nothing and every read misses |
| StockApi.OtherKeysUntouched | static/js/api.js:16-30 | a read or a write leaves every other key as it was |
| StockApi.AfterStockLoadsFrame | static/js/api.js:131-137 | loading a list of stocks leaves the entry of every key outside their `stock:` keys as it was |
| StockApi.CodeList | static/js/api.js:224 | every code kept is trimmed and non-empty, and no codes give no list |
| StockApi.CodeListAppend | static/js/api.js:224 | one more code adds its trimmed text at the end of the list, or nothing when it is blank |
| StockApi.Latest | static/js/api.js:195-202 | an error exactly when there are no rows; otherwise a row with the latest date, the first such row in input order |
| StockApi.WindowStats | static/js/api.js:204-212 | an error exactly when the window is empty; otherwise the statistics of the window, over at least one day |
| StockApi.CompareLoaded | static/js/api.js:225-232 | no entry exactly when the load fails or the `days` window of its rows is empty; otherwise the one entry is `calculateStats` of the stock's code over that window |
| StockApi.PushStats | static/js/api.js:225-232 | appends `calculateStats` of the code over the window when the stock loaded with a non-empty window, and nothing when the load failed or the window is empty |
| StockApi.CompareAllAppend | static/js/api.js:224-233 | one more code appends exactly that code's outcome |
| StockApi.CompareKeepsOrder | static/js/api.js:220-236 | the codes of the stocks compared are a subsequence of the codes, so input order is kept, and each covers at least one day |
| StockApi.CompareOnlyLoaded | static/js/api.js:225-232 | every entry is `calculateStats` of one of the codes over its window, for a code that loaded with a non-empty window |
| StockApi.CompareSkips | static/js/api.js:226-233 | a code whose load fails or whose window is empty adds nothing: the result is as without it |
| StockApi.CompareKeepsEvery | static/js/api.js:224-233 | every code that loads with a non-empty window has its statistics in the result |
| StockApi.SummaryLoaded | static/js/api.js:243-252 | an entry exactly when the stock loads with rows; then it holds the code, the date text and close of the first row with the latest date, and the row count |
| StockApi.PushSummary | static/js/api.js:243-252 | appends the summary `SummaryLoaded` states (code, newest date and close, row count) when the stock loaded with rows, and nothing when the load failed or gave no rows |
| StockApi.SummaryKeepsOrder | static/js/api.js:238-259 | the codes of the summary entries are a subsequence of the codes, so input order is kept |
| StockApi.SummaryOnlyLoaded | static/js/api.js:243-252 | every entry is the summary of one of the codes, for a code that loaded with rows |
| StockApi.SummaryKeepsEvery | static/js/api.js:242-256 | every code that loads with rows has its summary (newest date and close, row count) in the result |
| StockApi.SummarySkips | static/js/api.js:244-255 | a code whose load fails or gives no rows adds nothing: the result is as without it |
| StockApi.SummaryAllAppend | static/js/api.js:242-256 | one more code appends exactly that code's entry |
| StockApi.DataAdapter.constructor | static/js/api.js:6-14 | the cache starts empty, with the configured time to live |
| StockApi.DataAdapter.ReadCache | static/js/api.js:16-25 | returns the live entry's value, or misses; deletes an expired entry and nothing else |
| StockApi.DataAdapter.WriteCache | static/js/api.js:27-30 | stores the value under the key, expiring `ttl` later; a no-op when caching is off |
| StockApi.DataAdapter.LoadStockRows | static/js/api.js:129-139 | returns what a fresh load of the stock file gives; the cache becomes `AfterStockLoad` of the old one: unchanged on a hit, the expired entry dropped and the loaded rows stored on a miss; every entry keeps holding what its file gives |
| StockApi.DataAdapter.LoadDailyRows | static/js/api.js:141-151 | returns what a fresh load of the daily file gives; the cache becomes `AfterDailyLoad` of the old one, with the same hit and miss behaviour |
| StockApi.DataAdapter.GetStock | static/js/api.js:189-193 | the load error, or the newest `limit` rows (the default when the limit is missing or zero); the cache is what loading the stock once leaves (`AfterStockLoad`) |
| StockApi.DataAdapter.GetLatest | static/js/api.js:195-202 | the load error, an error without rows, or the first row with the latest date; the cache is what loading the stock once leaves |
| StockApi.DataAdapter.GetStats | static/js/api.js:204-212 | the load error, an error for an empty window, or the window's statistics; the cache is what loading the stock once leaves |
| StockApi.DataAdapter.GetRange | static/js/api.js:214-218 | the load error, or the rows within the range, newest first; the cache is what loading the stock once leaves |
| StockApi.DataAdapter.Compare | static/js/api.js:220-236 | the concatenation, over the trimmed non-empty codes in order, of `CompareLoaded` of each code's load: its `calculateStats` over the window when it loads with a non-empty window, nothing otherwise; the cache is what loading those codes one after another leaves (`AfterStockLoads`) |
| StockApi.DataAdapter.GetSummary | static/js/api.js:238-259 | the concatenation, over the trimmed non-empty codes in order, of `SummaryLoaded` of each code's load (code, newest date and close, row count for a code with rows, nothing otherwise), with their number; the cache is what loading those codes one after another leaves |
| StockApi.DataAdapter.GetDaily | static/js/api.js:261-263 | what a fresh load of the daily file gives; the cache is what loading that date once leaves (`AfterDailyLoad`) |
| StockApi.DataAdapter.GetGainers | static/js/api.js:265-271 | the load error, or the gainers of the loaded rows: the top `limit` (10 by default) rows with a change, by change descending, rows of equal change in file order; the cache is what loading that date once leaves |
| StockApi.DataAdapter.GetLosers | static/js/api.js:273-279 | the load error, or the losers of the loaded rows: the bottom `limit` (10 by default) rows with a change, by change ascending, rows of equal change in file order; the cache is what loading that date once leaves |
| AppState.Lookup | static/js/state.js:68-82 | the data of a present entry no older than its time to live (age equal to it still hits), otherwise a miss |
| AppState.AfterGet | static/js/state.js:68-82 | a read deletes the entry for its key only when that entry has expired, and touches nothing else |
| AppState.Store | static/js/state.js:55-61 | the key holds the data stamped now, with the given time to live or 300000; other keys are unchanged |
| AppState.Cleared | static/js/state.js:88-94 | a truthy key removes only that key; otherwise the cache is emptied |
| AppState.StoreThenGet | static/js/state.js:55-82 | data stored is read back until its time to live has passed, and the read deletes nothing |
| AppState.StoreThenExpire | static/js/state.js:76-79 | once its time to live has passed, the read misses and deletes the entry |
| AppState.StoreKeepsOtherKeys | static/js/state.js:55-61 | storing one key changes no read of another |
| AppState.GetIsStable | static/js/state.js:68-82 | reading again at the same time gives the same answers and deletes nothing more |
| AppState.ClearThenGet | static/js/state.js:88-94 | after a clear, a cleared key misses and every other key reads as before |
| AppState.State.constructor | static/js/state.js:6-15 | the view is `stock`; no last stock, empty cache, not connected |
| AppState.State.SetView | static/js/state.js:21-31 | the view reads back as set; nothing else changes |
| AppState.State.SetLastStock | static/js/state.js:37-47 | the last stock reads back as set; nothing else changes |
| AppState.State.SetApiStatus | static/js/state.js:100-102 | the status reads back as set; nothing else changes |
| AppState.State.SetCache | static/js/state.js:55-61 | the cache becomes `Store` of the old cache; nothing else changes |
| AppState.State.GetCache | static/js/state.js:68-82 | returns `Lookup` of the old cache, and the cache becomes `AfterGet` of it; nothing else changes |
| AppState.State.ClearCache | static/js/state.js:88-94 | the cache becomes `Cleared` of the old cache; nothing else changes |
| RenderStock.FormatDate | static/js/render/stock.js:9-13 | text whose length is not 8 is unchanged. An eight-character text gives ten characters, with `/` at positions 4 and 7 and its three segments in between. The copies at static/js/render/daily.js:9-13 and static/js/render/analysis.js:9-13 are the same code |
| RenderStock.FormatDateIdempotent | static/js/render/stock.js:9-13 | formatting a formatted date changes nothing |
| RenderStock.FormatDateUndo | static/js/render/stock.js:12 | removing the slashes from a formatted eight-character date gives it back |
| RenderStock.EightDigitDatesFormatted | static/js/render/stock.js:10-12 | every eight-digit integer date is formatted to ten characters |
| RenderStock.FormatPrice | static/js/render/stock.js:20-22 | `-` for a missing price, else its two-decimal text |
| RenderStock.FormatVolume | static/js/render/stock.js:29-34 | `-` for 0 or a missing volume; millions with one decimal and `M` from 1,000,000 on; thousands with no decimal and `K` from 1,000 on; the integer below that |
| RenderStock.VolumeSuffix | static/js/render/stock.js:29-34 | the text is `-` exactly for a falsy volume; it ends in `M` exactly from 1,000,000 on and in `K` exactly from 1,000 to 999,999 |
| RenderDaily.Changes | static/js/render/daily.js:55-57 | one change per row that has one |
| RenderDaily.CalculateMarketStats | static/js/render/daily.js:52-71 | missing exactly for missing or empty rows. Otherwise: the number of rows; the counts of rows that rose, fell and stayed level, whose sum is the number of rows with a change and never exceeds the total; and the up and down shares of the total in percent, non-negative and adding up to at most 100 |
| RenderDaily.MarketCounts | static/js/render/daily.js:55-61 | counting the change list by sign is counting the rows that rose, fell or stayed level, and the three counts add up to the rows with a change |
| RenderDaily.SignsPartition | static/js/render/daily.js:59-61 | every change is positive, negative or zero |
| RenderDaily.Percent | static/js/render/daily.js:68-69 | the share as a percentage: non-negative, at most 100 for a part of the whole, and 0 exactly when the part is empty |
| RenderDaily.RatioBounds | static/js/render/daily.js:68-69 | the two shares add up to at most 100 |
| RenderDaily.RankedStocks | static/js/render/daily.js:80-91 | at most `limit` of the rows with a change, drawn from the rows, in non-increasing change for gainers and non-decreasing for losers; no row left out ranks ahead of one kept; for each change value the rows kept are the first rows of that change in input order |
| RenderDaily.RankedAsAdapter | static/js/render/daily.js:80-91 | with the default limit, the page's ranking equals the adapter's gainers and losers |
| RenderAnalysis.VolumesCount | static/js/render/analysis.js:45 | one volume per row that has one |
| RenderAnalysis.VolumesPresent | static/js/render/analysis.js:45 | a value is among the volumes exactly when some row has it as its volume |
| RenderAnalysis.VolumesAppend | static/js/render/analysis.js:45 | the volumes of two runs of rows are those of the first followed by those of the second, so the input order is kept |
| RenderAnalysis.TotalVolumeAppend | static/js/render/analysis.js:52 | the total volume of two runs of rows is the sum of their totals |
| RenderAnalysis.PriceChange | static/js/render/analysis.js:53 | `NaN` without prices; from a non-zero first price (last − first) / first × 100; from a zero first price `Infinity`, `-Infinity` or `NaN` exactly as the last price is positive, negative or zero |
| RenderAnalysis.CalculateRangeStats | static/js/render/analysis.js:41-55 | missing exactly for missing or empty rows. Otherwise: the row count; the sum of the present volumes; the price change; the mean of the closes as the average; and the largest and smallest close, with min ≤ mean ≤ max, bounding every close, with both extremes attained. Without closes: `NaN`, `-Infinity`, `Infinity` |
| RenderAnalysis.CloseExtremes | static/js/render/analysis.js:50-51 | the largest and smallest closes bound every close and are closes of some row |
| RenderAnalysis.FirstClose | static/js/render/analysis.js:44-53 | the base of the change is the first row that has a close |
| RenderAnalysis.ChangeBaseIsNewest | static/js/render/analysis.js:53 | on rows sorted newest first, the base is a close at least as recent as every other close |
| RenderAnalysis.PriceChangeSign | static/js/render/analysis.js:53 | from a positive base the change is positive, negative or zero exactly as the last price is above, below or equal to the first |
| RenderStats.AnalyzeTrend | static/js/render/stats.js:10-25 | strong rise above 2 %, mild rise above 0 up to 2 %, clear drop below −2 %, mild drop below 0 down to −2 %, level otherwise |
| RenderStats.TrendClassBySign | static/js/render/stats.js:10-25 | the class is `up` exactly for a positive percentage, `down` exactly for a negative one, and `flat` otherwise (zero or `NaN`) |
| RenderStats.TrendAgainstAverage | static/js/render/stats.js:11-21 | against a positive average the trend compares the latest price with 1.02 and 0.98 times the average and with the average itself |
| RenderStats.Volatility | static/js/render/stats.js:39 | (max − min) / avg × 100 for a non-zero average; for a zero average `Infinity`, `-Infinity` or `NaN` as max is above, below or equal to min; finite and non-negative for a positive average with min ≤ max, and 0 for a flat range |
| RenderCompare.PerformanceClass | static/js/render/compare.js:18-23 | high exactly above a ratio of 1.05, low exactly below 0.95; never both |
| RenderCompare.PerformanceAgainstAverage | static/js/render/compare.js:18-23 | against a positive average: high exactly above 1.05 times it, low exactly below 0.95 times it, neither in between |
| RenderCompare.Round2 | static/js/render/compare.js:31 | a whole number of hundredths, within half a hundredth of the input, a tie going away from zero; positive exactly from 0.005 up and negative exactly from −0.005 down |
| RenderCompare.RoundNum | static/js/render/compare.js:31 | rounds a finite percentage and passes infinities and `NaN` through |
| RenderCompare.PerformanceLabel | static/js/render/compare.js:30-35 | above average exactly for a positive rounded percentage; below average, with its absolute value, exactly for a negative one; equal otherwise |
| RenderCompare.LabelByPercent | static/js/render/compare.js:30-35 | for a non-zero average the label follows the exact percentage (from 0.005 up, from −0.005 down, equal in between), and the figure shown is within 0.005 of it |
| RenderCompare.ClassAgreesWithLabel | static/js/render/compare.js:18-35 | a high performer is labelled above its average and a low one below it, for any prices |
| RenderCompare.RankPerformance | static/js/render/compare.js:41-58 | no data for missing or empty stocks; otherwise the best and the worst are among the stocks and rank at least as high, and no higher, than every stock; the best is the first of the top-ranked stocks in input order and the worst the last of the bottom-ranked ones |
| JsonUtils.Sanitize | core/json_utils.py:17-26 | a dict keeps its keys in order with sanitised values; a list or a tuple becomes a list of the same length, sanitised element by element; an invalid number becomes `None`; any other value is unchanged |
| JsonUtils.SanitizeKeepsKeys | core/json_utils.py:18-19 | a dict keeps exactly its keys, in order |
| JsonUtils.SanitizeSanitizes | core/json_utils.py:17-26 | the output has no invalid number and no tuple at any depth |
| JsonUtils.SanitizedHasNoInvalidNumber | core/json_utils.py:9-14 | a sanitised value has no `NaN` or infinity at any depth |
| JsonUtils.SanitizeFixes | core/json_utils.py:17-26 | a value already in output form is returned unchanged |
| JsonUtils.SanitizeIdempotent | core/json_utils.py:17-26 | sanitising twice is sanitising once, and the output has no `NaN` or infinity anywhere |

## Left out

**Host services and the runtime**

- Host number parsing and printing are parameters, not code:
  - `Number(text)`, `Number.isFinite`, `Date.parse` and `toFixed`;
  - `String(number)` in the export, which the round trip assumes reads back.
- IEEE-754 rounding is not modelled: prices are exact reals.
- `toFixed`:
  - the market shares, the range figures and the calibration win rates are the numbers before `toFixed(1)`/`toFixed(2)`;
  - the performance label's rounding is modelled as exact decimal rounding;
  - `formatChangePercent`'s `+-0.00%` corner is left out.
- Network and URL plumbing: `fetchText`, `buildDataUrl`, `ensureTrailingSlash` and `buildNotesUrl`.
  - A data file is read through the parameter `fetch`, which is a fixed function, so the server's files do not change while the page runs.
  - An entry the cache holds is what `fetch` gives for its key, the `Coherent` invariant of `StockApi.DataAdapter`.
- `Date.now()` and the current day are the parameter `now`.
  - The loads of `StockApi.DataAdapter` read the cache and write it at the same `now`. The source reads the clock twice, once in `readCache` before the fetch and once in `writeCache` after it, so its entry expires a fetch's duration later than the model's.
- `console.warn` and the `UI` notifications are left out: they are output only.
- The `await` loops of `compare` and `getSummary` are sequential loops. Interleaving with other requests is not modelled.
- Browser storage: `localStorage` and `JSON.parse` in `loadLocalRecords`/`saveLocalRecords` are left out.
  - `Notes.NotesStore.constructor` takes the stored records already read, or `None` for missing or corrupt storage.
  - Stored records are taken as already normalised, and are only stamped `local`.
- The export's `Blob` and download link are left out; only the line building is modelled.

**Modelling choices**

- `Notes.NotesStore.AddRecord` gets the form as the trimmed values `UI.getValue` returns. The field facts of `Notes.NewRecordFields` require that trimming (`FormTrimmed`), since ui.js is not part of this model.
  - The form reset after adding is left out.
- JavaScript property lookup on plain objects is not modelled. Two cases are affected:
  - `HEADER_MAP[header]` for a header such as `constructor`;
  - the `State.cache` entry for a key such as `toString`.
  Keys are plain strings here.
- `Object.entries` order of the calibration maps is not modelled. Both callers sort the rows; `Notes.ConfidenceBias` states its rows as a set.
- `AppState.State.SetCache` takes the time to live as a number or `undefined` (`None`); a non-numeric value is not modelled. `AppState.State.SetLastStock` takes a string.
- `StockApi.FilterByDateRange` takes the bounds as the numbers `Number(start)`/`Number(end)` give, `None` for `NaN`; `Number(null)` is the caller's 0.
- `RenderStats.AnalyzeTrend` takes the latest and average prices as numbers. A `null` statistic makes the card fail later in `toFixed`, and that is not modelled.
- `RenderCompare.RankPerformance` ranks a stock whose ratio is not finite (zero or missing average) as 0. JavaScript's sort with a `NaN` comparator result has an implementation-defined order.
- `Notes.NotesStore.ResultChange` takes the row index as an integer. A `NaN` index picks no record in the source, as an out-of-range index does.
- Python dict keys are strings in `JsonUtils.PyValue`, and `bool` counts as an `int`.
- JsString.ToUpper: upper-cases the ASCII letters only. JavaScript's `toUpperCase` also maps non-ASCII letters (`é` to `É`) and can lengthen the text (`ß` to `SS`); those mappings are not modelled.

**Not part of the core**

- `getPreMarketRecords`, `remindUnreviewed`, `getToday`, `truncate` and `escapeHtml` are left out.
- Not part of this model:
  - the HTML templates of every `render*` function;
  - `updateFilterOptions`;
  - static/js/ui.js and static/js/app.js;
  - the Python web layer.

=== FILE: app_state.dfy ===
/** The page's global state object (`State` in static/js/state.js): the current view, the last
    stock code looked up, a cache whose entries each carry their own time to live, and the API
    connection flag. `Date.now()` is the `now` parameter of the members that read the clock; the
    cached data is of any type `D`. */
module AppState {
  import opened Wrappers

  /** The time to live `setCache` uses when none is given: five minutes, in milliseconds. */
  const DefaultTtl: real := 300000.0

  /** `{ data, timestamp, ttl }`. */
  datatype Entry<D> = Entry(data: D, timestamp: real, ttl: real)

  type Cache<D> = map<string, Entry<D>>

  /** An entry is still served while its age is at most its time to live: it expires only once
      `now - timestamp > ttl`, so an entry exactly `ttl` old is still a hit. */
  predicate Live<D>(e: Entry<D>, now: real) {
    now - e.timestamp <= e.ttl
  }

  /** What `getCache(key)` returns: the data of a live entry, else `null`. */
  function Lookup<D>(cache: Cache<D>, key: string, now: real): (r: Option<D>)
    ensures r.Some? <==> key in cache && Live(cache[key], now)
    ensures r.Some? ==> r.value == cache[key].data
  {
    if key in cache && Live(cache[key], now) then Some(cache[key].data) else None
  }

  /** The cache after `getCache(key)`: an expired entry for `key` is deleted, nothing else
      changes. */
  function AfterGet<D>(cache: Cache<D>, key: string, now: real): (c: Cache<D>)
    ensures c.Keys <= cache.Keys
    ensures forall k :: k in cache ==> (k in c <==> k != key || Live(cache[k], now))
    ensures forall k :: k in c ==> c[k] == cache[k]
  {
    if key in cache && !Live(cache[key], now) then cache - {key} else cache
  }

  /** The cache after `setCache(key, data, ttl)` at time `now` (`ttl` defaults to five
      minutes when it is not given). */
  function Store<D>(cache: Cache<D>, key: string, data: D, ttl: Option<real>, now: real): (c: Cache<D>)
    ensures c.Keys == cache.Keys + {key}
    ensures c[key] == Entry(data, now, ttl.GetOr(DefaultTtl))
    ensures forall k :: k in cache && k != key ==> c[k] == cache[k]
  {
    cache[key := Entry(data, now, ttl.GetOr(DefaultTtl))]
  }

  /** JavaScript truthiness of the optional key of `clearCache`: `null`, `undefined` and the
      empty string are falsy. */
  predicate Truthy(key: Option<string>) {
    key.Some? && key.value != ""
  }

  /** The cache after `clearCache(key)`: a truthy key deletes only that entry, any other key
      empties the cache. */
  function Cleared<D>(cache: Cache<D>, key: Option<string>): (c: Cache<D>)
    ensures Truthy(key) ==> c.Keys == cache.Keys - {key.value}
    ensures !Truthy(key) ==> c == map[]
    ensures forall k :: k in c ==> c[k] == cache[k]
  {
    if Truthy(key) then cache - {key.value} else map[]
  }

  /** Data stored at `now` is read back at any later time up to `ttl` afterwards, the moment
      `later == now + ttl` included. */
  lemma StoreThenGet<D>(cache: Cache<D>, key: string, data: D, ttl: Option<real>, now: real, later: real)
    requires later - now <= ttl.GetOr(DefaultTtl)
    ensures Lookup(Store(cache, key, data, ttl, now), key, later) == Some(data)
    ensures AfterGet(Store(cache, key, data, ttl, now), key, later) == Store(cache, key, data, ttl, now)
  {
  }

  /** Once more than `ttl` has passed the data is gone, and reading evicts it. */
  lemma StoreThenExpire<D>(cache: Cache<D>, key: string, data: D, ttl: Option<real>, now: real, later: real)
    requires later - now > ttl.GetOr(DefaultTtl)
    ensures Lookup(Store(cache, key, data, ttl, now), key, later) == None
    ensures key !in AfterGet(Store(cache, key, data, ttl, now), key, later)
  {
  }

  /** Storing under one key leaves what every other key reads unchanged. */
  lemma StoreKeepsOtherKeys<D>(cache: Cache<D>, key: string, other: string, data: D, ttl: Option<real>, now: real, later: real)
    requires other != key
    ensures Lookup(Store(cache, key, data, ttl, now), other, later) == Lookup(cache, other, later)
  {
  }

  /** A read changes no later answer at the same moment: reading again gives the same result
      and evicts nothing more. */
  lemma GetIsStable<D>(cache: Cache<D>, key: string, now: real)
    ensures Lookup(AfterGet(cache, key, now), key, now) == Lookup(cache, key, now)
    ensures AfterGet(AfterGet(cache, key, now), key, now) == AfterGet(cache, key, now)
    ensures forall k :: Lookup(AfterGet(cache, key, now), k, now) == Lookup(cache, k, now)
  {
  }

  /** After clearing a key it reads as a miss; the other keys read as before unless the whole
      cache was cleared. */
  lemma ClearThenGet<D>(cache: Cache<D>, key: Option<string>, k: string, now: real)
    ensures Truthy(key) && k == key.value ==> Lookup(Cleared(cache, key), k, now) == None
    ensures Truthy(key) && k != key.value ==> Lookup(Cleared(cache, key), k, now) == Lookup(cache, k, now)
    ensures !Truthy(key) ==> Lookup(Cleared(cache, key), k, now) == None
  {
  }

  /** The `State` object. */
  class State<D> {
    var currentView: string
    var lastStockCode: Option<string>
    var cache: Cache<D>
    var apiConnected: bool

    /** The initial object: the stock view, no last code, an empty cache, not connected. */
    constructor()
      ensures currentView == "stock" && lastStockCode == None
      ensures cache == map[] && !apiConnected
    {
      currentView := "stock";
      lastStockCode := None;
      cache := map[];
      apiConnected := false;
    }

    function GetView(): string
      reads this
    {
      currentView
    }

    function GetLastStock(): Option<string>
      reads this
    {
      lastStockCode
    }

    function IsApiConnected(): bool
      reads this
    {
      apiConnected
    }

    /** `setView(view)`: `getView()` now returns `view`; nothing else changes. */
    method SetView(view: string)
      modifies this
      ensures GetView() == view
      ensures lastStockCode == old(lastStockCode) && cache == old(cache) && apiConnected == old(apiConnected)
    {
      currentView := view;
    }

    /** `setLastStock(code)`: `getLastStock()` now returns `code`; nothing else changes. */
    method SetLastStock(code: string)
      modifies this
      ensures GetLastStock() == Some(code)
      ensures currentView == old(currentView) && cache == old(cache) && apiConnected == old(apiConnected)
    {
      lastStockCode := Some(code);
    }

    /** `setApiStatus(connected)`: `isApiConnected()` now returns `connected`; nothing else
        changes. */
    method SetApiStatus(connected: bool)
      modifies this
      ensures IsApiConnected() == connected
      ensures currentView == old(currentView) && lastStockCode == old(lastStockCode) && cache == old(cache)
    {
      apiConnected := connected;
    }

    /** `setCache(key, data, ttl)` at time `now`. */
    method SetCache(key: string, data: D, ttl: Option<real>, now: real)
      modifies this
      ensures cache == Store(old(cache), key, data, ttl, now)
      ensures currentView == old(currentView) && lastStockCode == old(lastStockCode) && apiConnected == old(apiConnected)
    {
      cache := cache[key := Entry(data, now, ttl.GetOr(DefaultTtl))];
    }

    /** `getCache(key)` at time `now`: a miss for an absent key; an expired entry is deleted
        and reported as a miss; otherwise the stored data. */
    method GetCache(key: string, now: real) returns (r: Option<D>)
      modifies this
      ensures r == Lookup(old(cache), key, now)
      ensures cache == AfterGet(old(cache), key, now)
      ensures currentView == old(currentView) && lastStockCode == old(lastStockCode) && apiConnected == old(apiConnected)
    {
      if key !in cache {
        return None;
      }
      var cached := cache[key];
      if now - cached.timestamp > cached.ttl {
        cache := cache - {key};
        return None;
      }
      return Some(cached.data);
    }

    /** `clearCache(key)`. */
    method ClearCache(key: Option<string>)
      modifies this
      ensures cache == Cleared(old(cache), key)
      ensures currentView == old(currentView) && lastStockCode == old(lastStockCode) && apiConnected == old(apiConnected)
    {
      if key.Some? && key.value != "" {
        cache := cache - {key.value};
      } else {
        cache := map[];
      }
    }
  }
}

=== FILE: coerce.dfy ===
/** The text-to-number coercions shared by the data adapter (static/js/api.js) and the notes
    page (static/js/notes.js, whose `toNumber` is the same code). The host's `Number(text)`
    followed by `Number.isFinite` is the parameter `parse`: `None` stands for NaN and the two
    infinities. A missing value (`null`/`undefined`) is `None` on the way in. */
module Coerce {
  import opened Wrappers
  import opened JsString
  import Seqs

  /** `String(value).replace(/,/g, '').trim()`: no comma, no surrounding whitespace. */
  function Cleaned(s: string): (r: string)
    ensures ',' !in r && IsTrimmed(r)
  {
    var t := RemoveAll(s, ',');
    var r := Trim(t);
    assert forall i :: 0 <= i < |r| ==> r[i] in t;
    r
  }

  /** `toNumber`: `null` for a missing value, for text that is empty once commas and
      surrounding whitespace are gone, and for a non-finite parse. */
  function ToNumber(value: Option<string>, parse: string -> Option<real>): (r: Option<real>)
    ensures r.Some? <==> value.Some? && Cleaned(value.value) != "" && parse(Cleaned(value.value)).Some?
    ensures r.Some? ==> r == parse(Cleaned(value.value))
  {
    match value
    case None => None
    case Some(s) =>
      var cleaned := Cleaned(s);
      if cleaned == "" then None else parse(cleaned)
  }

  /** Commas anywhere in the text do not matter to `toNumber`. */
  lemma ToNumberIgnoresCommas(s: string, parse: string -> Option<real>)
    ensures ToNumber(Some(RemoveAll(s, ',')), parse) == ToNumber(Some(s), parse)
  {
    RemoveAllTwice(s, ',');
  }

  lemma RemoveAllTwice(s: string, c: char)
    ensures RemoveAll(RemoveAll(s, c), c) == RemoveAll(s, c)
  {
  }

  /** Text made only of commas and whitespace is no number. */
  lemma {:induction false} ToNumberBlank(s: string, parse: string -> Option<real>)
    requires forall i :: 0 <= i < |s| ==> s[i] == ',' || IsSpace(s[i])
    ensures ToNumber(Some(s), parse) == None
  {
    RemoveAllKeepsOthers(s, ',');
    TrimEmptyIffAllSpace(RemoveAll(s, ','));
  }

  /** Every character `RemoveAll` keeps comes from its input. */
  lemma {:induction false} RemoveAllKeepsOthers(s: string, c: char)
    ensures forall i :: 0 <= i < |RemoveAll(s, c)| ==> RemoveAll(s, c)[i] in s
  {
    if s != [] {
      RemoveAllKeepsOthers(s[1..], c);
      var head := if s[0] == c then [] else [s[0]];
      var r := RemoveAll(s, c);
      assert r == head + RemoveAll(s[1..], c);
      forall i | 0 <= i < |r| ensures r[i] in s {
        if i < |head| {
          assert r[i] == s[0];
        } else {
          assert r[i] == RemoveAll(s[1..], c)[i - |head|];
          assert r[i] in s[1..];
        }
      }
    }
  }

  /** `toInt`: `toNumber` truncated toward zero (`Math.trunc`). */
  function ToInt(value: Option<string>, parse: string -> Option<real>): (r: Option<int>)
    ensures r.Some? <==> ToNumber(value, parse).Some?
    ensures r.Some? ==> var x := ToNumber(value, parse).value;
      (x >= 0.0 ==> r.value as real <= x < r.value as real + 1.0)
      && (x < 0.0 ==> r.value as real - 1.0 < x <= r.value as real)
  {
    match ToNumber(value, parse)
    case None => None
    case Some(x) => Some(Seqs.Trunc(x))
  }

  /** `String(value).replace('%', '').replace('+', '').trim()`: with a string pattern `replace`
      drops only the first `%` and then only the first `+`; commas stay. */
  function PercentCleaned(s: string): (r: string)
    ensures IsTrimmed(r)
  {
    Trim(RemoveFirst(RemoveFirst(s, '%'), '+'))
  }

  /** `toPercent`: like `toNumber` but over `PercentCleaned`. */
  function ToPercent(value: Option<string>, parse: string -> Option<real>): (r: Option<real>)
    ensures r.Some? <==> value.Some? && PercentCleaned(value.value) != "" && parse(PercentCleaned(value.value)).Some?
    ensures r.Some? ==> r == parse(PercentCleaned(value.value))
  {
    match value
    case None => None
    case Some(s) =>
      var cleaned := PercentCleaned(s);
      if cleaned == "" then None else parse(cleaned)
  }

  /** A signed percentage `+n%` is read as the number `n`. */
  lemma ToPercentSigned(n: string, parse: string -> Option<real>)
    requires '%' !in n && '+' !in n && IsTrimmed(n) && n != ""
    ensures ToPercent(Some("+" + n + "%"), parse) == parse(n)
  {
    var s := "+" + n + "%";
    assert s[..|n| + 1] == "+" + n;
    IndexOfAt(s, '%', |n| + 1);
    var t := RemoveFirst(s, '%');
    assert t == "+" + n;
    IndexOfAt(t, '+', 0);
    assert RemoveFirst(t, '+') == n;
    TrimTrimmed(n);
  }

  /** Only the first `%` goes: a doubled percent sign leaves one behind for the parser. */
  lemma PercentCleanedKeepsSecond(n: string)
    requires '%' !in n && '+' !in n && IsTrimmed(n) && n != ""
    ensures PercentCleaned(n + "%%") == n + "%"
  {
    var s := n + "%%";
    assert s[..|n|] == n;
    IndexOfAt(s, '%', |n|);
    var t := RemoveFirst(s, '%');
    assert t == n + "%";
    assert '+' !in t;
    assert IsTrimmed(t);
    TrimTrimmed(t);
  }
}

=== FILE: date_value.dfy ===
/** `toDateValue` of the notes page (static/js/notes.js): the sort key of a record's date, in
    milliseconds since 1970-01-01 UTC. Compact `YYYYMMDD` dates go through `Date.UTC`, whose day
    arithmetic is written out here as section 21.4.1 of ECMA-262 defines it (DayFromYear,
    MakeDay, the two-digit-year rule of `Date.UTC`); every other date text goes to the host's
    `Date.parse`, the parameter `dateParse` (`None` for NaN). */
module DateValue {
  import opened Wrappers
  import opened JsString

  predicate IsLeapYear(y: int) {
    y % 4 == 0 && (y % 100 != 0 || y % 400 == 0)
  }

  function DaysInYear(y: int): int {
    if IsLeapYear(y) then 366 else 365
  }

  /** Day number of the first day of year `y` (DayFromYear). */
  function DayFromYear(y: int): int {
    365 * (y - 1970) + (y - 1969) / 4 - (y - 1901) / 100 + (y - 1601) / 400
  }

  /** Days in month `m` of year `y`, months counted from 0 as in ECMAScript. */
  function DaysInMonth(y: int, m: int): int
    requires 0 <= m < 12
  {
    if m == 1 then (if IsLeapYear(y) then 29 else 28)
    else if m == 3 || m == 5 || m == 8 || m == 10 then 30
    else 31
  }

  /** Days of year `y` before the first of month `m`. */
  function DaysBeforeMonth(y: int, m: int): int
    requires 0 <= m < 12
  {
    var table := [0, 31, 59, 90, 120, 151, 181, 212, 243, 273, 304, 334];
    table[m] + (if IsLeapYear(y) && m >= 2 then 1 else 0)
  }

  /** MakeDay(year, month, date) on integer arguments: the month may run past either end of the
      year and is carried into the year with floor division, and the date is added linearly. */
  function MakeDay(year: int, month: int, date: int): int {
    var ym := year + month / 12;
    var mn := month % 12;
    DayFromYear(ym) + DaysBeforeMonth(ym, mn) + date - 1
  }

  /** `Date.UTC(y, m, d)` divided by the length of a day: years 0 to 99 mean 1900 to 1999. */
  function UtcDay(y: int, m: int, d: int): int {
    MakeDay(if 0 <= y <= 99 then 1900 + y else y, m, d)
  }

  /** `Number(s)` for a string of decimal digits. */
  function DigitsValue(s: string): (n: nat)
    requires AllDigits(s)
  {
    if s == [] then 0
    else
      assert IsDigit(s[|s| - 1]);
      DigitsValue(s[..|s| - 1]) * 10 + (s[|s| - 1] as int - '0' as int)
  }

  predicate AllDigits(s: string) {
    forall i :: 0 <= i < |s| ==> IsDigit(s[i])
  }

  /** `/^\d{8}$/`. */
  predicate IsCompactDate(s: string) {
    |s| == 8 && AllDigits(s)
  }

  /** `/^\d{4}[-/]\d{2}[-/]\d{2}$/`. */
  predicate IsSeparatedDate(s: string) {
    |s| == 10 && (forall i :: 0 <= i < |s| && i != 4 && i != 7 ==> IsDigit(s[i]))
    && (s[4] == '-' || s[4] == '/') && (s[7] == '-' || s[7] == '/')
  }

  /** `s.replace(/\//g, '-')`. */
  function SlashesToDashes(s: string): (r: string)
    ensures |r| == |s|
    ensures forall i :: 0 <= i < |s| ==> r[i] == if s[i] == '/' then '-' else s[i]
  {
    if s == [] then [] else [if s[0] == '/' then '-' else s[0]] + SlashesToDashes(s[1..])
  }

  /** The day number `Date.UTC` gives a compact date. */
  function CompactDay(s: string): int
    requires IsCompactDate(s)
  {
    UtcDay(DigitsValue(s[..4]), DigitsValue(s[4..6]) - 1, DigitsValue(s[6..]))
  }

  /** `toDateValue(value)`: 0 for an empty value; a compact date through `Date.UTC` (a day is
      86400000 milliseconds); a dashed or slashed date through `Date.parse` after turning slashes
      into dashes; anything else through `Date.parse`; 0 wherever the parse is not finite. */
  function ToDateValue(value: string, dateParse: string -> Option<real>): (r: real)
    ensures value == "" ==> r == 0.0
  {
    if value == "" then 0.0 else TrimmedDateValue(Trim(value), dateParse)
  }

  /** The branches of `toDateValue` after the trim. */
  function TrimmedDateValue(str: string, dateParse: string -> Option<real>): real {
    if IsCompactDate(str) then CompactDay(str) as real * 86400000.0
    else if IsSeparatedDate(str) then dateParse(SlashesToDashes(str)).GetOr(0.0)
    else dateParse(str).GetOr(0.0)
  }

  // ---------------------------------------------------------------------------------------
  // Calendar facts.

  /** Consecutive years are `DaysInYear` apart. */
  lemma DayFromYearStep(y: int)
    ensures DayFromYear(y + 1) == DayFromYear(y) + DaysInYear(y)
  {
    LeapCountStep(y);
    CenturyCountStep(y);
    QuadCenturyCountStep(y);
    LeapDays(y);
  }

  /** A year has one extra day per divisibility by 4, less one for 100, plus one for 400. */
  lemma LeapDays(y: int)
    ensures DaysInYear(y) == 365 + (if y % 4 == 0 then 1 else 0) - (if y % 100 == 0 then 1 else 0)
                                 + (if y % 400 == 0 then 1 else 0)
  {
    if y % 100 == 0 {
      var k := y / 100;
      assert y == 4 * (25 * k);
    }
    if y % 400 == 0 {
      var k := y / 400;
      assert y == 100 * (4 * k);
    }
  }

  /** The count of years divisible by 4 goes up by one exactly at such a year; likewise for 100
      and 400. */
  lemma LeapCountStep(y: int)
    ensures (y - 1968) / 4 == (y - 1969) / 4 + (if y % 4 == 0 then 1 else 0)
  {
  }

  lemma CenturyCountStep(y: int)
    ensures (y - 1900) / 100 == (y - 1901) / 100 + (if y % 100 == 0 then 1 else 0)
  {
  }

  lemma QuadCenturyCountStep(y: int)
    ensures (y - 1600) / 400 == (y - 1601) / 400 + (if y % 400 == 0 then 1 else 0)
  {
  }

  lemma {:induction false} DayFromYearMonotone(y1: int, y2: int)
    requires y1 < y2
    ensures DayFromYear(y1) + DaysInYear(y1) <= DayFromYear(y2)
    decreases y2 - y1
  {
    DayFromYearStep(y1);
    if y1 + 1 < y2 {
      DayFromYearMonotone(y1 + 1, y2);
    }
  }

  /** The months of a year tile it. */
  lemma MonthsTileYear(y: int, m: int)
    requires 0 <= m < 12
    ensures DaysBeforeMonth(y, m) + DaysInMonth(y, m) == if m == 11 then DaysInYear(y) else DaysBeforeMonth(y, m + 1)
  {
  }

  lemma MonthOrder(y: int, m1: int, m2: int)
    requires 0 <= m1 < m2 < 12
    ensures DaysBeforeMonth(y, m1) + DaysInMonth(y, m1) <= DaysBeforeMonth(y, m2)
  {
  }

  predicate ValidDate(y: int, m: int, d: int) {
    0 <= m < 12 && 1 <= d <= DaysInMonth(y, m)
  }

  /** The day number of a valid calendar date (month counted from 0). */
  function CivilDay(y: int, m: int, d: int): int
    requires 0 <= m < 12
  {
    DayFromYear(y) + DaysBeforeMonth(y, m) + d - 1
  }

  lemma DayWithinYear(y: int, m: int, d: int)
    requires ValidDate(y, m, d)
    ensures DayFromYear(y) <= CivilDay(y, m, d) < DayFromYear(y) + DaysInYear(y)
  {
    MonthsTileYear(y, m);
    if m < 11 {
      MonthOrder(y, m, 11);
      MonthsTileYear(y, 11);
    }
  }

  /** Day numbers follow calendar order: a date earlier in (year, month, day) order has a
      smaller day number. */
  lemma CivilOrder(y1: int, m1: int, d1: int, y2: int, m2: int, d2: int)
    requires ValidDate(y1, m1, d1) && ValidDate(y2, m2, d2)
    requires y1 < y2 || (y1 == y2 && (m1 < m2 || (m1 == m2 && d1 < d2)))
    ensures CivilDay(y1, m1, d1) < CivilDay(y2, m2, d2)
  {
    if y1 < y2 {
      DayWithinYear(y1, m1, d1);
      DayWithinYear(y2, m2, d2);
      DayFromYearMonotone(y1, y2);
    } else if m1 < m2 {
      MonthOrder(y1, m1, m2);
    }
  }

  /** MakeDay on an in-range month is the calendar day number. */
  lemma MakeDayInRange(y: int, m: int, d: int)
    requires 0 <= m < 12
    ensures MakeDay(y, m, d) == CivilDay(y, m, d)
  {
  }

  /** A month past December carries into the next year. */
  lemma MakeDayCarry(y: int, m: int, d: int)
    ensures MakeDay(y, m + 12, d) == MakeDay(y + 1, m, d)
  {
    assert (m + 12) / 12 == m / 12 + 1;
    assert (m + 12) % 12 == m % 12;
  }

  /** The first of January 1970 is day 0. */
  lemma EpochIsDayZero()
    ensures CivilDay(1970, 0, 1) == 0
  {
  }

  // ---------------------------------------------------------------------------------------
  // Facts about toDateValue.

  /** Compact dates with years from 100 on sort in calendar order. */
  lemma CompactDateOrder(a: string, b: string, dateParse: string -> Option<real>)
    requires IsCompactDate(a) && IsCompactDate(b)
    requires var ya, ma, da := DigitsValue(a[..4]), DigitsValue(a[4..6]) - 1, DigitsValue(a[6..]);
      var yb, mb, db := DigitsValue(b[..4]), DigitsValue(b[4..6]) - 1, DigitsValue(b[6..]);
      ya >= 100 && yb >= 100 && ValidDate(ya, ma, da) && ValidDate(yb, mb, db)
      && (ya < yb || (ya == yb && (ma < mb || (ma == mb && da < db))))
    ensures ToDateValue(a, dateParse) < ToDateValue(b, dateParse)
  {
    ToDateValueCompact(a, dateParse);
    ToDateValueCompact(b, dateParse);
    var ya, ma, da := DigitsValue(a[..4]), DigitsValue(a[4..6]) - 1, DigitsValue(a[6..]);
    var yb, mb, db := DigitsValue(b[..4]), DigitsValue(b[4..6]) - 1, DigitsValue(b[6..]);
    UtcDayOrder(ya, ma, da, yb, mb, db);
    assert CompactDay(a) < CompactDay(b);
  }

  /** `Date.UTC` keeps calendar order for valid dates with years from 100 on. */
  lemma UtcDayOrder(ya: int, ma: int, da: int, yb: int, mb: int, db: int)
    requires ya >= 100 && yb >= 100 && ValidDate(ya, ma, da) && ValidDate(yb, mb, db)
    requires ya < yb || (ya == yb && (ma < mb || (ma == mb && da < db)))
    ensures UtcDay(ya, ma, da) < UtcDay(yb, mb, db)
  {
    MakeDayInRange(ya, ma, da);
    MakeDayInRange(yb, mb, db);
    CivilOrder(ya, ma, da, yb, mb, db);
  }

  /** A compact date is read by `Date.UTC`, never by the host parser. */
  lemma ToDateValueCompact(s: string, dateParse: string -> Option<real>)
    requires IsCompactDate(s)
    ensures ToDateValue(s, dateParse) == CompactDay(s) as real * 86400000.0
  {
    assert IsDigit(s[0]) && IsDigit(s[7]);
    TrimTrimmed(s);
  }

  /** `Date.UTC` reads a compact year 0000 to 0099 as 1900 to 1999, so such a date gets the same
      value as the date 1900 years later. */
  lemma CompactTwoDigitYear(a: string, b: string, dateParse: string -> Option<real>)
    requires IsCompactDate(a) && IsCompactDate(b) && a[4..] == b[4..]
    requires DigitsValue(a[..4]) <= 99 && DigitsValue(b[..4]) == DigitsValue(a[..4]) + 1900
    ensures ToDateValue(a, dateParse) == ToDateValue(b, dateParse)
  {
    ToDateValueCompact(a, dateParse);
    ToDateValueCompact(b, dateParse);
    CompactDayTwoDigitYear(a, b);
  }

  lemma CompactDayTwoDigitYear(a: string, b: string)
    requires IsCompactDate(a) && IsCompactDate(b) && a[4..] == b[4..]
    requires DigitsValue(a[..4]) <= 99 && DigitsValue(b[..4]) == DigitsValue(a[..4]) + 1900
    ensures CompactDay(a) == CompactDay(b)
  {
    assert a[4..6] == b[4..6] by {
      assert a[4..6] == a[4..][..2] && b[4..6] == b[4..][..2];
    }
    assert a[6..] == b[6..] by {
      assert a[6..] == a[4..][2..] && b[6..] == b[4..][2..];
    }
  }

  /** A dashed or slashed date is handed to the host parser with its slashes turned into
      dashes, so the slashed and the dashed spelling of a date get the same value. */
  lemma ToDateValueSeparated(s: string, dateParse: string -> Option<real>)
    requires IsSeparatedDate(s)
    ensures ToDateValue(s, dateParse) == dateParse(SlashesToDashes(s)).GetOr(0.0)
    ensures ToDateValue(SlashesToDashes(s), dateParse) == ToDateValue(s, dateParse)
  {
    var d := SlashesToDashes(s);
    SlashesToDashesSeparated(s);
    SeparatedRead(s, dateParse);
    SeparatedRead(d, dateParse);
    NoSlashesUnchanged(d);
  }

  lemma SeparatedRead(s: string, dateParse: string -> Option<real>)
    requires IsSeparatedDate(s)
    ensures ToDateValue(s, dateParse) == dateParse(SlashesToDashes(s)).GetOr(0.0)
  {
    assert ToDateValue(s, dateParse) == TrimmedDateValue(s, dateParse) by {
      SeparatedTrimmed(s);
      TrimmedValue(s, dateParse);
    }
    SeparatedBranch(s, dateParse);
  }

  lemma TrimmedValue(value: string, dateParse: string -> Option<real>)
    requires value != "" && Trim(value) == value
    ensures ToDateValue(value, dateParse) == TrimmedDateValue(value, dateParse)
  {
  }

  lemma SeparatedBranch(s: string, dateParse: string -> Option<real>)
    requires IsSeparatedDate(s)
    ensures TrimmedDateValue(s, dateParse) == dateParse(SlashesToDashes(s)).GetOr(0.0)
  {
    assert !IsCompactDate(s);
  }

  /** Text without slashes has none to turn into dashes. */
  lemma NoSlashesUnchanged(d: string)
    requires '/' !in d
    ensures SlashesToDashes(d) == d
  {
    assert forall i :: 0 <= i < |d| ==> d[i] != '/' by { assert forall i :: 0 <= i < |d| ==> d[i] in d; }
  }

  /** A dashed or slashed date starts and ends with a digit, so it is its own trim. */
  lemma SeparatedTrimmed(s: string)
    requires IsSeparatedDate(s)
    ensures Trim(s) == s
  {
    DigitEndsTrimmed(s);
  }

  /** Text that starts and ends with a digit is its own trim. */
  lemma DigitEndsTrimmed(s: string)
    requires |s| > 0 && IsDigit(s[0]) && IsDigit(s[|s| - 1])
    ensures Trim(s) == s
  {
    TrimTrimmed(s);
  }

  /** Turning the slashes of a dashed or slashed date into dashes gives a dashed date. */
  lemma SlashesToDashesSeparated(s: string)
    requires IsSeparatedDate(s)
    ensures IsSeparatedDate(SlashesToDashes(s)) && '/' !in SlashesToDashes(s)
  {
    var d := SlashesToDashes(s);
    assert forall i :: 0 <= i < |d| ==> d[i] != '/';
  }

  /** Any other non-empty date is the host's reading of its trimmed text, or 0. */
  lemma ToDateValueGeneric(value: string, dateParse: string -> Option<real>)
    requires value != "" && !IsCompactDate(Trim(value)) && !IsSeparatedDate(Trim(value))
    ensures ToDateValue(value, dateParse) == dateParse(Trim(value)).GetOr(0.0)
  {
  }

  /** An empty date, or one the host cannot parse, sorts as 0 (the epoch). */
  lemma ToDateValueFallback(value: string, dateParse: string -> Option<real>)
    requires value == "" || (!IsCompactDate(Trim(value)) && !IsSeparatedDate(Trim(value)) && dateParse(Trim(value)).None?)
    ensures ToDateValue(value, dateParse) == 0.0
  {
  }
}

=== FILE: js_number.dfy ===
/** The values the pages' arithmetic on numbers can reach: a finite value, `Infinity` and
    `-Infinity` from a division of a non-zero value by zero, and `NaN` from `0 / 0`. Finite
    results are exact reals: IEEE-754 rounding is not modelled. */
module JsNumber {
  import opened Wrappers

  datatype Num = Finite(v: real) | PosInf | NegInf | NaN

  /** `Number(x)` for a field that may be `null`: `null` counts as `0`. */
  function NullAsZero(x: Option<real>): real {
    x.GetOr(0.0)
  }

  /** `a / b`. */
  function Div(a: real, b: real): (q: Num)
    ensures b != 0.0 ==> q == Finite(a / b)
    ensures b == 0.0 ==> (q == PosInf <==> a > 0.0) && (q == NegInf <==> a < 0.0) && (q == NaN <==> a == 0.0)
  {
    if b != 0.0 then Finite(a / b)
    else if a > 0.0 then PosInf
    else if a < 0.0 then NegInf
    else NaN
  }

  /** `n * c` for a positive constant `c`. */
  function Scale(n: Num, c: real): (r: Num)
    requires c > 0.0
    ensures n.Finite? <==> r.Finite?
    ensures n.Finite? ==> r.v == n.v * c
    ensures !n.Finite? ==> r == n
  {
    if n.Finite? then Finite(n.v * c) else n
  }

  /** `n > c`: never true of `NaN`. */
  predicate Greater(n: Num, c: real) {
    n.PosInf? || (n.Finite? && n.v > c)
  }

  /** `n < c`: never true of `NaN`. */
  predicate Less(n: Num, c: real) {
    n.NegInf? || (n.Finite? && n.v < c)
  }

  /** `Math.abs(n)`. */
  function Abs(n: Num): (r: Num)
    ensures !Less(r, 0.0)
    ensures n.Finite? ==> r.Finite? && (r.v == n.v || r.v == -n.v)
  {
    match n
    case Finite(v) => Finite(if v < 0.0 then -v else v)
    case PosInf => PosInf
    case NegInf => PosInf
    case NaN => NaN
  }

  /** Multiplying by a positive number keeps the sign. */
  lemma SignOfProduct(x: real, a: real)
    requires a > 0.0
    ensures x > 0.0 <==> x * a > 0.0
    ensures x < 0.0 <==> x * a < 0.0
  {
    if x > 0.0 {
      assert x * a > 0.0;
    } else if x < 0.0 {
      assert (-x) * a > 0.0;
    }
  }

  /** Against a positive divisor, a quotient compares with `c` as the dividend compares with
      `c` times the divisor. */
  lemma QuotientCompare(x: real, a: real, c: real)
    requires a > 0.0
    ensures x / a > c <==> x > c * a
    ensures x / a < c <==> x < c * a
  {
    var q := x / a;
    assert q * a == x;
    assert (q - c) * a == x - c * a;
    SignOfProduct(q - c, a);
  }

  /** A part of a positive whole is a share between 0 and 1: 0 exactly for no part, 1 exactly
      for the whole. */
  lemma ShareOf(part: real, total: real)
    requires 0.0 <= part <= total && total > 0.0
    ensures 0.0 <= part / total <= 1.0
    ensures part / total == 0.0 <==> part == 0.0
    ensures part / total == 1.0 <==> part == total
  {
    var q := part / total;
    assert q * total == part;
    assert (q - 1.0) * total == part - total;
    SignOfProduct(q, total);
    SignOfProduct(q - 1.0, total);
  }

  /** The shares of two parts that together fit in a positive whole add up to at most 1. */
  lemma SharesSum(x: real, y: real, total: real)
    requires total > 0.0 && x + y <= total
    ensures x / total + y / total <= 1.0
  {
    var a, b := x / total, y / total;
    assert a * total == x && b * total == y;
    assert (a + b - 1.0) * total == x + y - total;
    SignOfProduct(a + b - 1.0, total);
  }

  /** Dividing a product by a non-zero factor gives back the other factor. */
  lemma Cancel(y: real, a: real)
    requires a != 0.0
    ensures (y * a) / a == y
  {
    var d := (y * a) / a;
    assert d * a == y * a;
    assert (d - y) * a == 0.0;
    if d > y {
      if a > 0.0 { SignOfProduct(d - y, a); } else { SignOfProduct(d - y, -a); }
    } else if d < y {
      if a > 0.0 { SignOfProduct(d - y, a); } else { SignOfProduct(d - y, -a); }
    }
  }
}

=== FILE: json_utils.dfy ===
/** `sanitize_json` of the Python backend (core/json_utils.py): a recursive copy of a
    JSON-bound value in which every `NaN`, `inf` and `-inf` float becomes `None`, so that the
    response can be serialised as standard JSON. */
module JsonUtils {
  import opened JsNumber

  /** The Python values a response is built from. A dict is its items in insertion order;
      `int` stands for Python and numpy integers (and `bool`), which are never treated as
      invalid numbers. */
  datatype PyValue =
    | PyDict(items: seq<(string, PyValue)>)
    | PyList(elems: seq<PyValue>)
    | PyTuple(elems: seq<PyValue>)
    | PyFloat(f: Num)
    | NpFloat(f: Num)
    | PyInt(i: int)
    | PyStr(s: string)
    | PyNone

  /** `_is_invalid_number(value)`: a Python float or a numpy floating value that is `NaN` or
      infinite. */
  predicate IsInvalidNumber(value: PyValue) {
    (value.PyFloat? || value.NpFloat?) && !value.f.Finite?
  }

  /** `sanitize_json(value)`: a dict keeps its keys, in order, with sanitised values; a list
      and a tuple both become a list of the sanitised elements; an invalid number becomes
      `None`; every other value is returned as it is. */
  function Sanitize(value: PyValue): (r: PyValue)
    decreases value
    ensures value.PyDict? ==> r.PyDict? && |r.items| == |value.items|
    ensures value.PyDict? ==> forall i :: 0 <= i < |value.items| ==> r.items[i] == (value.items[i].0, Sanitize(value.items[i].1))
    ensures value.PyList? || value.PyTuple? ==> r.PyList? && |r.elems| == |value.elems|
    ensures value.PyList? || value.PyTuple? ==> forall i :: 0 <= i < |value.elems| ==> r.elems[i] == Sanitize(value.elems[i])
    ensures IsInvalidNumber(value) ==> r == PyNone
    ensures !value.PyDict? && !value.PyList? && !value.PyTuple? && !IsInvalidNumber(value) ==> r == value
  {
    match value
    case PyDict(items) =>
      PyDict(seq(|items|, i requires 0 <= i < |items| =>
        assert items[i] in items;
        (items[i].0, Sanitize(items[i].1))))
    case PyList(elems) =>
      PyList(seq(|elems|, i requires 0 <= i < |elems| => assert elems[i] in elems; Sanitize(elems[i])))
    case PyTuple(elems) =>
      PyList(seq(|elems|, i requires 0 <= i < |elems| => assert elems[i] in elems; Sanitize(elems[i])))
    case _ => if IsInvalidNumber(value) then PyNone else value
  }

  /** The keys of a dict, in order. */
  function Keys(items: seq<(string, PyValue)>): seq<string> {
    seq(|items|, i requires 0 <= i < |items| => items[i].0)
  }

  /** A value with no invalid number at any depth. */
  predicate NoInvalidNumber(value: PyValue)
    decreases value
  {
    match value
    case PyDict(items) => forall i :: 0 <= i < |items| ==> NoInvalidNumber(items[i].1)
    case PyList(elems) => forall i :: 0 <= i < |elems| ==> NoInvalidNumber(elems[i])
    case PyTuple(elems) => forall i :: 0 <= i < |elems| ==> NoInvalidNumber(elems[i])
    case _ => !IsInvalidNumber(value)
  }

  /** A value in the form `sanitize_json` produces: no invalid number and no tuple at any
      depth. */
  predicate Sanitized(value: PyValue)
    decreases value
  {
    match value
    case PyDict(items) => forall i :: 0 <= i < |items| ==> Sanitized(items[i].1)
    case PyList(elems) => forall i :: 0 <= i < |elems| ==> Sanitized(elems[i])
    case PyTuple(_) => false
    case _ => !IsInvalidNumber(value)
  }

  /** A dict keeps exactly its keys, in their order. */
  lemma SanitizeKeepsKeys(items: seq<(string, PyValue)>)
    ensures Sanitize(PyDict(items)).PyDict?
    ensures Keys(Sanitize(PyDict(items)).items) == Keys(items)
  {
  }

  /** The output of `sanitize_json` has no invalid number and no tuple at any depth. */
  lemma {:induction false} SanitizeSanitizes(value: PyValue)
    decreases value
    ensures Sanitized(Sanitize(value))
  {
    var r := Sanitize(value);
    match value
    case PyDict(items) =>
      forall i | 0 <= i < |items| ensures Sanitized(r.items[i].1) {
        assert items[i] in items;
        SanitizeSanitizes(items[i].1);
      }
    case PyList(elems) =>
      forall i | 0 <= i < |elems| ensures Sanitized(r.elems[i]) {
        assert elems[i] in elems;
        SanitizeSanitizes(elems[i]);
      }
    case PyTuple(elems) =>
      forall i | 0 <= i < |elems| ensures Sanitized(r.elems[i]) {
        assert elems[i] in elems;
        SanitizeSanitizes(elems[i]);
      }
    case _ =>
  }

  /** A sanitised value has no invalid number at any depth. */
  lemma {:induction false} SanitizedHasNoInvalidNumber(value: PyValue)
    decreases value
    requires Sanitized(value)
    ensures NoInvalidNumber(value)
  {
    match value
    case PyDict(items) =>
      forall i | 0 <= i < |items| ensures NoInvalidNumber(items[i].1) {
        assert items[i] in items;
        SanitizedHasNoInvalidNumber(items[i].1);
      }
    case PyList(elems) =>
      forall i | 0 <= i < |elems| ensures NoInvalidNumber(elems[i]) {
        assert elems[i] in elems;
        SanitizedHasNoInvalidNumber(elems[i]);
      }
    case _ =>
  }

  /** `sanitize_json` leaves a value already in its output form unchanged. */
  lemma {:induction false} SanitizeFixes(value: PyValue)
    decreases value
    requires Sanitized(value)
    ensures Sanitize(value) == value
  {
    match value
    case PyDict(items) =>
      forall i | 0 <= i < |items| ensures Sanitize(items[i].1) == items[i].1 {
        assert items[i] in items;
        SanitizeFixes(items[i].1);
      }
      assert Sanitize(value).items == items;
    case PyList(elems) =>
      forall i | 0 <= i < |elems| ensures Sanitize(elems[i]) == elems[i] {
        assert elems[i] in elems;
        SanitizeFixes(elems[i]);
      }
      assert Sanitize(value).elems == elems;
    case _ =>
  }

  /** `sanitize_json` is idempotent, and its output has no `NaN` or infinity at any depth. */
  lemma SanitizeIdempotent(value: PyValue)
    ensures Sanitize(Sanitize(value)) == Sanitize(value)
    ensures NoInvalidNumber(Sanitize(value))
  {
    SanitizeSanitizes(value);
    SanitizeFixes(Sanitize(value));
    SanitizedHasNoInvalidNumber(Sanitize(value));
  }
}

=== FILE: jsstring.dfy ===
/** JavaScript string operations the pipeline relies on, over `string == seq<char>`. */
module JsString {

  /** The characters `String.prototype.trim` removes: ECMAScript WhiteSpace and LineTerminator
      (tab, vertical tab, form feed, space, no-break space, the byte order mark, the Unicode
      space separators, line feed, carriage return, line and paragraph separators). */
  predicate IsSpace(c: char) {
    c == '\t' || c == '\n' || c == '\U{000B}' || c == '\U{000C}' || c == '\r' || c == ' '
    || c == '\U{00A0}' || c == '\U{1680}' || ('\U{2000}' <= c <= '\U{200A}')
    || c == '\U{2028}' || c == '\U{2029}' || c == '\U{202F}' || c == '\U{205F}' || c == '\U{3000}'
    || c == '\U{FEFF}'
  }

  /** No whitespace at either end. */
  predicate IsTrimmed(s: string) {
    s == [] || (!IsSpace(s[0]) && !IsSpace(s[|s| - 1]))
  }

  predicate AllSpace(s: string) {
    forall i {:trigger IsSpace(s[i])} :: 0 <= i < |s| ==> IsSpace(s[i])
  }

  function TrimStart(s: string): (r: string)
    ensures |r| <= |s| && r == s[|s| - |r|..]
    ensures r == [] || !IsSpace(r[0])
    ensures AllSpace(s[..|s| - |r|])
  {
    if s != [] && IsSpace(s[0]) then TrimStart(s[1..]) else s
  }

  function TrimEnd(s: string): (r: string)
    ensures |r| <= |s| && r == s[..|r|]
    ensures r == [] || !IsSpace(r[|r| - 1])
    ensures AllSpace(s[|r|..])
  {
    if s != [] && IsSpace(s[|s| - 1]) then TrimEnd(s[..|s| - 1]) else s
  }

  /** `s.trim()`: the infix of `s` left after dropping whitespace at both ends, `k` characters
      from the start. */
  function Trim(s: string): (r: string)
    ensures IsTrimmed(r)
    ensures var k := |s| - |TrimStart(s)|;
      k + |r| <= |s| && r == s[k..k + |r|] && AllSpace(s[..k]) && AllSpace(s[k + |r|..])
  {
    var a := TrimStart(s);
    var r := TrimEnd(a);
    TrimPieces(s, a, r);
    TrimEndTrimmed(a);
    r
  }

  /** Trimming the end of a string that does not start with whitespace leaves it trimmed. */
  lemma TrimEndTrimmed(a: string)
    requires a == [] || !IsSpace(a[0])
    ensures IsTrimmed(TrimEnd(a))
  {
    var r := TrimEnd(a);
    assert r != [] ==> r[0] == a[0];
  }

  /** Whitespace before a suffix `a` of `s`, and whitespace after a prefix `r` of `a`, leave `r`
      as an infix of `s` between two runs of whitespace. */
  lemma TrimPieces(s: string, a: string, r: string)
    requires |a| <= |s| && a == s[|s| - |a|..] && AllSpace(s[..|s| - |a|])
    requires |r| <= |a| && r == a[..|r|] && AllSpace(a[|r|..])
    ensures var k := |s| - |a|;
      k + |r| <= |s| && r == s[k..k + |r|] && AllSpace(s[..k]) && AllSpace(s[k + |r|..])
  {
    InfixOfSuffix(s, a, r);
  }

  /** A prefix `r` of a suffix `a` of `s` is an infix of `s`, followed by the rest of `a`. */
  lemma InfixOfSuffix(s: string, a: string, r: string)
    requires |a| <= |s| && a == s[|s| - |a|..]
    requires |r| <= |a| && r == a[..|r|]
    ensures var k := |s| - |a|; k + |r| <= |s| && r == s[k..k + |r|] && s[k + |r|..] == a[|r|..]
    ensures r != [] ==> r[0] == a[0]
  {
  }

  /** Trimming is idempotent: a trimmed string is its own trim. */
  lemma TrimTrimmed(s: string)
    requires IsTrimmed(s)
    ensures Trim(s) == s
  {
  }

  /** A string is trimmed to nothing exactly when it is all whitespace. */
  lemma {:induction false} TrimEmptyIffAllSpace(s: string)
    ensures Trim(s) == [] <==> AllSpace(s)
  {
    var r := Trim(s);
    var k := |s| - |TrimStart(s)|;
    if r == [] {
      assert s == s[..k] + s[k..];
      forall i | 0 <= i < |s| ensures IsSpace(s[i]) {
        if i < k { assert s[i] == s[..k][i]; }
      }
    } else {
      assert s[k] == r[0] && !IsSpace(s[k]);
    }
  }

  /** Every character of a trimmed string comes from the original. */
  lemma TrimChars(s: string)
    ensures forall j :: 0 <= j < |Trim(s)| ==> Trim(s)[j] in s
  {
    InfixChars(s, Trim(s), |s| - |TrimStart(s)|);
  }

  lemma InfixChars(s: string, r: string, k: nat)
    requires k + |r| <= |s| && r == s[k..k + |r|]
    ensures forall j :: 0 <= j < |r| ==> r[j] in s
  {
    forall j | 0 <= j < |r| ensures r[j] in s {
      assert r[j] == s[k + j];
    }
  }

  /** Leading whitespace (a byte order mark among it) does not survive a trim. */
  lemma TrimDropsLeadingSpace(c: char, s: string)
    requires IsSpace(c)
    ensures Trim([c] + s) == Trim(s)
  {
    var t := [c] + s;
    assert t[1..] == s;
    assert t != [] && IsSpace(t[0]);
    assert TrimStart(t) == TrimStart(s);
    assert Trim(t) == TrimEnd(TrimStart(t));
  }

  /** `'A'`..`'Z'` for `'a'`..`'z'`; other characters unchanged. */
  function UpperChar(c: char): char {
    if 'a' <= c <= 'z' then (c as int - 32) as char else c
  }

  predicate HasNoLowerAscii(s: string) {
    forall i :: 0 <= i < |s| ==> !('a' <= s[i] <= 'z')
  }

  /** `s.toUpperCase()` restricted to the ASCII letters. */
  function ToUpper(s: string): (r: string)
    ensures |r| == |s|
    ensures forall i :: 0 <= i < |s| ==> r[i] == UpperChar(s[i])
    ensures HasNoLowerAscii(r)
  {
    if s == [] then [] else [UpperChar(s[0])] + ToUpper(s[1..])
  }

  /** Upper-casing keeps every whitespace character where it is, so it preserves trimmedness. */
  lemma ToUpperTrimmed(s: string)
    requires IsTrimmed(s)
    ensures IsTrimmed(ToUpper(s))
  {
  }

  /** Upper-casing text without lower-case letters changes nothing. */
  lemma {:induction false} ToUpperIdentity(s: string)
    requires HasNoLowerAscii(s)
    ensures ToUpper(s) == s
  {
    if s != [] {
      ToUpperIdentity(s[1..]);
    }
  }

  /** `s.replace(/c/g, '')`: every occurrence of `c` removed. */
  function RemoveAll(s: string, c: char): (r: string)
    ensures c !in r
    ensures |r| <= |s|
    ensures c !in s ==> r == s
  {
    if s == [] then [] else (if s[0] == c then [] else [s[0]]) + RemoveAll(s[1..], c)
  }

  /** Removing a character distributes over concatenation. */
  lemma {:induction false} RemoveAllAppend(a: string, b: string, c: char)
    ensures RemoveAll(a + b, c) == RemoveAll(a, c) + RemoveAll(b, c)
  {
    if a == [] {
      assert a + b == b;
    } else {
      assert (a + b)[0] == a[0];
      assert (a + b)[1..] == a[1..] + b;
      RemoveAllAppend(a[1..], b, c);
    }
  }

  /** Removing a character from two pieces joined by it. */
  lemma {:induction false} RemoveAllAround(a: string, b: string, c: char)
    ensures RemoveAll(a + [c] + b, c) == RemoveAll(a, c) + RemoveAll(b, c)
  {
    var sep: string := [c];
    assert RemoveAll(sep, c) == [] by {
      assert sep[1..] == [];
    }
    RemoveAllAppend(a, sep, c);
    var ra := RemoveAll(a, c);
    assert RemoveAll(a + sep, c) == ra by { assert ra + [] == ra; }
    RemoveAllAppend(a + sep, b, c);
  }

  /** `s.indexOf(c)` for a character that occurs in `s`: the position of its first occurrence. */
  function IndexOf(s: string, c: char): (k: nat)
    requires c in s
    ensures k < |s| && s[k] == c && c !in s[..k]
  {
    if s[0] == c then 0
    else
      assert c in s[1..] by { assert s == [s[0]] + s[1..]; }
      var k := IndexOf(s[1..], c);
      assert s[..k + 1] == [s[0]] + s[1..][..k];
      k + 1
  }

  /** The first occurrence is the one with no `c` before it. */
  lemma IndexOfAt(s: string, c: char, k: nat)
    requires k < |s| && s[k] == c && c !in s[..k]
    ensures IndexOf(s, c) == k
  {
  }

  /** `s.replace(c, '')` with a string pattern: only the first occurrence of `c` is removed. */
  function RemoveFirst(s: string, c: char): (r: string)
    ensures c !in s ==> r == s
    ensures c in s ==> r == s[..IndexOf(s, c)] + s[IndexOf(s, c) + 1..]
  {
    if c in s then s[..IndexOf(s, c)] + s[IndexOf(s, c) + 1..] else s
  }

  /** `s.split(re)` for a regular expression that matches exactly one character of `seps`
      (`s.split(c)` is the case `seps == {c}`); like JavaScript, `"".split(...)` is `[""]`. */
  function Split(s: string, seps: set<char>): (r: seq<string>)
    ensures |r| >= 1
    ensures FreeOf(r, seps)
  {
    if s == [] then [""]
    else
      var rest := Split(s[1..], seps);
      if s[0] in seps then [""] + rest else [[s[0]] + rest[0]] + rest[1..]
  }

  /** `parts.join(sep)`. */
  function Join(parts: seq<string>, sep: string): string {
    if |parts| == 0 then "" else if |parts| == 1 then parts[0] else parts[0] + sep + Join(parts[1..], sep)
  }

  /** A character in none of the parts and not in the separator is not in their join. */
  lemma {:induction false} JoinFree(parts: seq<string>, sep: string, c: char)
    requires forall i :: 0 <= i < |parts| ==> c !in parts[i]
    requires c !in sep
    ensures c !in Join(parts, sep)
  {
    if |parts| > 1 {
      JoinFree(parts[1..], sep, c);
    }
  }

  /** Joining the pieces of a split on one character with that character gives the text back. */
  lemma {:induction false} JoinSplit(s: string, sep: char)
    ensures Join(Split(s, {sep}), [sep]) == s
  {
    if s != [] {
      var rest := Split(s[1..], {sep});
      JoinSplit(s[1..], sep);
      if s[0] == sep {
        assert ([""] + rest)[1..] == rest;
      } else {
        var r := [[s[0]] + rest[0]] + rest[1..];
        if |rest| == 1 {
          assert r == [[s[0]] + rest[0]];
        } else {
          assert r[1..] == rest[1..];
          assert Join(rest, [sep]) == rest[0] + [sep] + Join(rest[1..], [sep]);
        }
      }
    }
  }

  /** No character of `seps` occurs in any of `parts`. */
  predicate FreeOf(parts: seq<string>, seps: set<char>) {
    forall i, j :: 0 <= i < |parts| && 0 <= j < |parts[i]| ==> parts[i][j] !in seps
  }

  /** Splitting a join whose separator is one of `seps` recovers the parts, provided no part
      holds a character of `seps` (the inverse direction). */
  lemma {:induction false} SplitJoin(parts: seq<string>, seps: set<char>, sep: char)
    requires |parts| >= 1 && sep in seps
    requires FreeOf(parts, seps)
    ensures Split(Join(parts, [sep]), seps) == parts
    decreases |parts|, |parts[0]|
  {
    var p := parts[0];
    if |parts| == 1 {
      SplitNoSep(p, seps);
    } else if p == [] {
      var j := Join(parts, [sep]);
      assert j == [sep] + Join(parts[1..], [sep]);
      assert j[1..] == Join(parts[1..], [sep]);
      assert FreeOf(parts[1..], seps) by {
        forall i, k | 0 <= i < |parts[1..]| && 0 <= k < |parts[1..][i]| ensures parts[1..][i][k] !in seps {
          assert parts[1..][i] == parts[i + 1];
        }
      }
      SplitJoin(parts[1..], seps, sep);
      assert [""] + parts[1..] == parts;
    } else {
      var parts' := [p[1..]] + parts[1..];
      assert parts'[1..] == parts[1..];
      var j := Join(parts, [sep]);
      var j' := Join(parts', [sep]);
      assert j == [p[0]] + j' by {
        assert p == [p[0]] + p[1..];
      }
      assert j[1..] == j';
      assert p[0] !in seps by { assert parts[0][0] == p[0]; }
      assert FreeOf(parts', seps) by {
        forall i, k | 0 <= i < |parts'| && 0 <= k < |parts'[i]| ensures parts'[i][k] !in seps {
          if i == 0 {
            assert parts'[0][k] == parts[0][k + 1];
          } else {
            assert parts'[i] == parts[i];
          }
        }
      }
      SplitJoin(parts', seps, sep);
      assert [p[0]] + parts'[0] == p;
      assert [[p[0]] + parts'[0]] + parts'[1..] == parts;
    }
  }

  lemma {:induction false} SplitNoSep(s: string, seps: set<char>)
    requires forall j :: 0 <= j < |s| ==> s[j] !in seps
    ensures Split(s, seps) == [s]
  {
    if s != [] {
      SplitNoSep(s[1..], seps);
      assert [s[0]] + s[1..] == s;
    }
  }

  /** A decimal digit character. */
  predicate IsDigit(c: char) {
    '0' <= c <= '9'
  }

  function DigitChar(d: nat): (c: char)
    requires d < 10
    ensures IsDigit(c)
  {
    ('0' as int + d) as char
  }

  /** `String(n)` for a non-negative integer: its decimal digits, without leading zeros. */
  function NatToString(n: nat): (r: string)
    ensures |r| >= 1
    ensures forall i :: 0 <= i < |r| ==> IsDigit(r[i])
    ensures |r| > 1 ==> r[0] != '0'
  {
    if n < 10 then [DigitChar(n)] else NatToString(n / 10) + [DigitChar(n % 10)]
  }

  /** `String(n)` for an integer. */
  function IntToString(n: int): (r: string)
    ensures |r| >= 1
    ensures (r[0] == '-') <==> n < 0
  {
    if n < 0 then "-" + NatToString(-n) else NatToString(n)
  }

  function Pow10(k: nat): nat {
    if k == 0 then 1 else 10 * Pow10(k - 1)
  }

  /** A natural number has exactly `k` decimal digits when it lies in `[10^(k-1), 10^k)`. */
  lemma {:induction false} NatToStringLength(n: nat, k: nat)
    requires k >= 1
    ensures |NatToString(n)| == k <==> (if k == 1 then n < 10 else Pow10(k - 1) <= n < Pow10(k))
  {
    if n >= 10 {
      if k == 1 {
      } else {
        NatToStringLength(n / 10, k - 1);
        if k - 1 == 1 {
          assert Pow10(1) == 10;
        } else {
          assert Pow10(k - 1) == 10 * Pow10(k - 2);
        }
      }
    } else {
      if k > 1 {
        assert Pow10(k - 1) >= 10 by { Pow10AtLeast(k - 1); }
      }
    }
  }

  lemma {:induction false} Pow10AtLeast(k: nat)
    requires k >= 1
    ensures Pow10(k) >= 10
  {
    if k > 1 { Pow10AtLeast(k - 1); }
  }
}

=== FILE: notes.dfy ===
/** The records of the notes page (static/js/notes.js): the header-alias table, record
    normalisation, the reading of `notes.csv` into records, the export lines, the confidence
    calibration, the browse filter, and the store of CSV-backed and locally entered records. */
module Notes {
  import opened Wrappers
  import opened JsString
  import opened Seqs
  import opened JsNumber
  import Coerce
  import NotesCsv
  import DateValue
  import Sorting

  /** Where a record came from: `notes.csv` or the local form. */
  datatype Source = Csv | Local

  /** A normalised record. A number the host cannot read is `None` (`null`). */
  datatype NoteRecord = NoteRecord(
    date: string, code: string, name: string, analysis: string, prediction: string,
    target: Option<real>, stop: Option<real>, confidence: Option<real>,
    tags: seq<string>, mood: string, notes: string, reference: string,
    result: string, reviewNote: string, source: Source, createdAt: string)

  /** The keys of a raw record (`createdAt` comes only from the local form). */
  datatype Key = Date | Code | Name | Analysis | Prediction | Target | Stop | Confidence
               | Tags | Mood | NotesText | Reference | Result | ReviewNote | CreatedAt

  /** Column headers of an exported `notes.csv`, in column order. */
  const NotesHeaders: seq<string> := [
    "日期", "股票代號", "股票名稱", "分析內容", "預判", "目標價", "停損價",
    "信心度", "策略標籤", "市場情緒", "備註", "參考指標", "result", "review_note"]

  /** The key each exported column holds, in column order. */
  const ExportKeys: seq<Key> := [
    Date, Code, Name, Analysis, Prediction, Target, Stop,
    Confidence, Tags, Mood, NotesText, Reference, Result, ReviewNote]

  /** Accepted column headers (Chinese and English aliases) and the key each denotes. */
  const HeaderMap: map<string, Key> := map[
    "日期" := Date, "Date" := Date,
    "股票代號" := Code, "StockCode" := Code, "代號" := Code,
    "股票名稱" := Name, "StockName" := Name,
    "分析內容" := Analysis, "Analysis" := Analysis,
    "預判" := Prediction, "Prediction" := Prediction,
    "目標價" := Target, "TargetPrice" := Target,
    "停損價" := Stop, "StopLoss" := Stop,
    "信心度" := Confidence, "Confidence" := Confidence,
    "策略標籤" := Tags, "Tags" := Tags,
    "市場情緒" := Mood, "MarketMood" := Mood,
    "備註" := NotesText, "Notes" := NotesText,
    "參考指標" := Reference, "Reference" := Reference,
    "result" := Result, "Result" := Result, "結果" := Result,
    "review_note" := ReviewNote, "ReviewNote" := ReviewNote, "回測備註" := ReviewNote]

  /** The export headers read back as the keys of their columns, in order. */
  lemma ExportHeadersKnown()
    ensures |NotesHeaders| == |ExportKeys|
    ensures forall i :: 0 <= i < |NotesHeaders| ==> NotesHeaders[i] in HeaderMap && HeaderMap[NotesHeaders[i]] == ExportKeys[i]
  {
    HeadersKnownFrom(0, 7);
    HeadersKnownFrom(7, 14);
  }

  lemma HeadersKnownFrom(lo: nat, hi: nat)
    requires lo <= hi <= |NotesHeaders| == |ExportKeys| && hi - lo <= 7
    ensures forall i :: lo <= i < hi ==> NotesHeaders[i] in HeaderMap && HeaderMap[NotesHeaders[i]] == ExportKeys[i]
  {
  }

  /** The keys whose values are text. */
  predicate IsText(k: Key) {
    !(k.Target? || k.Stop? || k.Confidence? || k.Tags? || k.CreatedAt?)
  }

  function TextField(r: NoteRecord, k: Key): string
    requires IsText(k)
  {
    match k
    case Date => r.date
    case Code => r.code
    case Name => r.name
    case Analysis => r.analysis
    case Prediction => r.prediction
    case Mood => r.mood
    case NotesText => r.notes
    case Reference => r.reference
    case Result => r.result
    case ReviewNote => r.reviewNote
  }

  // ---------------------------------------------------------------------------------------
  // Normalisation.

  /** A raw record: the value of each key present (an absent key is `undefined`). */
  type Raw = map<Key, string>

  /** `raw[k] ? String(raw[k]).trim() : ''`. */
  function Text(raw: Raw, k: Key): (r: string)
    ensures IsTrimmed(r)
    ensures r == "" <==> k !in raw || AllSpace(raw[k])
  {
    if k in raw && raw[k] != "" then TrimEmptyIffAllSpace(raw[k]); Trim(raw[k]) else ""
  }

  function Lookup(raw: Raw, k: Key): Option<string> {
    if k in raw then Some(raw[k]) else None
  }

  /** The separators of `splitTags`: comma, semicolon, bar and the ideographic comma. */
  const TagSeparators: set<char> := {',', ';', '|', '\U{3001}'}

  /** The pieces of a tag list after trimming, before empty ones are dropped. */
  function TrimmedPieces(value: string): (r: seq<string>)
    ensures FreeOf(r, TagSeparators)
    ensures forall i :: 0 <= i < |r| ==> IsTrimmed(r[i])
  {
    var pieces := Split(value, TagSeparators);
    var r := seq(|pieces|, i requires 0 <= i < |pieces| => Trim(pieces[i]));
    assert FreeOf(r, TagSeparators) by {
      forall i, j | 0 <= i < |r| && 0 <= j < |r[i]| ensures r[i][j] !in TagSeparators {
        TrimChars(pieces[i]);
        assert r[i][j] in pieces[i];
      }
    }
    r
  }

  predicate NonEmpty(s: string) {
    s != ""
  }

  /** A well-formed tag: non-empty, trimmed, free of separators. */
  predicate GoodTags(tags: seq<string>) {
    FreeOf(tags, TagSeparators) && forall i :: 0 <= i < |tags| ==> tags[i] != "" && IsTrimmed(tags[i])
  }

  /** `splitTags` on text: split on any separator, trim each piece, drop the empty ones. The
      tags keep the order of the pieces they come from. */
  function SplitTags(value: string): (r: seq<string>)
    ensures GoodTags(r)
    ensures IsSubsequence(r, TrimmedPieces(value))
    ensures value == "" ==> r == []
  {
    if value == "" then []
    else
      var pieces := TrimmedPieces(value);
      var r := Filter(pieces, NonEmpty);
      FilterIsSubsequence(pieces, NonEmpty);
      assert FreeOf(r, TagSeparators) by {
        forall i, j | 0 <= i < |r| && 0 <= j < |r[i]| ensures r[i][j] !in TagSeparators {
          var k :| 0 <= k < |pieces| && pieces[k] == r[i];
          assert r[i][j] == pieces[k][j];
        }
      }
      assert forall i :: 0 <= i < |r| ==> IsTrimmed(r[i]) by {
        forall i | 0 <= i < |r| ensures IsTrimmed(r[i]) {
          var k :| 0 <= k < |pieces| && pieces[k] == r[i];
        }
      }
      r
  }

  /** Export joins tags with `;` and `splitTags` takes the joined text apart again. */
  lemma SplitTagsJoin(tags: seq<string>)
    requires GoodTags(tags)
    ensures SplitTags(Join(tags, ";")) == tags
  {
    if tags != [] {
      var text := Join(tags, ";");
      JoinNonEmpty(tags, ";");
      SplitJoin(tags, TagSeparators, ';');
      var pieces := TrimmedPieces(text);
      assert pieces == tags by {
        forall i | 0 <= i < |tags| ensures pieces[i] == tags[i] {
          TrimTrimmed(tags[i]);
        }
      }
      FilterAll(pieces, NonEmpty);
    }
  }

  /** A join whose first part is non-empty is non-empty. */
  lemma JoinNonEmpty(parts: seq<string>, sep: string)
    requires |parts| >= 1 && parts[0] != ""
    ensures Join(parts, sep) != ""
  {
    if |parts| > 1 {
      assert Join(parts, sep) == parts[0] + sep + Join(parts[1..], sep);
    }
  }

  /** What every normalised record satisfies: text trimmed, code without lower-case letters,
      tags well formed. */
  predicate WellFormed(r: NoteRecord) {
    (forall k :: IsText(k) ==> IsTrimmed(TextField(r, k)))
    && HasNoLowerAscii(r.code) && GoodTags(r.tags)
  }

  /** `normalizeRecord(raw, source)`: text fields trimmed (a missing one is `''`), the code in
      upper case, numbers through `toNumber`, tags through `splitTags`, the source stamped, and
      `createdAt` kept as given. */
  function NormalizeRecord(raw: Raw, source: Source, parse: string -> Option<real>): (r: NoteRecord)
    ensures WellFormed(r) && r.source == source
  {
    var code := Text(raw, Code);
    ToUpperTrimmed(code);
    var r := NoteRecord(
      Text(raw, Date), ToUpper(code), Text(raw, Name), Text(raw, Analysis), Text(raw, Prediction),
      Coerce.ToNumber(Lookup(raw, Target), parse), Coerce.ToNumber(Lookup(raw, Stop), parse),
      Coerce.ToNumber(Lookup(raw, Confidence), parse),
      SplitTags(if Tags in raw then raw[Tags] else ""),
      Text(raw, Mood), Text(raw, NotesText), Text(raw, Reference), Text(raw, Result), Text(raw, ReviewNote),
      source, if CreatedAt in raw then raw[CreatedAt] else "");
    FieldsWellFormed(r);
    r
  }

  /** A record whose text fields are trimmed, whose code has no lower-case letter and whose
      tags are well formed is well formed. */
  lemma FieldsWellFormed(r: NoteRecord)
    requires IsTrimmed(r.date) && IsTrimmed(r.code) && IsTrimmed(r.name) && IsTrimmed(r.analysis)
    requires IsTrimmed(r.prediction) && IsTrimmed(r.mood) && IsTrimmed(r.notes)
    requires IsTrimmed(r.reference) && IsTrimmed(r.result) && IsTrimmed(r.reviewNote)
    requires HasNoLowerAscii(r.code) && GoodTags(r.tags)
    ensures WellFormed(r)
  {
  }

  /** Every text field but the code is normalised by `Text`. */
  lemma NormalizedText(raw: Raw, source: Source, parse: string -> Option<real>, k: Key)
    requires IsText(k) && !k.Code?
    ensures TextField(NormalizeRecord(raw, source, parse), k) == Text(raw, k)
  {
  }

  /** A text field is empty after normalisation exactly when it was missing or blank. */
  lemma NormalizedEmptyIff(raw: Raw, source: Source, parse: string -> Option<real>, k: Key)
    requires IsText(k)
    ensures TextField(NormalizeRecord(raw, source, parse), k) == "" <==> k !in raw || AllSpace(raw[k])
  {
  }

  // ---------------------------------------------------------------------------------------
  // Reading notes.csv.

  /** `s.replace(/^﻿/, '')`: one leading byte order mark dropped. */
  function StripBom(s: string): (r: string)
    ensures r == if s != [] && s[0] == '\U{FEFF}' then s[1..] else s
  {
    if s != [] && s[0] == '\U{FEFF}' then s[1..] else s
  }

  /** The record key of a header cell: BOM and surrounding whitespace removed, then looked up;
      an unknown header has no key. */
  function HeaderKey(h: string): (k: Option<Key>)
    ensures k.Some? <==> Trim(StripBom(h)) in HeaderMap
    ensures k.Some? ==> k.value == HeaderMap[Trim(StripBom(h))]
  {
    KeyOf(Trim(StripBom(h)))
  }

  function KeyOf(t: string): Option<Key> {
    if t in HeaderMap then Some(HeaderMap[t]) else None
  }

  /** A header with a leading byte order mark denotes the same key as without it. */
  lemma HeaderKeyBom(h: string)
    ensures HeaderKey("\U{FEFF}" + h) == HeaderKey(h)
  {
    BomTrimmed(h);
  }

  lemma BomTrimmed(h: string)
    ensures Trim(StripBom("\U{FEFF}" + h)) == Trim(StripBom(h))
  {
    assert ("\U{FEFF}" + h)[1..] == h;
    assert StripBom("\U{FEFF}" + h) == h;
    if h != [] && h[0] == '\U{FEFF}' {
      assert StripBom(h) == h[1..];
      assert h == ['\U{FEFF}'] + h[1..];
      TrimDropsLeadingSpace('\U{FEFF}', h[1..]);
    } else {
      assert StripBom(h) == h;
    }
  }

  /** `row[idx] ?? ''`. */
  function Cell(row: seq<string>, idx: nat): string {
    if idx < |row| then row[idx] else ""
  }

  /** No later column has the same key as column `j`. */
  predicate LastWithKey(keys: seq<Option<Key>>, j: nat)
    requires j < |keys|
  {
    forall j' :: j < j' < |keys| ==> keys[j'] != keys[j]
  }

  /** The raw record of one data row: for each column with a key, in column order, the key is
      set to the cell (later columns overwrite earlier ones). The keys present are exactly the
      keys of the header, and each holds the cell of the last column with that key. */
  function RowRaw(keys: seq<Option<Key>>, row: seq<string>): (raw: Raw)
    ensures forall k :: k in raw <==> Some(k) in keys
    ensures forall j :: 0 <= j < |keys| && keys[j].Some? && LastWithKey(keys, j) ==> raw[keys[j].value] == Cell(row, j)
    decreases |keys|
  {
    if keys == [] then map[]
    else
      var n := |keys| - 1;
      var prev := RowRaw(keys[..n], row);
      var raw := if keys[n].Some? then prev[keys[n].value := Cell(row, n)] else prev;
      RowRawStep(keys, row, prev, raw);
      raw
  }

  /** Setting the last column's key on the raw record of the columns before it gives the raw
      record of all the columns. */
  lemma RowRawStep(keys: seq<Option<Key>>, row: seq<string>, prev: Raw, raw: Raw)
    requires |keys| > 0
    requires var ks := keys[..|keys| - 1];
      && (forall k :: k in prev <==> Some(k) in ks)
      && (forall j :: 0 <= j < |ks| && ks[j].Some? && LastWithKey(ks, j) ==> prev[ks[j].value] == Cell(row, j))
    requires var n := |keys| - 1; raw == if keys[n].Some? then prev[keys[n].value := Cell(row, n)] else prev
    ensures forall k :: k in raw <==> Some(k) in keys
    ensures forall j :: 0 <= j < |keys| && keys[j].Some? && LastWithKey(keys, j) ==> raw[keys[j].value] == Cell(row, j)
  {
    RowRawKeysStep(keys, prev, raw, Cell(row, |keys| - 1));
    var n := |keys| - 1;
    var ks := keys[..n];
    forall j | 0 <= j < |keys| && keys[j].Some? && LastWithKey(keys, j) ensures raw[keys[j].value] == Cell(row, j) {
      if j < n {
        assert LastWithKey(ks, j) && ks[j] == keys[j];
        assert keys[n] != keys[j];
      }
    }
  }

  /** The keys of the raw record after the last column are those of all the columns. */
  lemma RowRawKeysStep(keys: seq<Option<Key>>, prev: Raw, raw: Raw, cell: string)
    requires |keys| > 0
    requires forall k :: k in prev <==> Some(k) in keys[..|keys| - 1]
    requires var n := |keys| - 1; raw == if keys[n].Some? then prev[keys[n].value := cell] else prev
    ensures forall k :: k in raw <==> Some(k) in keys
  {
    var n := |keys| - 1;
    assert keys == keys[..n] + [keys[n]];
  }

  /** A row with at least one cell that is not blank. */
  predicate NotBlank(row: seq<string>) {
    exists i :: 0 <= i < |row| && Trim(row[i]) != ""
  }

  function HeaderKeys(header: seq<string>): (keys: seq<Option<Key>>)
    ensures |keys| == |header| && forall j :: 0 <= j < |header| ==> keys[j] == HeaderKey(header[j])
  {
    seq(|header|, j requires 0 <= j < |header| => HeaderKey(header[j]))
  }

  /** `parseNotesCsv(text)`: the first row names the columns, rows whose cells are all blank are
      dropped, and every other row becomes a record with source `Csv`. */
  function ParseNotesCsv(text: string, parse: string -> Option<real>): (r: seq<NoteRecord>)
    ensures forall i :: 0 <= i < |r| ==> r[i].source == Csv && WellFormed(r[i])
    ensures var rows := NotesCsv.Parse(text);
      |r| == if rows == [] then 0 else Count(rows[1..], NotBlank)
  {
    ReadRecords(NotesCsv.Parse(text), parse)
  }

  /** The records of the rows of a CSV text whose first row names the columns. */
  function ReadRecords(rows: seq<seq<string>>, parse: string -> Option<real>): (r: seq<NoteRecord>)
    ensures forall i :: 0 <= i < |r| ==> r[i].source == Csv && WellFormed(r[i])
    ensures |r| == if rows == [] then 0 else Count(rows[1..], NotBlank)
  {
    if rows == [] then []
    else
      var keys := HeaderKeys(rows[0]);
      var data := Filter(rows[1..], NotBlank);
      seq(|data|, i requires 0 <= i < |data| => NormalizeRecord(RowRaw(keys, data[i]), Csv, parse))
  }

  /** A column with no known header contributes nothing: a text key no header denotes is empty
      in every record. */
  lemma UnknownKeyEmpty(text: string, parse: string -> Option<real>, k: Key)
    requires IsText(k)
    requires var rows := NotesCsv.Parse(text);
      rows != [] && forall j :: 0 <= j < |rows[0]| ==> HeaderKey(rows[0][j]) != Some(k)
    ensures forall i :: 0 <= i < |ParseNotesCsv(text, parse)| ==> TextField(ParseNotesCsv(text, parse)[i], k) == ""
  {
    var rows := NotesCsv.Parse(text);
    var keys := HeaderKeys(rows[0]);
    assert Some(k) !in keys;
  }

  /** A text field of the record built from a row is the trimmed cell of the last column with
      that key (upper-cased for the code), and `''` when the row is too short to have it. */
  lemma RowField(keys: seq<Option<Key>>, row: seq<string>, j: nat, parse: string -> Option<real>)
    requires j < |keys| && keys[j].Some? && IsText(keys[j].value) && LastWithKey(keys, j)
    ensures var r := NormalizeRecord(RowRaw(keys, row), Csv, parse);
      TextField(r, keys[j].value) == if keys[j] == Some(Code) then ToUpper(Trim(Cell(row, j))) else Trim(Cell(row, j))
    ensures j >= |row| ==> TextField(NormalizeRecord(RowRaw(keys, row), Csv, parse), keys[j].value) == ""
  {
    var raw, k, c := RowRaw(keys, row), keys[j].value, Cell(row, j);
    assert k in raw && raw[k] == c;
    assert Text(raw, k) == Trim(c) by {
      if c == "" { TrimTrimmed(""); }
    }
    if k == Code {
      NormalizedCode(raw, Csv, parse);
    } else {
      NormalizedText(raw, Csv, parse, k);
    }
  }

  /** The code is the upper-cased `Text` of its raw field. */
  lemma NormalizedCode(raw: Raw, source: Source, parse: string -> Option<real>)
    ensures NormalizeRecord(raw, source, parse).code == ToUpper(Text(raw, Code))
  {
  }

  // ---------------------------------------------------------------------------------------
  // Confidence calibration.

  /** A record that takes part in calibration: it has a result and a finite confidence. */
  predicate Qualifies(r: NoteRecord) {
    r.result != "" && r.confidence.Some?
  }

  predicate Success(r: NoteRecord) {
    r.result == "success"
  }

  /** Number of qualifying records. */
  function QualifyingCount(s: seq<NoteRecord>): nat {
    if s == [] then 0 else QualifyingCount(s[..|s| - 1]) + (if Qualifies(s[|s| - 1]) then 1 else 0)
  }

  /** Number of qualifying records with confidence `c`. */
  function CountAt(s: seq<NoteRecord>, c: real): nat {
    if s == [] then 0
    else CountAt(s[..|s| - 1], c) + (if Qualifies(s[|s| - 1]) && s[|s| - 1].confidence.value == c then 1 else 0)
  }

  /** Number of successful qualifying records with confidence `c`. */
  function WinsAt(s: seq<NoteRecord>, c: real): nat {
    if s == [] then 0
    else
      var last := s[|s| - 1];
      WinsAt(s[..|s| - 1], c) + (if Qualifies(last) && last.confidence.value == c && Success(last) then 1 else 0)
  }

  lemma {:induction false} WinsAtMost(s: seq<NoteRecord>, c: real)
    ensures WinsAt(s, c) <= CountAt(s, c)
  {
    if s != [] {
      WinsAtMost(s[..|s| - 1], c);
    }
  }

  /** A positive count is witnessed by a record. */
  lemma {:induction false} CountAtWitness(s: seq<NoteRecord>, c: real) returns (j: nat)
    requires CountAt(s, c) > 0
    ensures j < |s| && Qualifies(s[j]) && s[j].confidence.value == c
  {
    var n := |s| - 1;
    if Qualifies(s[n]) && s[n].confidence.value == c {
      j := n;
    } else {
      j := CountAtWitness(s[..n], c);
      assert s[..n][j] == s[j];
    }
  }

  /** One entry of the tally: a confidence level, how many qualifying records have it, and how
      many of those succeeded. */
  datatype Bucket = Bucket(confidence: real, total: nat, wins: nat)

  function BucketConfidence(b: Bucket): real {
    b.confidence
  }

  function SumTotals(b: seq<Bucket>): nat {
    if b == [] then 0 else SumTotals(b[..|b| - 1]) + b[|b| - 1].total
  }

  predicate DistinctConfidences(b: seq<Bucket>) {
    forall i, j :: 0 <= i < j < |b| ==> b[i].confidence != b[j].confidence
  }

  /** `b` is the tally of `s`: one bucket per confidence level that occurs among the
      qualifying records, each with its exact counts, and the totals add up to the number of
      qualifying records. */
  predicate TallyOf(b: seq<Bucket>, s: seq<NoteRecord>) {
    DistinctConfidences(b)
    && (forall i :: 0 <= i < |b| ==>
          b[i].total == CountAt(s, b[i].confidence) && b[i].wins == WinsAt(s, b[i].confidence)
          && 1 <= b[i].total && b[i].wins <= b[i].total)
    && (forall j :: 0 <= j < |s| && Qualifies(s[j]) ==> exists i :: 0 <= i < |b| && b[i].confidence == s[j].confidence.value)
    && SumTotals(b) == QualifyingCount(s)
  }

  /** The position of the bucket for `c`, or `|b|` when there is none (`map[c]` in the source). */
  function FindBucket(b: seq<Bucket>, c: real): (k: nat)
    ensures k <= |b|
    ensures k < |b| ==> b[k].confidence == c
    ensures k == |b| ==> forall i :: 0 <= i < |b| ==> b[i].confidence != c
  {
    if b == [] then 0
    else if b[|b| - 1].confidence == c then |b| - 1
    else
      var k := FindBucket(b[..|b| - 1], c);
      if k == |b| - 1 then |b| else k
  }

  lemma {:induction false} SumTotalsBump(b: seq<Bucket>, k: nat, x: Bucket)
    requires k < |b| && x.total == b[k].total + 1
    ensures SumTotals(b[k := x]) == SumTotals(b) + 1
  {
    var n := |b| - 1;
    if k < n {
      assert b[k := x][..n] == b[..n][k := x];
      SumTotalsBump(b[..n], k, x);
    } else {
      assert b[k := x][..n] == b[..n];
    }
  }

  lemma {:induction false} SumTotalsAppend(a: seq<Bucket>, b: seq<Bucket>)
    ensures SumTotals(a + b) == SumTotals(a) + SumTotals(b)
    decreases |b|
  {
    if b != [] {
      assert (a + b)[..|a + b| - 1] == a + b[..|b| - 1];
      SumTotalsAppend(a, b[..|b| - 1]);
    } else {
      assert a + b == a;
    }
  }

  /** The buckets after counting one more qualifying record. */
  function Counted(b: seq<Bucket>, r: NoteRecord): seq<Bucket>
    requires Qualifies(r)
  {
    var c := r.confidence.value;
    var win := if Success(r) then 1 else 0;
    var k := FindBucket(b, c);
    if k == |b| then b + [Bucket(c, 1, win)] else b[k := Bucket(c, b[k].total + 1, b[k].wins + win)]
  }

  lemma CountStep(s: seq<NoteRecord>, r: NoteRecord)
    ensures forall x :: CountAt(s + [r], x) == CountAt(s, x) + (if Qualifies(r) && r.confidence.value == x then 1 else 0)
    ensures forall x :: WinsAt(s + [r], x) == WinsAt(s, x) + (if Qualifies(r) && r.confidence.value == x && Success(r) then 1 else 0)
    ensures QualifyingCount(s + [r]) == QualifyingCount(s) + (if Qualifies(r) then 1 else 0)
  {
    assert (s + [r])[..|s|] == s;
  }

  lemma TallyCounts(b: seq<Bucket>, s: seq<NoteRecord>, r: NoteRecord)
    requires TallyOf(b, s) && Qualifies(r)
    ensures var b' := Counted(b, r);
      DistinctConfidences(b')
      && forall m :: 0 <= m < |b'| ==>
           b'[m].total == CountAt(s + [r], b'[m].confidence) && b'[m].wins == WinsAt(s + [r], b'[m].confidence)
           && 1 <= b'[m].total && b'[m].wins <= b'[m].total
  {
    var c := r.confidence.value;
    var k := FindBucket(b, c);
    var b' := Counted(b, r);
    CountStep(s, r);
    forall m | 0 <= m < |b'|
      ensures b'[m].total == CountAt(s + [r], b'[m].confidence)
      ensures b'[m].wins == WinsAt(s + [r], b'[m].confidence)
    {
      if m < |b| && m != k {
        assert b'[m] == b[m];
        if k < |b| {
          if m < k {
            assert b[m].confidence != b[k].confidence;
          } else {
            assert b[k].confidence != b[m].confidence;
          }
        }
      } else if k == |b| {
        WinsAtMost(s, c);
        if CountAt(s, c) > 0 {
          var j := CountAtWitness(s, c);
        }
      }
    }
  }

  lemma TallyCovers(b: seq<Bucket>, s: seq<NoteRecord>, r: NoteRecord)
    requires TallyOf(b, s) && Qualifies(r)
    ensures var b' := Counted(b, r);
      forall j :: 0 <= j < |s + [r]| && Qualifies((s + [r])[j]) ==>
        exists m :: 0 <= m < |b'| && b'[m].confidence == (s + [r])[j].confidence.value
  {
    var c := r.confidence.value;
    var k := FindBucket(b, c);
    var b' := Counted(b, r);
    var t := s + [r];
    forall j | 0 <= j < |t| && Qualifies(t[j])
      ensures exists m :: 0 <= m < |b'| && b'[m].confidence == t[j].confidence.value
    {
      if j < |s| {
        assert t[j] == s[j];
        var m :| 0 <= m < |b| && b[m].confidence == s[j].confidence.value;
        assert b'[m].confidence == b[m].confidence;
      } else {
        assert b'[if k == |b| then |b| else k].confidence == c;
      }
    }
  }

  lemma TallySum(b: seq<Bucket>, s: seq<NoteRecord>, r: NoteRecord)
    requires TallyOf(b, s) && Qualifies(r)
    ensures SumTotals(Counted(b, r)) == QualifyingCount(s + [r])
  {
    CountStep(s, r);
    var k := FindBucket(b, r.confidence.value);
    var b' := Counted(b, r);
    if k == |b| {
      assert b'[..|b'| - 1] == b;
    } else {
      SumTotalsBump(b, k, b'[k]);
    }
  }

  /** Counting one more record keeps the tally exact. */
  lemma TallyStep(b: seq<Bucket>, s: seq<NoteRecord>, r: NoteRecord)
    requires TallyOf(b, s)
    ensures Qualifies(r) ==> TallyOf(Counted(b, r), s + [r])
    ensures !Qualifies(r) ==> TallyOf(b, s + [r])
  {
    if Qualifies(r) {
      TallyCounts(b, s, r);
      TallyCovers(b, s, r);
      TallySum(b, s, r);
    } else {
      CountStep(s, r);
      var t := s + [r];
      forall j | 0 <= j < |t| && Qualifies(t[j])
        ensures exists m :: 0 <= m < |b| && b[m].confidence == t[j].confidence.value
      {
        assert t[j] == s[j];
      }
    }
  }

  /** The tally loop of `calculateConfidenceCalibration` (and of `calculateConfidenceBias`):
      one pass over the records, skipping those without a result or a finite confidence, and
      counting the rest in the bucket of their confidence, created on first sight. */
  method Tally(records: seq<NoteRecord>) returns (buckets: seq<Bucket>)
    ensures TallyOf(buckets, records)
  {
    buckets := [];
    var i := 0;
    while i < |records|
      invariant 0 <= i <= |records|
      invariant TallyOf(buckets, records[..i])
    {
      var r := records[i];
      var b0 := buckets;
      TallyStep(b0, records[..i], r);
      if r.result != "" && r.confidence.Some? {
        var c := r.confidence.value;
        var win := if r.result == "success" then 1 else 0;
        var k := FindBucket(buckets, c);
        if k == |buckets| {
          buckets := buckets + [Bucket(c, 1, win)];
        } else {
          buckets := buckets[k := Bucket(c, buckets[k].total + 1, buckets[k].wins + win)];
        }
        assert buckets == Counted(b0, r);
      }
      assert TallyOf(buckets, records[..i] + [r]);
      PrefixSnoc(records, i);
      i := i + 1;
    }
    PrefixWhole(records, i);
  }

  lemma {:induction false} SumTotalsPermutation(a: seq<Bucket>, b: seq<Bucket>)
    requires multiset(a) == multiset(b)
    ensures SumTotals(a) == SumTotals(b)
    decreases |a|
  {
    if a == [] {
      assert |b| == |multiset(b)| == 0;
    } else {
      var n := |a| - 1;
      var x := a[n];
      assert a == a[..n] + [x];
      assert x in multiset(b);
      var k :| 0 <= k < |b| && b[k] == x;
      var rest := b[..k] + b[k + 1..];
      assert b == b[..k] + [x] + b[k + 1..];
      assert multiset(rest) == multiset(b) - multiset{x};
      assert multiset(a[..n]) == multiset(a) - multiset{x};
      SumTotalsPermutation(a[..n], rest);
      SumTotalsAppend(b[..k] + [x], b[k + 1..]);
      SumTotalsAppend(b[..k], [x]);
      SumTotalsAppend(b[..k], b[k + 1..]);
      assert SumTotals([x]) == x.total by {
        assert [x][..0] == [];
      }
    }
  }

  /** Buckets with distinct confidences hold no bucket twice. */
  lemma {:induction false} DistinctOnce(b: seq<Bucket>, x: Bucket)
    requires DistinctConfidences(b)
    ensures multiset(b)[x] <= 1
  {
    if b != [] {
      var n := |b| - 1;
      assert b == b[..n] + [b[n]];
      assert DistinctConfidences(b[..n]);
      DistinctOnce(b[..n], x);
    }
  }

  /** A permutation of buckets with distinct confidences has distinct confidences. */
  lemma DistinctPermutation(a: seq<Bucket>, b: seq<Bucket>)
    requires multiset(a) == multiset(b) && DistinctConfidences(b)
    ensures DistinctConfidences(a)
  {
    forall i, j | 0 <= i < j < |a| ensures a[i].confidence != a[j].confidence {
      if a[i].confidence == a[j].confidence {
        assert a[i] in multiset(b) && a[j] in multiset(b);
        var p :| 0 <= p < |b| && b[p] == a[i];
        var q :| 0 <= q < |b| && b[q] == a[j];
        assert p == q;
        var x := a[i];
        assert a == a[..i] + [x] + a[i + 1..j] + [x] + a[j + 1..];
        assert multiset(a)[x] >= 2;
        DistinctOnce(b, x);
        assert false;
      }
    }
  }

  /** Any arrangement of a tally is a tally. */
  lemma TallyPermutation(a: seq<Bucket>, b: seq<Bucket>, s: seq<NoteRecord>)
    requires multiset(a) == multiset(b) && TallyOf(b, s)
    ensures TallyOf(a, s)
  {
    DistinctPermutation(a, b);
    SumTotalsPermutation(a, b);
    forall i | 0 <= i < |a|
      ensures a[i].total == CountAt(s, a[i].confidence) && a[i].wins == WinsAt(s, a[i].confidence)
      ensures 1 <= a[i].total && a[i].wins <= a[i].total
    {
      assert a[i] in multiset(b);
      var p :| 0 <= p < |b| && b[p] == a[i];
    }
    forall j | 0 <= j < |s| && Qualifies(s[j])
      ensures exists i :: 0 <= i < |a| && a[i].confidence == s[j].confidence.value
    {
      var p :| 0 <= p < |b| && b[p].confidence == s[j].confidence.value;
      assert b[p] in multiset(a);
      var i :| 0 <= i < |a| && a[i] == b[p];
    }
  }

  /** `calculateConfidenceCalibration(records)` before `toFixed`: the tally, one row per
      confidence level, ordered by strictly decreasing confidence. */
  method ConfidenceCalibration(records: seq<NoteRecord>) returns (rows: seq<Bucket>)
    ensures TallyOf(rows, records)
    ensures forall i, j :: 0 <= i < j < |rows| ==> rows[i].confidence > rows[j].confidence
  {
    var buckets := Tally(records);
    rows := Sorting.SortDesc(buckets, BucketConfidence);
    Sorting.SortDescSorted(buckets, BucketConfidence);
    TallyPermutation(rows, buckets, records);
  }

  /** `winRate` before `toFixed(1)`: the share of successes in a bucket, in percent. */
  function WinRate(b: Bucket): (r: real)
    requires 0 < b.total && b.wins <= b.total
    ensures 0.0 <= r <= 100.0
    ensures r == 0.0 <==> b.wins == 0
    ensures r == 100.0 <==> b.wins == b.total
  {
    var q := b.wins as real / b.total as real;
    ShareOf(b.wins as real, b.total as real);
    q * 100.0
  }

  /** One row of `calculateConfidenceBias`: a confidence level and its win rate in percent. */
  datatype BiasRow = BiasRow(confidence: real, winRate: real)

  /** `calculateConfidenceBias(records)` before `toFixed`: one row per confidence level among
      the qualifying records, with the share of its records that succeeded. */
  method ConfidenceBias(records: seq<NoteRecord>) returns (rows: seq<BiasRow>)
    ensures forall i, j :: 0 <= i < j < |rows| ==> rows[i].confidence != rows[j].confidence
    ensures forall i :: 0 <= i < |rows| ==>
      CountAt(records, rows[i].confidence) > 0
      && rows[i].winRate == WinsAt(records, rows[i].confidence) as real / CountAt(records, rows[i].confidence) as real * 100.0
    ensures forall j :: 0 <= j < |records| && Qualifies(records[j]) ==>
      exists i :: 0 <= i < |rows| && rows[i].confidence == records[j].confidence.value
  {
    var buckets := Tally(records);
    rows := seq(|buckets|, i requires 0 <= i < |buckets| => BiasRow(buckets[i].confidence, WinRate(buckets[i])));
    forall j | 0 <= j < |records| && Qualifies(records[j])
      ensures exists i :: 0 <= i < |rows| && rows[i].confidence == records[j].confidence.value
    {
      var i :| 0 <= i < |buckets| && buckets[i].confidence == records[j].confidence.value;
      assert rows[i].confidence == buckets[i].confidence;
    }
  }

  /** The advice of the summary's calibration table for confidence `conf` (on a 1-10 scale) and
      a win rate in percent: the rate is compared with ten times the confidence, give or take
      twenty points. */
  datatype Advice = OverConfident | Underrated | WellCalibrated

  function CalibrationAdvice(winRate: real, conf: real): (a: Advice)
    ensures a == OverConfident <==> winRate < conf * 10.0 - 20.0
    ensures a == Underrated <==> winRate > conf * 10.0 + 20.0
    ensures a == WellCalibrated <==> conf * 10.0 - 20.0 <= winRate <= conf * 10.0 + 20.0
  {
    if winRate < conf * 10.0 - 20.0 then OverConfident
    else if winRate > conf * 10.0 + 20.0 then Underrated
    else WellCalibrated
  }

  /** The reading column of the calibration table: below 50% the level is over-estimated, above
      65% it is stable, in between neutral. */
  datatype Reading = Overestimated | Stable | Neutral

  function CalibrationReading(winRate: real): (r: Reading)
    ensures r == Overestimated <==> winRate < 50.0
    ensures r == Stable <==> winRate > 65.0
    ensures r == Neutral <==> 50.0 <= winRate <= 65.0
  {
    if winRate < 50.0 then Overestimated else if winRate > 65.0 then Stable else Neutral
  }

  // ---------------------------------------------------------------------------------------
  // The browse filter.

  /** The browse filter's settings: stock code, tag and mood (`''` when unset) and the minimum
      confidence (`None` when it does not read as a finite number). */
  datatype FilterSettings = FilterSettings(stock: string, tag: string, mood: string, minConfidence: Option<real>)

  /** `Number(value || 1)` on the minimum-confidence control: an empty value means 1. */
  function MinConfidence(value: string, parse: string -> Option<real>): (m: Option<real>)
    ensures value == "" ==> m == Some(1.0)
    ensures value != "" ==> m == parse(value)
  {
    if value == "" then Some(1.0) else parse(value)
  }

  /** The settings read from the four controls (a missing control reads as `''`). */
  function Settings(stock: string, tag: string, mood: string, confidence: string, parse: string -> Option<real>): (s: FilterSettings)
    ensures s.stock == stock && s.tag == tag && s.mood == mood
    ensures s.minConfidence == MinConfidence(confidence, parse)
  {
    FilterSettings(stock, tag, mood, MinConfidence(confidence, parse))
  }

  /** The predicate of `applyFilters`: the code and the mood match exactly when set, the tag is
      one of the record's tags when set, and the confidence (a missing one counts as 0) is at
      least the minimum when there is one. */
  predicate Keep(s: FilterSettings, r: NoteRecord) {
    (s.stock == "" || r.code == s.stock)
    && (s.tag == "" || s.tag in r.tags)
    && (s.mood == "" || r.mood == s.mood)
    && (s.minConfidence.None? || r.confidence.GetOr(0.0) >= s.minConfidence.value)
  }

  /** `applyFilters(records)`: the records the settings keep, in their order. */
  function ApplyFilters(records: seq<NoteRecord>, s: FilterSettings): (r: seq<NoteRecord>)
    ensures IsSubsequence(r, records)
    ensures forall i :: 0 <= i < |r| ==> Keep(s, r[i])
    ensures forall i :: 0 <= i < |records| && Keep(s, records[i]) ==> records[i] in r
    ensures forall x :: multiset(r)[x] == if Keep(s, x) then multiset(records)[x] else 0
  {
    var p := x => Keep(s, x);
    FilterIsSubsequence(records, p);
    forall x ensures multiset(Filter(records, p))[x] == if p(x) then multiset(records)[x] else 0 {
      FilterMultiset(records, p, x);
    }
    Filter(records, p)
  }

  /** With nothing set, the filter keeps every record. */
  lemma ApplyFiltersUnset(records: seq<NoteRecord>)
    ensures ApplyFilters(records, FilterSettings("", "", "", None)) == records
  {
    FilterAll(records, x => Keep(FilterSettings("", "", "", None), x));
  }

  /** With only the default minimum of 1, the filter drops exactly the records whose confidence
      is missing or below 1. */
  lemma ApplyFiltersDefault(records: seq<NoteRecord>, parse: string -> Option<real>)
    ensures var r := ApplyFilters(records, Settings("", "", "", "", parse));
      forall x :: x in r <==> x in records && x.confidence.Some? && x.confidence.value >= 1.0
  {
    var s := Settings("", "", "", "", parse);
    var r := ApplyFilters(records, s);
    forall x | x in r ensures x in records && x.confidence.Some? && x.confidence.value >= 1.0 {
      var i :| 0 <= i < |r| && r[i] == x;
      assert Keep(s, r[i]);
    }
    forall x | x in records && x.confidence.Some? && x.confidence.value >= 1.0 ensures x in r {
      var i :| 0 <= i < |records| && records[i] == x;
      assert Keep(s, records[i]);
    }
  }

  // ---------------------------------------------------------------------------------------
  // Export.

  /** `value ?? ''` on a number: the host's `String(number)`, or nothing for `null`. */
  function NumText(x: Option<real>, fmt: real -> string): (t: string)
    ensures x.None? ==> t == ""
    ensures x.Some? ==> t == fmt(x.value)
  {
    if x.Some? then fmt(x.value) else ""
  }

  /** The exported value of one key: text as it is, numbers through `String`, tags joined
      with `;`. The creation time is not exported. */
  function ExportValue(r: NoteRecord, k: Key, fmt: real -> string): string
    requires k != CreatedAt
  {
    match k
    case Date => r.date
    case Code => r.code
    case Name => r.name
    case Analysis => r.analysis
    case Prediction => r.prediction
    case Target => NumText(r.target, fmt)
    case Stop => NumText(r.stop, fmt)
    case Confidence => NumText(r.confidence, fmt)
    case Tags => Join(r.tags, ";")
    case Mood => r.mood
    case NotesText => r.notes
    case Reference => r.reference
    case Result => r.result
    case ReviewNote => r.reviewNote
  }

  /** The values of one exported line, one per column. */
  function ExportRow(r: NoteRecord, fmt: real -> string): (v: seq<string>)
    ensures |v| == |NotesHeaders|
  {
    seq(|ExportKeys|, j requires 0 <= j < |ExportKeys| => ExportValue(r, ExportKeys[j], fmt))
  }

  function DateKey(dateParse: string -> Option<real>): NoteRecord -> real {
    (r: NoteRecord) => DateValue.ToDateValue(r.date, dateParse)
  }

  /** `records.sort((a, b) => toDateValue(b.date) - toDateValue(a.date))` on a copy: the same
      records, newest first. */
  function SortByDate(records: seq<NoteRecord>, dateParse: string -> Option<real>): (r: seq<NoteRecord>)
    ensures multiset(r) == multiset(records)
    ensures forall i, j :: 0 <= i < j < |r| ==>
      DateValue.ToDateValue(r[i].date, dateParse) >= DateValue.ToDateValue(r[j].date, dateParse)
    ensures forall d :: Filter(r, Sorting.KeyIs(DateKey(dateParse), d)) == Filter(records, Sorting.KeyIs(DateKey(dateParse), d))
  {
    Sorting.SortDescSorted(records, DateKey(dateParse));
    forall d ensures Filter(Sorting.SortDesc(records, DateKey(dateParse)), Sorting.KeyIs(DateKey(dateParse), d))
                     == Filter(records, Sorting.KeyIs(DateKey(dateParse), d)) {
      Sorting.SortDescStable(records, DateKey(dateParse), d);
    }
    Sorting.SortDesc(records, DateKey(dateParse))
  }

  /** The lines of the exported file: the header line, then one escaped line per record. */
  function ExportLines(records: seq<NoteRecord>, fmt: real -> string): (lines: seq<string>)
    ensures |lines| == |records| + 1
  {
    [Join(NotesHeaders, ",")] + RecordLines(records, fmt)
  }

  /** `values.map(csvEscape).join(',')` for each record. */
  function RecordLines(records: seq<NoteRecord>, fmt: real -> string): (lines: seq<string>)
    ensures |lines| == |records|
  {
    seq(|records|, i requires 0 <= i < |records| => NotesCsv.EscapeRow(ExportRow(records[i], fmt)))
  }

  /** The text `exportNotesCsv` offers for download: every record, newest first. */
  function ExportText(records: seq<NoteRecord>, fmt: real -> string, dateParse: string -> Option<real>): string {
    Join(ExportLines(SortByDate(records, dateParse), fmt), "\n")
  }

  /** A row without a field that needs quoting is escaped as the plain comma join. */
  lemma {:induction false} EscapeRowPlain(fields: seq<string>)
    requires forall j :: 0 <= j < |fields| ==> !NotesCsv.NeedsQuotes(fields[j])
    ensures NotesCsv.EscapeRow(fields) == Join(fields, ",")
  {
    if |fields| > 1 {
      EscapeRowPlain(fields[1..]);
    }
  }

  /** The header line is the escaped header row. */
  lemma HeaderLinePlain()
    ensures NotesCsv.EscapeRow(NotesHeaders) == Join(NotesHeaders, ",")
  {
    forall j | 0 <= j < |NotesHeaders| ensures !NotesCsv.NeedsQuotes(NotesHeaders[j]) {
      var h := NotesHeaders[j];
      assert forall c :: c in h ==> c != '"' && c != ',' && c != '\n';
    }
    EscapeRowPlain(NotesHeaders);
  }

  /** The rows of the records in an exported file. */
  function RecordRows(records: seq<NoteRecord>, fmt: real -> string): (rows: seq<seq<string>>)
    ensures |rows| == |records|
  {
    seq(|records|, i requires 0 <= i < |records| => ExportRow(records[i], fmt))
  }

  /** The rows of an exported file: the header row, then one row of values per record. */
  function ExportRows(records: seq<NoteRecord>, fmt: real -> string): seq<seq<string>> {
    [NotesHeaders] + RecordRows(records, fmt)
  }

  /** The record lines joined with line feeds are the encoding of the record rows. */
  lemma {:induction false} RecordLinesEncode(records: seq<NoteRecord>, fmt: real -> string)
    ensures Join(RecordLines(records, fmt), "\n") == NotesCsv.EncodeRows(RecordRows(records, fmt))
  {
    if |records| > 1 {
      RecordLinesEncode(records[1..], fmt);
      assert RecordLines(records, fmt)[1..] == RecordLines(records[1..], fmt);
      assert RecordRows(records, fmt)[1..] == RecordRows(records[1..], fmt);
    }
  }

  /** The export lines joined are the encoding of the export rows. */
  lemma ExportLinesEncode(records: seq<NoteRecord>, fmt: real -> string)
    ensures Join(ExportLines(records, fmt), "\n") == NotesCsv.EncodeRows(ExportRows(records, fmt))
  {
    HeaderLinePlain();
    RecordLinesEncode(records, fmt);
    var lines := ExportLines(records, fmt);
    var rows := ExportRows(records, fmt);
    if records != [] {
      assert lines[1..] == RecordLines(records, fmt);
      assert rows[1..] == RecordRows(records, fmt);
    }
  }

  /** Every header denotes the key of its column. */
  lemma HeaderKeysExport()
    ensures HeaderKeys(NotesHeaders) == seq(|ExportKeys|, j requires 0 <= j < |ExportKeys| => Some(ExportKeys[j]))
  {
    forall j | 0 <= j < |NotesHeaders|
      ensures HeaderKey(NotesHeaders[j]) == Some(ExportKeys[j])
    {
      HeaderCellKey(j);
    }
  }

  lemma HeaderCellKey(j: nat)
    requires j < |NotesHeaders|
    ensures HeaderKey(NotesHeaders[j]) == Some(ExportKeys[j])
  {
    var h := NotesHeaders[j];
    assert IsTrimmed(h) && StripBom(h) == h;
    TrimTrimmed(h);
    ExportHeadersKnown();
  }

  /** The export column of each exported key. */
  function Column(k: Key): (j: nat)
    requires k != CreatedAt
    ensures j < |ExportKeys| && ExportKeys[j] == k
  {
    match k
    case Date => 0
    case Code => 1
    case Name => 2
    case Analysis => 3
    case Prediction => 4
    case Target => 5
    case Stop => 6
    case Confidence => 7
    case Tags => 8
    case Mood => 9
    case NotesText => 10
    case Reference => 11
    case Result => 12
    case ReviewNote => 13
  }

  /** Each key is exported in one column only, and the creation time in none. */
  lemma ColumnOf(j: nat)
    requires j < |ExportKeys|
    ensures ExportKeys[j] != CreatedAt && Column(ExportKeys[j]) == j
  {
  }

  /** The raw record read back from an exported line holds every exported key with its
      exported value, and no creation time. */
  lemma RowRawExport(r: NoteRecord, fmt: real -> string)
    ensures var raw := RowRaw(HeaderKeys(NotesHeaders), ExportRow(r, fmt));
      (forall k :: k in raw <==> k != CreatedAt)
      && forall k :: k != CreatedAt ==> raw[k] == ExportValue(r, k, fmt)
  {
    HeaderKeysExport();
    var keys := HeaderKeys(NotesHeaders);
    var raw := RowRaw(keys, ExportRow(r, fmt));
    forall k ensures k in raw <==> k != CreatedAt {
      ExportKeyIn(k);
    }
    forall k | k != CreatedAt ensures raw[k] == ExportValue(r, k, fmt) {
      RowRawValue(r, fmt, k);
    }
  }

  /** Exactly the keys other than the creation time have a column. */
  lemma ExportKeyIn(k: Key)
    ensures Some(k) in HeaderKeys(NotesHeaders) <==> k != CreatedAt
  {
    HeaderKeysExport();
    var keys := HeaderKeys(NotesHeaders);
    if k != CreatedAt {
      assert keys[Column(k)] == Some(k);
    } else {
      forall j | 0 <= j < |keys| ensures keys[j] != Some(CreatedAt) {
        ColumnOf(j);
      }
    }
  }

  lemma RowRawValue(r: NoteRecord, fmt: real -> string, k: Key)
    requires k != CreatedAt
    ensures var raw := RowRaw(HeaderKeys(NotesHeaders), ExportRow(r, fmt));
      k in raw && raw[k] == ExportValue(r, k, fmt)
  {
    HeaderKeysExport();
    RowRawColumns(HeaderKeys(NotesHeaders), ExportRow(r, fmt), r, fmt, k);
  }

  /** Reading a row whose columns carry the export keys gives each key its column's value. */
  lemma RowRawColumns(keys: seq<Option<Key>>, row: seq<string>, r: NoteRecord, fmt: real -> string, k: Key)
    requires |keys| == |ExportKeys| == |row|
    requires forall j :: 0 <= j < |keys| ==> keys[j] == Some(ExportKeys[j])
    requires forall j :: 0 <= j < |row| ==> row[j] == ExportValue(r, ExportKeys[j], fmt)
    requires k != CreatedAt
    ensures k in RowRaw(keys, row) && RowRaw(keys, row)[k] == ExportValue(r, k, fmt)
  {
    var j := Column(k);
    assert keys[j] == Some(k);
    forall j' | j < j' < |keys| ensures keys[j'] != keys[j] {
      ColumnOf(j');
    }
    assert LastWithKey(keys, j);
    assert Cell(row, j) == row[j];
  }

  /** The host's `String(number)` reads back through `toNumber` to the same number, and never
      writes a carriage return. */
  ghost predicate NumbersReadBack(fmt: real -> string, parse: string -> Option<real>) {
    forall x :: ReadsBack(fmt, parse, x)
  }

  predicate ReadsBack(fmt: real -> string, parse: string -> Option<real>, x: real) {
    Coerce.ToNumber(Some(fmt(x)), parse) == Some(x) && '\r' !in fmt(x)
  }

  lemma NumberReadBack(x: Option<real>, fmt: real -> string, parse: string -> Option<real>)
    requires NumbersReadBack(fmt, parse)
    ensures Coerce.ToNumber(Some(NumText(x, fmt)), parse) == x
    ensures '\r' !in NumText(x, fmt)
  {
    if x.None? {
      Coerce.ToNumberBlank("", parse);
    } else {
      assert ReadsBack(fmt, parse, x.value);
    }
  }

  /** A trimmed text field is read back as itself. */
  lemma TextBack(raw: Raw, k: Key, v: string)
    requires k in raw && raw[k] == v && IsTrimmed(v)
    ensures Text(raw, k) == v
  {
    TrimTrimmed(v);
  }

  /** A text field exported from a well-formed record is read back as itself. */
  lemma TextFieldBack(raw: Raw, r: NoteRecord, k: Key, fmt: real -> string)
    requires WellFormed(r) && IsText(k) && k in raw && raw[k] == ExportValue(r, k, fmt)
    ensures Text(raw, k) == TextField(r, k)
  {
    assert ExportValue(r, k, fmt) == TextField(r, k);
    TextBack(raw, k, TextField(r, k));
  }

  /** What reading an exported record back gives: the same record, stamped `Csv`, without a
      creation time. */
  function AsCsv(r: NoteRecord): NoteRecord {
    r.(source := Csv, createdAt := "")
  }

  /** A well-formed record, read back from the raw record of its exported line, is itself
      stamped `Csv` and without a creation time. */
  lemma NormalizeExportRaw(raw: Raw, r: NoteRecord, fmt: real -> string, parse: string -> Option<real>)
    requires WellFormed(r) && NumbersReadBack(fmt, parse)
    requires CreatedAt !in raw
    requires forall k :: k != CreatedAt ==> k in raw && raw[k] == ExportValue(r, k, fmt)
    ensures NormalizeRecord(raw, Csv, parse) == AsCsv(r)
  {
    ExportTextsBack(raw, r, fmt, parse);
    ExportNumbersBack(raw, r, fmt, parse);
    SameFieldsAsCsv(NormalizeRecord(raw, Csv, parse), r);
  }

  /** The text fields of an exported record are read back as themselves. */
  lemma ExportTextsBack(raw: Raw, r: NoteRecord, fmt: real -> string, parse: string -> Option<real>)
    requires WellFormed(r)
    requires forall k :: k != CreatedAt ==> k in raw && raw[k] == ExportValue(r, k, fmt)
    ensures forall k :: IsText(k) ==> TextField(NormalizeRecord(raw, Csv, parse), k) == TextField(r, k)
  {
    forall k | IsText(k) ensures TextField(NormalizeRecord(raw, Csv, parse), k) == TextField(r, k) {
      TextFieldBack(raw, r, k, fmt);
      if k.Code? {
        NormalizedCode(raw, Csv, parse);
        ToUpperIdentity(r.code);
      } else {
        NormalizedText(raw, Csv, parse, k);
      }
    }
  }

  /** A record with the fields of `r`, stamped `Csv` and without a creation time, is
      `AsCsv(r)`. */
  lemma SameFieldsAsCsv(n: NoteRecord, r: NoteRecord)
    requires forall k :: IsText(k) ==> TextField(n, k) == TextField(r, k)
    requires n.target == r.target && n.stop == r.stop && n.confidence == r.confidence && n.tags == r.tags
    requires n.source == Csv && n.createdAt == ""
    ensures n == AsCsv(r)
  {
    assert TextField(n, Date) == r.date && TextField(n, Code) == r.code && TextField(n, Name) == r.name;
    assert TextField(n, Analysis) == r.analysis && TextField(n, Prediction) == r.prediction;
    assert TextField(n, Mood) == r.mood && TextField(n, NotesText) == r.notes;
    assert TextField(n, Reference) == r.reference && TextField(n, Result) == r.result;
    assert TextField(n, ReviewNote) == r.reviewNote;
  }

  /** The numbers and the tags of an exported record are read back as themselves, and the
      record is stamped `Csv` without a creation time. */
  lemma ExportNumbersBack(raw: Raw, r: NoteRecord, fmt: real -> string, parse: string -> Option<real>)
    requires WellFormed(r) && NumbersReadBack(fmt, parse)
    requires CreatedAt !in raw
    requires forall k :: k != CreatedAt ==> k in raw && raw[k] == ExportValue(r, k, fmt)
    ensures var n := NormalizeRecord(raw, Csv, parse);
      && n.target == r.target && n.stop == r.stop && n.confidence == r.confidence && n.tags == r.tags
      && n.source == Csv && n.createdAt == ""
  {
    assert raw[Target] == NumText(r.target, fmt) && raw[Stop] == NumText(r.stop, fmt);
    assert raw[Confidence] == NumText(r.confidence, fmt) && raw[Tags] == Join(r.tags, ";");
    NumberReadBack(r.target, fmt, parse);
    NumberReadBack(r.stop, fmt, parse);
    NumberReadBack(r.confidence, fmt, parse);
    SplitTagsJoin(r.tags);
  }

  /** No field or tag of the record holds a carriage return (the reader turns those into line
      feeds). */
  predicate NoCr(r: NoteRecord) {
    (forall k :: IsText(k) ==> '\r' !in TextField(r, k))
    && forall i :: 0 <= i < |r.tags| ==> '\r' !in r.tags[i]
  }

  lemma ExportValueNoCr(r: NoteRecord, k: Key, fmt: real -> string, parse: string -> Option<real>)
    requires NoCr(r) && NumbersReadBack(fmt, parse) && k != CreatedAt
    ensures '\r' !in ExportValue(r, k, fmt)
  {
    if k.Target? {
      NumberReadBack(r.target, fmt, parse);
    } else if k.Stop? {
      NumberReadBack(r.stop, fmt, parse);
    } else if k.Confidence? {
      NumberReadBack(r.confidence, fmt, parse);
    } else if k.Tags? {
      JoinFree(r.tags, ";", '\r');
    } else {
      assert '\r' !in TextField(r, k);
    }
  }

  lemma ExportRowNoCr(r: NoteRecord, fmt: real -> string, parse: string -> Option<real>)
    requires NoCr(r) && NumbersReadBack(fmt, parse)
    ensures forall j :: 0 <= j < |ExportRow(r, fmt)| ==> '\r' !in ExportRow(r, fmt)[j]
  {
    forall j | 0 <= j < |ExportRow(r, fmt)| ensures '\r' !in ExportRow(r, fmt)[j] {
      ColumnOf(j);
      ExportValueNoCr(r, ExportKeys[j], fmt, parse);
    }
  }

  lemma ExportRowsNoCr(s: seq<NoteRecord>, fmt: real -> string, parse: string -> Option<real>)
    requires NumbersReadBack(fmt, parse)
    requires forall i :: 0 <= i < |s| ==> NoCr(s[i])
    ensures var rows := ExportRows(s, fmt);
      forall i, j :: 0 <= i < |rows| && 0 <= j < |rows[i]| ==> '\r' !in rows[i][j]
  {
    var rows := ExportRows(s, fmt);
    forall i, j | 0 <= i < |rows| && 0 <= j < |rows[i]| ensures '\r' !in rows[i][j] {
      if i > 0 {
        assert rows[i] == RecordRows(s, fmt)[i - 1];
        ExportRowNoCr(s[i - 1], fmt, parse);
      }
    }
  }

  /** A line of two fields or more is not empty. */
  lemma EscapeRowNonEmpty(fields: seq<string>)
    requires |fields| >= 2
    ensures NotesCsv.EscapeRow(fields) != ""
  {
  }

  /** One record read back from its exported line, under columns that carry the export keys. */
  lemma {:induction false} RecordBack(keys: seq<Option<Key>>, r: NoteRecord, fmt: real -> string, parse: string -> Option<real>)
    requires |keys| == |ExportKeys|
    requires forall j :: 0 <= j < |keys| ==> keys[j] == Some(ExportKeys[j])
    requires WellFormed(r) && NumbersReadBack(fmt, parse)
    ensures NormalizeRecord(RowRaw(keys, ExportRow(r, fmt)), Csv, parse) == AsCsv(r)
  {
    var row := ExportRow(r, fmt);
    var raw := RowRaw(keys, row);
    forall k | k != CreatedAt ensures k in raw && raw[k] == ExportValue(r, k, fmt) {
      RowRawColumns(keys, row, r, fmt, k);
    }
    assert CreatedAt !in raw by {
      forall j | 0 <= j < |keys| ensures keys[j] != Some(CreatedAt) {
        ColumnOf(j);
      }
    }
    NormalizeExportRaw(raw, r, fmt, parse);
  }

  /** The encoded export rows parse back to themselves. */
  lemma ParseExportRows(s: seq<NoteRecord>, fmt: real -> string, parse: string -> Option<real>)
    requires NumbersReadBack(fmt, parse)
    requires forall i :: 0 <= i < |s| ==> NoCr(s[i])
    ensures NotesCsv.Parse(NotesCsv.EncodeRows(ExportRows(s, fmt))) == ExportRows(s, fmt)
  {
    var rows := ExportRows(s, fmt);
    ExportRowsNoCr(s, fmt, parse);
    EscapeRowNonEmpty(rows[|rows| - 1]);
    NotesCsv.ParseEncodeRows(rows);
  }

  /** The export rows of records in a given order are read as those records. */
  lemma ReadExportRows(s: seq<NoteRecord>, fmt: real -> string, parse: string -> Option<real>)
    requires NumbersReadBack(fmt, parse)
    requires forall i :: 0 <= i < |s| ==> WellFormed(s[i]) && NotBlank(ExportRow(s[i], fmt))
    ensures ReadRecords(ExportRows(s, fmt), parse) == seq(|s|, i requires 0 <= i < |s| => AsCsv(s[i]))
  {
    var rows := ExportRows(s, fmt);
    assert rows[0] == NotesHeaders;
    HeaderKeysExport();
    assert rows[1..] == RecordRows(s, fmt);
    ReadRecordRows(rows, s, fmt, parse);
  }

  /** Rows under a header that names the export columns, holding the export rows of records,
      are read as those records. */
  lemma {:induction false} ReadRecordRows(rows: seq<seq<string>>, s: seq<NoteRecord>, fmt: real -> string, parse: string -> Option<real>)
    requires NumbersReadBack(fmt, parse)
    requires |rows| == |s| + 1 && rows[1..] == RecordRows(s, fmt)
    requires |HeaderKeys(rows[0])| == |ExportKeys|
    requires forall j :: 0 <= j < |ExportKeys| ==> HeaderKeys(rows[0])[j] == Some(ExportKeys[j])
    requires forall i :: 0 <= i < |s| ==> WellFormed(s[i]) && NotBlank(ExportRow(s[i], fmt))
    ensures ReadRecords(rows, parse) == seq(|s|, i requires 0 <= i < |s| => AsCsv(s[i]))
  {
    var data := rows[1..];
    FilterAll(data, NotBlank);
    var keys := HeaderKeys(rows[0]);
    var got := ReadRecords(rows, parse);
    var want := seq(|s|, i requires 0 <= i < |s| => AsCsv(s[i]));
    assert |got| == |want|;
    forall i | 0 <= i < |s| ensures got[i] == want[i] {
      assert data[i] == ExportRow(s[i], fmt);
      RecordBack(keys, s[i], fmt, parse);
    }
  }

  /** The export round trip: reading the exported text back with `parseNotesCsv` gives the
      records in export order, each stamped `Csv` and without a creation time, provided the
      records are well formed, hold no carriage return, have a line that is not blank, and the
      host prints numbers so that they read back. */
  lemma {:induction false} ExportRoundTrip(records: seq<NoteRecord>, fmt: real -> string, dateParse: string -> Option<real>, parse: string -> Option<real>)
    requires NumbersReadBack(fmt, parse)
    requires forall i :: 0 <= i < |records| ==> WellFormed(records[i]) && NoCr(records[i]) && NotBlank(ExportRow(records[i], fmt))
    ensures var sorted := SortByDate(records, dateParse);
      ParseNotesCsv(ExportText(records, fmt, dateParse), parse) == seq(|sorted|, i requires 0 <= i < |sorted| => AsCsv(sorted[i]))
  {
    var sorted := SortByDate(records, dateParse);
    forall i | 0 <= i < |sorted|
      ensures WellFormed(sorted[i]) && NoCr(sorted[i]) && NotBlank(ExportRow(sorted[i], fmt))
    {
      assert sorted[i] in multiset(records);
      var k :| 0 <= k < |records| && records[k] == sorted[i];
    }
    ExportLinesEncode(sorted, fmt);
    ParseExportRows(sorted, fmt, parse);
    ReadExportRows(sorted, fmt, parse);
  }

  // ---------------------------------------------------------------------------------------
  // The store of records.

  predicate IsLocal(r: NoteRecord) {
    r.source == Local
  }

  predicate IsCsv(r: NoteRecord) {
    r.source == Csv
  }

  /** The add form as `handleAddRecord` reads it: for each key with a control on the page, the
      value `UI.getValue` returns for it (already trimmed). A key without a control reads as
      `''`. */
  type Form = map<Key, string>

  function FormValue(form: Form, k: Key): string {
    if k in form then form[k] else ""
  }

  /** What `UI.getValue` promises: every value trimmed. */
  predicate FormTrimmed(form: Form) {
    forall k :: k in form ==> IsTrimmed(form[k])
  }

  /** The raw record `handleAddRecord` builds from the form and the creation time: the form's
      fields, no result and no review note. */
  function FormRaw(form: Form, createdAt: string): (raw: Raw)
    ensures forall k :: k in raw <==> (k in form && !(k.Result? || k.ReviewNote?)) || k.CreatedAt?
    ensures CreatedAt in raw && raw[CreatedAt] == createdAt
  {
    (form - {Result, ReviewNote})[CreatedAt := createdAt]
  }

  /** `normalizeRecord({...form, createdAt}, 'local')`: the record a valid form adds. */
  function NewRecord(form: Form, createdAt: string, parse: string -> Option<real>): (r: NoteRecord)
    ensures r.source == Local && r.createdAt == createdAt && WellFormed(r)
    ensures r.result == "" && r.reviewNote == ""
  {
    NormalizeRecord(FormRaw(form, createdAt), Local, parse)
  }

  /** With the values `UI.getValue` returns, the added record keeps each text field of the form
      as entered (the code upper-cased) and reads the numbers with `toNumber`. */
  lemma {:induction false} NewRecordFields(form: Form, createdAt: string, parse: string -> Option<real>)
    requires FormTrimmed(form)
    ensures forall k :: IsText(k) && !(k.Code? || k.Result? || k.ReviewNote?) ==>
      TextField(NewRecord(form, createdAt, parse), k) == FormValue(form, k)
    ensures NewRecord(form, createdAt, parse).code == ToUpper(FormValue(form, Code))
    ensures NewRecord(form, createdAt, parse).confidence == Coerce.ToNumber(Lookup(form, Confidence), parse)
  {
    forall k | IsText(k) && !(k.Code? || k.Result? || k.ReviewNote?)
      ensures TextField(NewRecord(form, createdAt, parse), k) == FormValue(form, k)
    {
      NewRecordText(form, createdAt, parse, k);
    }
    NewRecordCode(form, createdAt, parse);
    NewRecordConfidence(form, createdAt, parse);
  }

  lemma NewRecordCode(form: Form, createdAt: string, parse: string -> Option<real>)
    requires FormTrimmed(form)
    ensures NewRecord(form, createdAt, parse).code == ToUpper(FormValue(form, Code))
  {
    FormText(form, createdAt, Code);
  }

  lemma NewRecordConfidence(form: Form, createdAt: string, parse: string -> Option<real>)
    ensures NewRecord(form, createdAt, parse).confidence == Coerce.ToNumber(Lookup(form, Confidence), parse)
  {
    var raw := FormRaw(form, createdAt);
    assert Lookup(raw, Confidence) == Lookup(form, Confidence);
  }

  lemma NewRecordText(form: Form, createdAt: string, parse: string -> Option<real>, k: Key)
    requires FormTrimmed(form)
    requires IsText(k) && !(k.Code? || k.Result? || k.ReviewNote?)
    ensures TextField(NewRecord(form, createdAt, parse), k) == FormValue(form, k)
  {
    NormalizedText(FormRaw(form, createdAt), Local, parse, k);
    FormText(form, createdAt, k);
  }

  /** A form field is normalised to the value read from the form. */
  lemma {:induction false} FormText(form: Form, createdAt: string, k: Key)
    requires FormTrimmed(form)
    requires IsText(k) && !(k.Result? || k.ReviewNote?)
    ensures Text(FormRaw(form, createdAt), k) == FormValue(form, k)
  {
    var raw := FormRaw(form, createdAt);
    if k in form {
      assert k in raw && raw[k] == form[k];
      TextBack(raw, k, raw[k]);
    }
  }

  lemma AllLocalPrepend(r: NoteRecord, s: seq<NoteRecord>)
    requires r.source == Local && forall i :: 0 <= i < |s| ==> s[i].source == Local
    ensures forall i :: 0 <= i < |[r] + s| ==> ([r] + s)[i].source == Local
  {
  }

  /** How `handleAddRecord` ends: a warning for the first missing required field, or the
      record added. */
  datatype AddOutcome = MissingDate | MissingCode | MissingAnalysis | Added

  /** The entry of the local records that `handleResultChange` updates for a picked record:
      one with the same date, code and creation time. */
  predicate SameEntry(r: NoteRecord, picked: NoteRecord) {
    r.date == picked.date && r.code == picked.code && r.createdAt == picked.createdAt
  }

  /** `findIndex`: the first entry that matches the picked record, if any. */
  function FirstMatch(s: seq<NoteRecord>, picked: NoteRecord): (j: Option<nat>)
    ensures j.Some? ==> j.value < |s| && SameEntry(s[j.value], picked)
    ensures j.Some? ==> forall k :: 0 <= k < j.value ==> !SameEntry(s[k], picked)
    ensures j.None? <==> forall k :: 0 <= k < |s| ==> !SameEntry(s[k], picked)
  {
    if s == [] then None
    else if SameEntry(s[0], picked) then Some(0)
    else
      var j := FirstMatch(s[1..], picked);
      if j.Some? then Some(j.value + 1) else None
  }

  /** The records of the notes page: `baseRecords` read from `notes.csv`, `localRecords`
      entered on this device, and whether `notes.csv` has been read. */
  class NotesStore {
    var baseRecords: seq<NoteRecord>
    var localRecords: seq<NoteRecord>
    var loaded: bool

    /** The base records come from `notes.csv` and the local ones from the form. */
    ghost predicate Valid()
      reads this
    {
      (forall i :: 0 <= i < |baseRecords| ==> baseRecords[i].source == Csv)
      && (forall i :: 0 <= i < |localRecords| ==> localRecords[i].source == Local)
    }

    /** The initial state with the records kept in the browser's storage, if any could be
        read, stamped `Local` (`loadLocalRecords`). */
    constructor(stored: Option<seq<NoteRecord>>)
      ensures Valid() && baseRecords == [] && !loaded
      ensures stored.None? ==> localRecords == []
      ensures stored.Some? ==> (|localRecords| == |stored.value|
        && forall i :: 0 <= i < |stored.value| ==> localRecords[i] == stored.value[i].(source := Local))
    {
      baseRecords := [];
      loaded := false;
      match stored
      case None => localRecords := [];
      case Some(rs) => localRecords := seq(|rs|, i requires 0 <= i < |rs| => rs[i].(source := Local));
    }

    /** `getAllRecords()`: the base records, then the local ones. */
    function AllRecords(): (r: seq<NoteRecord>)
      reads this
      ensures |r| == |baseRecords| + |localRecords|
    {
      baseRecords + localRecords
    }

    /** `loadNotes(force)` with the fetched text of `notes.csv` (`None` when the fetch fails):
        a store already loaded is left as it is unless forced; otherwise a successful fetch
        replaces the base records and marks the store loaded, and a failed one changes
        nothing. */
    method Load(force: bool, fetched: Option<string>, parse: string -> Option<real>)
      requires Valid()
      modifies this
      ensures Valid() && localRecords == old(localRecords)
      ensures old(loaded) && !force ==> baseRecords == old(baseRecords) && loaded
      ensures !(old(loaded) && !force) && fetched.Some? ==> baseRecords == ParseNotesCsv(fetched.value, parse) && loaded
      ensures !(old(loaded) && !force) && fetched.None? ==> baseRecords == old(baseRecords) && loaded == old(loaded)
    {
      if loaded && !force {
        return;
      }
      if fetched.Some? {
        baseRecords := ParseNotesCsv(fetched.value, parse);
        loaded := true;
      }
    }

    /** `handleAddRecord` with the form's controls and the current time: the date, the code and
        the analysis are required, in that order; a complete form puts one new `Local`
        record in front of the local records. The base records never change. */
    method AddRecord(form: Form, createdAt: string, parse: string -> Option<real>) returns (outcome: AddOutcome)
      requires Valid()
      modifies this
      ensures Valid() && baseRecords == old(baseRecords) && loaded == old(loaded)
      ensures outcome == MissingDate <==> FormValue(form, Date) == ""
      ensures outcome == MissingCode <==> FormValue(form, Date) != "" && FormValue(form, Code) == ""
      ensures outcome == MissingAnalysis <==> FormValue(form, Date) != "" && FormValue(form, Code) != "" && FormValue(form, Analysis) == ""
      ensures outcome == Added ==> localRecords == [NewRecord(form, createdAt, parse)] + old(localRecords)
      ensures outcome != Added ==> localRecords == old(localRecords)
    {
      var date := FormValue(form, Date);
      var code := FormValue(form, Code);
      var analysis := FormValue(form, Analysis);
      if date == "" {
        return MissingDate;
      }
      if code == "" {
        return MissingCode;
      }
      if analysis == "" {
        return MissingAnalysis;
      }
      var record := NewRecord(form, createdAt, parse);
      AllLocalPrepend(record, localRecords);
      localRecords := [record] + localRecords;
      outcome := Added;
    }

    /** `handleResultChange` for the row at `index` of the date-sorted list: when that row is a
        local record, the first local record with its date, code and creation time gets the new
        result, and nothing else changes; otherwise nothing changes at all. The index is read
        against the full date-sorted list, while the browse table numbers its selectors within
        the filtered list, so under an active filter a selector can pick a different record. */
    method ResultChange(index: int, newResult: string, dateParse: string -> Option<real>)
      requires Valid()
      modifies this`localRecords
      ensures Valid()
      ensures var all := SortByDate(old(AllRecords()), dateParse);
        !(0 <= index < |all| && all[index].source == Local) ==> localRecords == old(localRecords)
      ensures var all := SortByDate(old(AllRecords()), dateParse);
        0 <= index < |all| && all[index].source == Local ==>
          var j := FirstMatch(old(localRecords), all[index]);
          j.Some? && localRecords == old(localRecords)[j.value := old(localRecords)[j.value].(result := newResult)]
    {
      var all := SortByDate(AllRecords(), dateParse);
      if !(0 <= index < |all|) || all[index].source != Local {
        return;
      }
      var picked := all[index];
      PickedIsLocal(baseRecords, localRecords, all, index);
      var j := FirstMatch(localRecords, picked);
      if j.Some? {
        localRecords := localRecords[j.value := localRecords[j.value].(result := newResult)];
      }
    }
  }

  /** A `Local` record of the combined, reordered list is one of the local records, so
      `handleResultChange` always finds the entry to update. */
  lemma PickedIsLocal(base: seq<NoteRecord>, local: seq<NoteRecord>, all: seq<NoteRecord>, index: nat)
    requires forall i :: 0 <= i < |base| ==> base[i].source == Csv
    requires multiset(all) == multiset(base + local)
    requires index < |all| && all[index].source == Local
    ensures FirstMatch(local, all[index]).Some?
  {
    var picked := all[index];
    assert picked in multiset(base + local);
    var k :| 0 <= k < |base + local| && (base + local)[k] == picked;
    assert local[k - |base|] == picked;
  }

  /** The `Local` records of `getAllRecords()` are exactly the local records, in order, and its
      `Csv` records exactly the base records. */
  lemma AllRecordsSources(store: NotesStore)
    requires store.Valid()
    ensures Filter(store.AllRecords(), IsLocal) == store.localRecords
    ensures Filter(store.AllRecords(), IsCsv) == store.baseRecords
  {
    var base, local := store.baseRecords, store.localRecords;
    FilterAppend(base, local, IsLocal);
    FilterNone(base, IsLocal);
    FilterAll(local, IsLocal);
    FilterAppend(base, local, IsCsv);
    FilterAll(base, IsCsv);
    FilterNone(local, IsCsv);
  }
}

=== FILE: notes_csv.dfy ===
/** The quote-aware CSV reader and the field escaper of the notes page (static/js/notes.js).
    The reader follows the quoting rules of RFC 4180 section 2 (items 5 to 7) loosely: rows end
    with LF after CR LF and lone CR have been turned into LF, a double quote anywhere outside
    quotes opens a quoted run, and the last row needs no line break. */
module NotesCsv {
  import opened JsString
  import opened Seqs

  /** `text.replace(/\r\n/g, '\n')`. */
  function ReplaceCrLf(s: string): (r: string)
    ensures '\r' !in s ==> r == s
  {
    if s == [] then []
    else if |s| >= 2 && s[0] == '\r' && s[1] == '\n' then "\n" + ReplaceCrLf(s[2..])
    else assert '\r' !in s ==> '\r' !in s[1..] by { assert s == [s[0]] + s[1..]; } [s[0]] + ReplaceCrLf(s[1..])
  }

  /** `.replace(/\r/g, '\n')`. */
  function ReplaceCr(s: string): (r: string)
    ensures '\r' !in r
    ensures |r| == |s|
    ensures forall i :: 0 <= i < |s| ==> r[i] == if s[i] == '\r' then '\n' else s[i]
  {
    if s == [] then [] else [if s[0] == '\r' then '\n' else s[0]] + ReplaceCr(s[1..])
  }

  /** Line-break normalisation applied before scanning: the result has no CR, and text without
      CR is left as it is. */
  function NormalizeNewlines(text: string): (r: string)
    ensures '\r' !in r
    ensures '\r' !in text ==> r == text
  {
    var t := ReplaceCrLf(text);
    assert '\r' !in text ==> ReplaceCr(t) == t by {
      if '\r' !in text {
        ReplaceCrFree(t);
      }
    }
    ReplaceCr(t)
  }

  /** CR-free text passes through the CR LF replacement untouched, ahead of whatever follows. */
  lemma {:induction false} ReplaceCrLfFreePrefix(a: string, b: string)
    requires '\r' !in a
    ensures ReplaceCrLf(a + b) == a + ReplaceCrLf(b)
  {
    if a != [] {
      assert (a + b)[0] == a[0] && (a + b)[1..] == a[1..] + b;
      assert '\r' !in a[1..] by { assert a == [a[0]] + a[1..]; }
      ReplaceCrLfFreePrefix(a[1..], b);
      assert a == [a[0]] + a[1..];
    } else {
      assert a + b == b;
    }
  }

  /** The CR replacement works character by character, so it distributes over concatenation. */
  lemma ReplaceCrAppend(a: string, b: string)
    ensures ReplaceCr(a + b) == ReplaceCr(a) + ReplaceCr(b)
  {
    var l, r := ReplaceCr(a + b), ReplaceCr(a) + ReplaceCr(b);
    assert |l| == |r|;
    forall i | 0 <= i < |l| ensures l[i] == r[i] {
      if i < |a| {
        assert (a + b)[i] == a[i];
      } else {
        assert (a + b)[i] == b[i - |a|];
      }
    }
  }

  /** A CR LF pair becomes one LF: `a\r\nb` reads as the line `a` followed by `b`. */
  lemma NormalizeCrLf(a: string, b: string)
    requires '\r' !in a
    ensures NormalizeNewlines(a + "\r\n" + b) == a + "\n" + NormalizeNewlines(b)
  {
    var rb := ReplaceCrLf(b);
    assert ReplaceCrLf("\r\n" + b) == "\n" + rb by { assert ("\r\n" + b)[2..] == b; }
    assert a + "\r\n" + b == a + ("\r\n" + b);
    ReplaceCrLfFreePrefix(a, "\r\n" + b);
    BreakThenRest(a, "\n", rb);
  }

  /** A lone CR also becomes one LF: `a\rb`, with `b` not starting with LF, reads as the line
      `a` followed by `b`. */
  lemma NormalizeLoneCr(a: string, b: string)
    requires '\r' !in a
    requires b == [] || b[0] != '\n'
    ensures NormalizeNewlines(a + "\r" + b) == a + "\n" + NormalizeNewlines(b)
  {
    var rb := ReplaceCrLf(b);
    assert ReplaceCrLf("\r" + b) == "\r" + rb by { assert ("\r" + b)[1..] == b; }
    assert a + "\r" + b == a + ("\r" + b);
    ReplaceCrLfFreePrefix(a, "\r" + b);
    BreakThenRest(a, "\r", rb);
  }

  /** The CR replacement of CR-free text, a one-character line break and the rest. */
  lemma BreakThenRest(a: string, brk: string, rest: string)
    requires '\r' !in a
    requires brk == "\n" || brk == "\r"
    ensures ReplaceCr(a + (brk + rest)) == a + "\n" + ReplaceCr(rest)
  {
    ReplaceCrAppend(a, brk + rest);
    ReplaceCrAppend(brk, rest);
    ReplaceCrFree(a);
    assert ReplaceCr(brk) == "\n";
  }

  /** Text without CR is its own CR replacement. */
  lemma ReplaceCrFree(a: string)
    requires '\r' !in a
    ensures ReplaceCr(a) == a
  {
    assert forall i :: 0 <= i < |a| ==> a[i] != '\r' by { assert forall i :: 0 <= i < |a| ==> a[i] in a; }
  }

  /** The variables of the scanning loop: finished rows, the fields of the current row, the
      current field and whether the scan is inside a quoted run. */
  datatype ScanState = ScanState(rows: seq<seq<string>>, row: seq<string>, value: string, inQuotes: bool)

  const Start := ScanState([], [], "", false)

  /** The scanning loop of `parseCsv`, one character (two for an escaped quote) at a time.
      Inside quotes: `""` appends one `"`, a lone `"` closes the run, anything else (comma and
      LF included) is appended. Outside quotes: `"` opens a run and is not kept, `,` ends the
      field, LF ends the field and the row, anything else is appended. */
  function Run(s: string, st: ScanState): ScanState
    decreases |s|
  {
    if s == [] then st
    else if st.inQuotes then
      if s[0] == '"' then
        if |s| > 1 && s[1] == '"' then Run(s[2..], st.(value := st.value + "\""))
        else Run(s[1..], st.(inQuotes := false))
      else Run(s[1..], st.(value := st.value + [s[0]]))
    else if s[0] == '"' then Run(s[1..], st.(inQuotes := true))
    else if s[0] == ',' then Run(s[1..], st.(row := st.row + [st.value], value := ""))
    else if s[0] == '\n' then Run(s[1..], st.(rows := st.rows + [st.row + [st.value]], row := [], value := ""))
    else Run(s[1..], st.(value := st.value + [s[0]]))
  }

  /** After the loop: a last row without a line break is kept when it has a non-empty value or
      at least one finished field. */
  function Finish(st: ScanState): seq<seq<string>> {
    if |st.value| > 0 || |st.row| > 0 then st.rows + [st.row + [st.value]] else st.rows
  }

  /** What `parseCsv(text)` returns. */
  function Parse(text: string): seq<seq<string>> {
    Finish(Run(NormalizeNewlines(text), Start))
  }

  /** `parseCsv` (static/js/notes.js), the index loop over the normalised text. */
  method ParseCsv(text: string) returns (rows: seq<seq<string>>)
    ensures rows == Parse(text)
  {
    var s := NormalizeNewlines(text);
    rows := [];
    var row: seq<string> := [];
    var value := "";
    var inQuotes := false;
    var i := 0;
    while i < |s|
      invariant 0 <= i <= |s|
      invariant Run(s[i..], ScanState(rows, row, value, inQuotes)) == Run(s, Start)
    {
      var ch := s[i];
      assert s[i..][1..] == s[i + 1..];
      if inQuotes {
        if ch == '"' {
          if i + 1 < |s| && s[i + 1] == '"' {
            assert s[i..][2..] == s[i + 2..];
            value := value + "\"";
            i := i + 1;
          } else {
            inQuotes := false;
          }
        } else {
          value := value + [ch];
        }
      } else if ch == '"' {
        inQuotes := true;
      } else if ch == ',' {
        row := row + [value];
        value := "";
      } else if ch == '\n' {
        rows := rows + [row + [value]];
        row := [];
        value := "";
      } else {
        value := value + [ch];
      }
      i := i + 1;
    }
    if |value| > 0 || |row| > 0 {
      rows := rows + [row + [value]];
    }
  }

  /** Every row the reader produces has at least one field. */
  lemma {:induction false} RunKeepsRowsNonEmpty(s: string, st: ScanState)
    requires forall k :: 0 <= k < |st.rows| ==> |st.rows[k]| >= 1
    ensures forall k :: 0 <= k < |Run(s, st).rows| ==> |Run(s, st).rows[k]| >= 1
    decreases |s|
  {
    if s != [] {
      if st.inQuotes && s[0] == '"' && |s| > 1 && s[1] == '"' {
        RunKeepsRowsNonEmpty(s[2..], st.(value := st.value + "\""));
      } else if st.inQuotes && s[0] == '"' {
        RunKeepsRowsNonEmpty(s[1..], st.(inQuotes := false));
      } else if st.inQuotes {
        RunKeepsRowsNonEmpty(s[1..], st.(value := st.value + [s[0]]));
      } else if s[0] == '"' {
        RunKeepsRowsNonEmpty(s[1..], st.(inQuotes := true));
      } else if s[0] == ',' {
        RunKeepsRowsNonEmpty(s[1..], st.(row := st.row + [st.value], value := ""));
      } else if s[0] == '\n' {
        RunKeepsRowsNonEmpty(s[1..], st.(rows := st.rows + [st.row + [st.value]], row := [], value := ""));
      } else {
        RunKeepsRowsNonEmpty(s[1..], st.(value := st.value + [s[0]]));
      }
    }
  }

  lemma ParseRowsNonEmpty(text: string)
    ensures forall k :: 0 <= k < |Parse(text)| ==> |Parse(text)[k]| >= 1
  {
    RunKeepsRowsNonEmpty(NormalizeNewlines(text), Start);
  }

  /** Empty text has no rows. */
  lemma ParseEmpty()
    ensures Parse("") == []
  {
  }

  // ---------------------------------------------------------------------------------------
  // The escaper used on export, and the round trip through the reader.

  /** `text.replace(/"/g, '""')`. */
  function DoubleQuotes(v: string): (r: string)
    ensures '\r' !in v ==> '\r' !in r
  {
    if v == [] then []
    else (if v[0] == '"' then "\"\"" else [v[0]]) + DoubleQuotes(v[1..])
  }

  predicate NeedsQuotes(v: string) {
    '"' in v || ',' in v || '\n' in v
  }

  /** `csvEscape` on a string: quote-wrapped, with inner quotes doubled, exactly when it holds a
      quote, a comma or a line feed. */
  function CsvEscape(v: string): (r: string)
    ensures NeedsQuotes(v) ==> |r| >= 2 && r[0] == '"' && r[|r| - 1] == '"'
    ensures !NeedsQuotes(v) ==> r == v
    ensures '\r' !in v ==> '\r' !in r
  {
    if NeedsQuotes(v) then "\"" + DoubleQuotes(v) + "\"" else v
  }

  /** `values.map(csvEscape).join(',')`. */
  function EscapeRow(fields: seq<string>): string
  {
    if |fields| == 0 then ""
    else if |fields| == 1 then CsvEscape(fields[0])
    else CsvEscape(fields[0]) + "," + EscapeRow(fields[1..])
  }

  /** `lines.join('\n')` over escaped rows. */
  function EncodeRows(rows: seq<seq<string>>): string
  {
    if |rows| == 0 then ""
    else if |rows| == 1 then EscapeRow(rows[0])
    else EscapeRow(rows[0]) + "\n" + EncodeRows(rows[1..])
  }

  /** Scanning splits at any boundary that does not separate the two halves of an escaped
      quote pair: scanning `a + b` is scanning `a`, then `b` from where `a` left off. */
  lemma {:induction false} RunAppend(a: string, b: string, st: ScanState)
    requires a == [] || b == [] || a[|a| - 1] != '"' || b[0] != '"'
    ensures Run(a + b, st) == Run(b, Run(a, st))
    decreases |a|
  {
    if a == [] {
      assert a + b == b;
    } else {
      var s := a + b;
      assert s[0] == a[0];
      assert s[1..] == a[1..] + b;
      if st.inQuotes && a[0] == '"' && |a| > 1 && a[1] == '"' {
        assert s[2..] == a[2..] + b;
        RunAppend(a[2..], b, st.(value := st.value + "\""));
      } else if st.inQuotes && a[0] == '"' {
        assert |a| == 1 ==> s[1..] == b;
        RunAppend(a[1..], b, st.(inQuotes := false));
      } else if st.inQuotes {
        RunAppend(a[1..], b, st.(value := st.value + [a[0]]));
      } else if a[0] == '"' {
        RunAppend(a[1..], b, st.(inQuotes := true));
      } else if a[0] == ',' {
        RunAppend(a[1..], b, st.(row := st.row + [st.value], value := ""));
      } else if a[0] == '\n' {
        RunAppend(a[1..], b, st.(rows := st.rows + [st.row + [st.value]], row := [], value := ""));
      } else {
        RunAppend(a[1..], b, st.(value := st.value + [a[0]]));
      }
    }
  }

  lemma {:induction false} RunPlain(f: string, st: ScanState)
    requires !st.inQuotes && !NeedsQuotes(f)
    ensures Run(f, st) == st.(value := st.value + f)
    decreases |f|
  {
    if f == [] {
      assert st.(value := st.value + f) == st;
    } else {
      assert f[0] in f;
      assert !NeedsQuotes(f[1..]) by {
        assert forall c :: c in f[1..] ==> c in f;
      }
      RunPlain(f[1..], st.(value := st.value + [f[0]]));
      assert st.value + [f[0]] + f[1..] == st.value + f;
    }
  }

  lemma {:induction false} RunQuoted(f: string, st: ScanState)
    requires st.inQuotes
    ensures Run(DoubleQuotes(f) + "\"", st) == st.(value := st.value + f, inQuotes := false)
    decreases |f|
  {
    var t := DoubleQuotes(f) + "\"";
    if f == [] {
      assert t == "\"";
      assert t[1..] == [];
      assert st.value + f == st.value;
    } else if f[0] == '"' {
      assert t == "\"\"" + (DoubleQuotes(f[1..]) + "\"");
      assert t[2..] == DoubleQuotes(f[1..]) + "\"";
      RunQuoted(f[1..], st.(value := st.value + "\""));
      assert st.value + "\"" + f[1..] == st.value + f;
    } else {
      assert t == [f[0]] + (DoubleQuotes(f[1..]) + "\"");
      assert t[1..] == DoubleQuotes(f[1..]) + "\"";
      RunQuoted(f[1..], st.(value := st.value + [f[0]]));
      assert st.value + [f[0]] + f[1..] == st.value + f;
    }
  }

  /** Scanning one escaped field appends exactly the original field to the current value. */
  lemma RunField(f: string, st: ScanState)
    requires !st.inQuotes
    ensures Run(CsvEscape(f), st) == st.(value := st.value + f)
  {
    if NeedsQuotes(f) {
      var t := CsvEscape(f);
      assert t == "\"" + (DoubleQuotes(f) + "\"");
      assert t[1..] == DoubleQuotes(f) + "\"";
      RunQuoted(f, st.(inQuotes := true));
    } else {
      RunPlain(f, st);
    }
  }

  lemma RunCommaStep(tail: string, st: ScanState)
    requires !st.inQuotes
    ensures Run("," + tail, st) == Run(tail, st.(row := st.row + [st.value], value := ""))
  {
    assert ("," + tail)[1..] == tail;
  }

  lemma RunNewlineStep(tail: string, st: ScanState)
    requires !st.inQuotes
    ensures Run("\n" + tail, st) == Run(tail, st.(rows := st.rows + [st.row + [st.value]], row := [], value := ""))
  {
    assert ("\n" + tail)[1..] == tail;
  }

  /** Scanning one escaped row leaves all but its last field in the current row and its last
      field as the current value. */
  lemma {:induction false} RunRow(fields: seq<string>, st: ScanState)
    requires |fields| >= 1 && !st.inQuotes && st.value == ""
    ensures Run(EscapeRow(fields), st)
         == st.(row := st.row + fields[..|fields| - 1], value := fields[|fields| - 1])
    decreases |fields|
  {
    var n := |fields|;
    if n == 1 {
      RunField(fields[0], st);
      assert st.row + fields[..0] == st.row;
      assert st.value + fields[0] == fields[0];
    } else {
      RunRowHead(fields, st);
      RunRow(fields[1..], st.(row := st.row + [fields[0]], value := ""));
      PrefixOfTail(st.row, fields, n - 2);
      assert fields[1..][n - 2] == fields[n - 1];
    }
  }

  /** Scanning the first of several escaped fields and the comma after it finishes that field. */
  lemma RunRowHead(fields: seq<string>, st: ScanState)
    requires |fields| >= 2 && !st.inQuotes && st.value == ""
    ensures Run(EscapeRow(fields), st) == Run(EscapeRow(fields[1..]), st.(row := st.row + [fields[0]], value := ""))
  {
    var e1 := EscapeRow(fields[1..]);
    assert EscapeRow(fields) == CsvEscape(fields[0]) + ("," + e1);
    RunAppend(CsvEscape(fields[0]), "," + e1, st);
    RunField(fields[0], st);
    assert st.value + fields[0] == fields[0];
    RunCommaStep(e1, st.(value := fields[0]));
  }

  /** Scanning escaped rows joined by line feeds appends all but the last to the finished rows. */
  lemma {:induction false} RunRows(rows: seq<seq<string>>, st: ScanState)
    requires |rows| >= 1
    requires forall i :: 0 <= i < |rows| ==> |rows[i]| >= 1
    requires !st.inQuotes && st.value == "" && st.row == []
    ensures var last := rows[|rows| - 1];
      Run(EncodeRows(rows), st)
      == ScanState(st.rows + rows[..|rows| - 1], last[..|last| - 1], last[|last| - 1], false)
    decreases |rows|
  {
    var n := |rows|;
    if n == 1 {
      RunRowsLast(rows, st);
    } else {
      RunRowsHead(rows, st);
      RunRows(rows[1..], st.(rows := st.rows + [rows[0]]));
      PrefixOfTail(st.rows, rows, n - 2);
      assert rows[1..][n - 2] == rows[n - 1];
    }
  }

  /** Scanning a single escaped row leaves it as the current row and value. */
  lemma RunRowsLast(rows: seq<seq<string>>, st: ScanState)
    requires |rows| == 1 && |rows[0]| >= 1
    requires !st.inQuotes && st.value == "" && st.row == []
    ensures var last := rows[0];
      Run(EncodeRows(rows), st) == ScanState(st.rows, last[..|last| - 1], last[|last| - 1], false)
  {
    RunRow(rows[0], st);
    assert EncodeRows(rows) == EscapeRow(rows[0]);
    assert [] + rows[0][..|rows[0]| - 1] == rows[0][..|rows[0]| - 1];
  }

  /** Scanning the first of several escaped rows and the line feed after it finishes that row. */
  lemma RunRowsHead(rows: seq<seq<string>>, st: ScanState)
    requires |rows| >= 2 && |rows[0]| >= 1
    requires !st.inQuotes && st.value == "" && st.row == []
    ensures Run(EncodeRows(rows), st) == Run(EncodeRows(rows[1..]), st.(rows := st.rows + [rows[0]]))
  {
    var tail := EncodeRows(rows[1..]);
    assert EncodeRows(rows) == EscapeRow(rows[0]) + ("\n" + tail);
    RunAppend(EscapeRow(rows[0]), "\n" + tail, st);
    RunRowThenNewline(rows[0], tail, st);
  }

  lemma RunRowThenNewline(fields: seq<string>, tail: string, st: ScanState)
    requires |fields| >= 1 && !st.inQuotes && st.value == "" && st.row == []
    ensures Run("\n" + tail, Run(EscapeRow(fields), st)) == Run(tail, st.(rows := st.rows + [fields]))
  {
    var n := |fields|;
    var st1 := st.(row := fields[..n - 1], value := fields[n - 1]);
    assert Run(EscapeRow(fields), st) == st1 by {
      RunRow(fields, st);
    }
    var st2 := st.(rows := st.rows + [fields]);
    assert st1.(rows := st1.rows + [st1.row + [st1.value]], row := [], value := "") == st2 by {
      assert fields[..n - 1] + [fields[n - 1]] == fields;
    }
    RunNewlineStep(tail, st1);
  }

  lemma {:induction false} EscapeRowNoCr(fields: seq<string>)
    requires forall j :: 0 <= j < |fields| ==> '\r' !in fields[j]
    ensures '\r' !in EscapeRow(fields)
  {
    if |fields| > 1 {
      EscapeRowNoCr(fields[1..]);
    }
  }

  lemma {:induction false} EncodeRowsNoCr(rows: seq<seq<string>>)
    requires forall i, j :: 0 <= i < |rows| && 0 <= j < |rows[i]| ==> '\r' !in rows[i][j]
    ensures '\r' !in EncodeRows(rows)
  {
    if |rows| >= 1 {
      EscapeRowNoCr(rows[0]);
    }
    if |rows| > 1 {
      EncodeRowsNoCr(rows[1..]);
    }
  }

  /** The round-trip law of the export format: rows of fields without CR, each with at least one
      field and with a non-empty last line, read back from their escaped text exactly. */
  lemma {:induction false} ParseEncodeRows(rows: seq<seq<string>>)
    requires forall i :: 0 <= i < |rows| ==> |rows[i]| >= 1
    requires forall i, j :: 0 <= i < |rows| && 0 <= j < |rows[i]| ==> '\r' !in rows[i][j]
    requires |rows| >= 1 ==> EscapeRow(rows[|rows| - 1]) != ""
    ensures Parse(EncodeRows(rows)) == rows
  {
    if |rows| >= 1 {
      var text := EncodeRows(rows);
      var last := rows[|rows| - 1];
      var st := ScanState(rows[..|rows| - 1], last[..|last| - 1], last[|last| - 1], false);
      assert NormalizeNewlines(text) == text by { EncodeRowsNoCr(rows); }
      assert Run(text, Start) == st by { RunRows(rows, Start); }
      assert Finish(st) == rows by { LastFieldLeft(last); FinishRows(rows); }
      assert Parse(text) == Finish(Run(text, Start));
    }
  }

  /** The scan stopped inside the last row holds something to finish: a finished field or a
      non-empty last value. */
  lemma LastFieldLeft(last: seq<string>)
    requires |last| >= 1 && EscapeRow(last) != ""
    ensures |last[|last| - 1]| > 0 || |last[..|last| - 1]| > 0
  {
    if |last| == 1 {
      assert EscapeRow(last) == CsvEscape(last[0]);
    }
  }

  /** Finishing the scan state left after the last row gives back all the rows. */
  lemma FinishRows(rows: seq<seq<string>>)
    requires |rows| >= 1 && |rows[|rows| - 1]| >= 1
    requires var last := rows[|rows| - 1]; |last[|last| - 1]| > 0 || |last[..|last| - 1]| > 0
    ensures var last := rows[|rows| - 1];
      Finish(ScanState(rows[..|rows| - 1], last[..|last| - 1], last[|last| - 1], false)) == rows
  {
    var last := rows[|rows| - 1];
    assert last[..|last| - 1] + [last[|last| - 1]] == last;
    assert rows[..|rows| - 1] + [last] == rows;
  }

  /** The single-line case: `parseCsv(fields.map(csvEscape).join(','))` is `[fields]`. */
  lemma ParseEscapeRow(fields: seq<string>)
    requires |fields| >= 1
    requires forall j :: 0 <= j < |fields| ==> '\r' !in fields[j]
    requires EscapeRow(fields) != ""
    ensures Parse(EscapeRow(fields)) == [fields]
  {
    ParseEncodeRows([fields]);
  }
}

=== FILE: render_analysis.dfy ===
/** The range statistics of the analysis page (static/js/render/analysis.js), over the rows
    `getRange` returns. The figures are the numbers before `toFixed`; a sequence with no
    closing price gives the `NaN` and infinite values JavaScript computes for it. */
module RenderAnalysis {
  import opened Wrappers
  import opened Seqs
  import opened Sorting
  import opened JsNumber
  import opened StockApi

  /** What `calculateRangeStats` returns. */
  datatype RangeStats = RangeStats(count: nat, avgPrice: Num, maxPrice: Num, minPrice: Num, totalVolume: int, priceChange: Num)

  /** `rows.map(r => r.Volume).filter(v => v !== null)`: one volume for each row that has one. */
  function Volumes(rows: seq<StockRow>): seq<int> {
    if rows == [] then [] else VolumeOf(rows[0]) + Volumes(rows[1..])
  }

  /** There are as many volumes as rows that have one. */
  lemma {:induction false} VolumesCount(rows: seq<StockRow>)
    ensures |Volumes(rows)| == Count(rows, HasVolume)
  {
    if rows != [] {
      VolumesCount(rows[1..]);
    }
  }

  /** The volumes are exactly those the rows carry. */
  lemma {:induction false} VolumesPresent(rows: seq<StockRow>)
    ensures forall v :: v in Volumes(rows) <==> exists i :: 0 <= i < |rows| && rows[i].volume == Some(v)
  {
    if rows != [] {
      VolumesPresent(rows[1..]);
      VolumeInTail(rows);
    }
  }

  /** A volume of some row after the first is a volume of some row of the tail, and back. */
  lemma VolumeInTail(rows: seq<StockRow>)
    requires rows != []
    ensures forall v :: (exists i :: 0 <= i < |rows[1..]| && rows[1..][i].volume == Some(v))
                    <==> (exists i :: 1 <= i < |rows| && rows[i].volume == Some(v))
  {
    forall v | exists i :: 1 <= i < |rows| && rows[i].volume == Some(v)
      ensures exists i :: 0 <= i < |rows[1..]| && rows[1..][i].volume == Some(v)
    {
      var i :| 1 <= i < |rows| && rows[i].volume == Some(v);
      assert rows[1..][i - 1] == rows[i];
    }
  }

  /** The volume of one row, when it has one. */
  function VolumeOf(row: StockRow): seq<int> {
    if row.volume.Some? then [row.volume.value] else []
  }

  predicate HasVolume(row: StockRow) {
    row.volume.Some?
  }

  /** The volumes of two runs of rows are those of the first run, then those of the second. */
  lemma {:induction false} VolumesAppend(a: seq<StockRow>, b: seq<StockRow>)
    ensures Volumes(a + b) == Volumes(a) + Volumes(b)
  {
    if a == [] {
      assert a + b == b;
    } else {
      var x, rest := a[0], a[1..];
      assert a == [x] + rest;
      assert a + b == [x] + (rest + b);
      VolumesCons(x, rest + b);
      VolumesCons(x, rest);
      VolumesAppend(rest, b);
    }
  }

  lemma VolumesCons(x: StockRow, s: seq<StockRow>)
    ensures Volumes([x] + s) == VolumeOf(x) + Volumes(s)
  {
    assert ([x] + s)[1..] == s;
  }

  /** So the total volume of two runs of rows is the sum of their totals. */
  lemma TotalVolumeAppend(a: seq<StockRow>, b: seq<StockRow>)
    ensures SumInt(Volumes(a + b)) == SumInt(Volumes(a)) + SumInt(Volumes(b))
  {
    VolumesAppend(a, b);
    SumIntAppend(Volumes(a), Volumes(b));
  }

  lemma {:induction false} SumIntAppend(a: seq<int>, b: seq<int>)
    ensures SumInt(a + b) == SumInt(a) + SumInt(b)
  {
    if a == [] {
      assert a + b == b;
    } else {
      assert (a + b)[1..] == a[1..] + b;
      SumIntAppend(a[1..], b);
    }
  }

  /** `(prices[prices.length - 1] - prices[0]) / prices[0] * 100`, `NaN` without prices. */
  function PriceChange(prices: seq<real>): (c: Num)
    ensures |prices| == 0 ==> c == NaN
    ensures |prices| > 0 && prices[0] != 0.0 ==> c == Finite((prices[|prices| - 1] - prices[0]) / prices[0] * 100.0)
    ensures |prices| > 0 && prices[0] == 0.0 ==> (c == PosInf <==> prices[|prices| - 1] > 0.0)
    ensures |prices| > 0 && prices[0] == 0.0 ==> (c == NegInf <==> prices[|prices| - 1] < 0.0)
    ensures |prices| > 0 && prices[0] == 0.0 ==> (c == NaN <==> prices[|prices| - 1] == 0.0)
  {
    if |prices| == 0 then NaN
    else Scale(Div(prices[|prices| - 1] - prices[0], prices[0]), 100.0)
  }

  /** `calculateRangeStats(rows)`: `null` for missing or empty rows. Otherwise the number of
      rows; the mean, largest and smallest of the closing prices (not the highs and lows), the
      mean between the other two, each bounding every close and the extremes attained by some
      row; the sum of the volumes; and the change from the first price to the last. Without any
      closing price, the mean and the change are `NaN`, the largest `-Infinity` and the
      smallest `Infinity`. */
  function CalculateRangeStats(rows: Option<seq<StockRow>>): (r: Option<RangeStats>)
    ensures r.None? <==> rows.None? || |rows.value| == 0
    ensures r.Some? ==> r.value.count == |rows.value| && r.value.totalVolume == SumInt(Volumes(rows.value))
    ensures r.Some? ==> r.value.priceChange == PriceChange(Closes(rows.value))
    ensures r.Some? && |Closes(rows.value)| == 0 ==>
      r.value.avgPrice == NaN && r.value.maxPrice == NegInf && r.value.minPrice == PosInf
    ensures r.Some? && |Closes(rows.value)| > 0 ==>
      && r.value.avgPrice == Finite(Mean(Closes(rows.value)))
      && r.value.maxPrice.Finite? && r.value.minPrice.Finite?
      && r.value.minPrice.v <= r.value.avgPrice.v <= r.value.maxPrice.v
      && (forall i :: 0 <= i < |rows.value| && rows.value[i].close.Some? ==>
            r.value.minPrice.v <= rows.value[i].close.value <= r.value.maxPrice.v)
      && (exists i :: 0 <= i < |rows.value| && rows.value[i].close == Some(r.value.maxPrice.v))
      && (exists i :: 0 <= i < |rows.value| && rows.value[i].close == Some(r.value.minPrice.v))
  {
    if rows.None? || |rows.value| == 0 then None
    else
      var prices := Closes(rows.value);
      var volumes := Volumes(rows.value);
      if |prices| == 0 then
        Some(RangeStats(|rows.value|, NaN, NegInf, PosInf, SumInt(volumes), PriceChange(prices)))
      else
        CloseExtremes(rows.value);
        MeanBetweenMinAndMax(prices);
        Some(RangeStats(|rows.value|, Finite(Mean(prices)), Finite(Max(prices)), Finite(Min(prices)),
          SumInt(volumes), PriceChange(prices)))
  }

  /** The largest and smallest closing prices bound every close and are closes of some row. */
  lemma CloseExtremes(rows: seq<StockRow>)
    requires |Closes(rows)| > 0
    ensures var m, n := Max(Closes(rows)), Min(Closes(rows));
      && (forall i :: 0 <= i < |rows| && rows[i].close.Some? ==> n <= rows[i].close.value <= m)
      && (exists i :: 0 <= i < |rows| && rows[i].close == Some(m))
      && (exists i :: 0 <= i < |rows| && rows[i].close == Some(n))
  {
    var prices := Closes(rows);
    var column := CloseColumn(rows);
    forall i | 0 <= i < |rows| && rows[i].close.Some?
      ensures Min(prices) <= rows[i].close.value <= Max(prices)
    {
      assert Some(rows[i].close.value) == column[i];
      var x := rows[i].close.value;
      assert x in prices;
      var j :| 0 <= j < |prices| && prices[j] == x;
    }
    assert Some(Max(prices)) in column;
    assert Some(Min(prices)) in column;
  }

  /** The base of the change is the first row that has a closing price: every row before it
      has none. */
  lemma {:induction false} FirstClose(rows: seq<StockRow>)
    requires |Closes(rows)| > 0
    ensures exists j :: (0 <= j < |rows| && rows[j].close == Some(Closes(rows)[0])
                         && forall i :: 0 <= i < j ==> rows[i].close.None?)
  {
    var column := CloseColumn(rows);
    assert column == [column[0]] + column[1..];
    assert column[1..] == CloseColumn(rows[1..]);
    if rows[0].close.None? {
      assert Closes(rows) == Closes(rows[1..]);
      FirstClose(rows[1..]);
      var j :| 0 <= j < |rows[1..]| && rows[1..][j].close == Some(Closes(rows[1..])[0])
        && forall i :: 0 <= i < j ==> rows[1..][i].close.None?;
      assert rows[j + 1].close == Some(Closes(rows)[0]);
      forall i | 0 <= i < j + 1 ensures rows[i].close.None? {
        if i > 0 { assert rows[i] == rows[1..][i - 1]; }
      }
    } else {
      assert Closes(rows)[0] == rows[0].close.value;
    }
  }

  /** On the rows `getRange` returns, newest first, the change is measured from the newest
      price: the base belongs to a row at least as recent as every row with a price. */
  lemma ChangeBaseIsNewest(rows: seq<StockRow>)
    requires SortedDesc(rows, DateNum) && |Closes(rows)| > 0
    ensures exists j :: (0 <= j < |rows| && rows[j].close == Some(Closes(rows)[0])
                         && forall i :: 0 <= i < |rows| && rows[i].close.Some? ==> DateNum(rows[i]) <= DateNum(rows[j]))
  {
    FirstClose(rows);
    var j :| 0 <= j < |rows| && rows[j].close == Some(Closes(rows)[0])
      && forall i :: 0 <= i < j ==> rows[i].close.None?;
    forall i | 0 <= i < |rows| && rows[i].close.Some? ensures DateNum(rows[i]) <= DateNum(rows[j]) {
      assert j <= i;
    }
  }

  /** From a positive base price the change is positive exactly when the last price is higher,
      negative exactly when it is lower, and zero when they are equal. */
  lemma PriceChangeSign(prices: seq<real>)
    requires |prices| > 0 && prices[0] > 0.0
    ensures var c, first, last := PriceChange(prices), prices[0], prices[|prices| - 1];
      && c.Finite?
      && (c.v > 0.0 <==> last > first)
      && (c.v < 0.0 <==> last < first)
      && (c.v == 0.0 <==> last == first)
  {
    var first, last := prices[0], prices[|prices| - 1];
    var q := (last - first) / first;
    assert q * first == last - first;
    if last > first {
      assert q > 0.0;
    } else if last < first {
      assert q < 0.0;
    }
  }
}

=== FILE: render_compare.dfy ===
/** The comparison cards (static/js/render/compare.js): each stock's performance class and label
    from its latest price against its window average, and the best and worst performers. A
    `null` price takes part in the arithmetic as `0`, as JavaScript's `Number(null)` does. The
    label's percentage is the number `toFixed(2)` prints, modelled as decimal rounding of an
    exact real; the labels are named here in English. */
module RenderCompare {
  import opened Wrappers
  import opened Seqs
  import opened Sorting
  import opened JsNumber
  import opened StockApi

  /** `getPerformanceClass`: `'high'`, `'low'`, or `''`. */
  datatype Performance = High | Low | Middle

  /** `stock.latest_price / stock.avg_price`. */
  function Ratio(stock: Stats): Num {
    Div(NullAsZero(stock.latestPrice), NullAsZero(stock.avgPrice))
  }

  /** `getPerformanceClass(stock)`: high above 1.05 times the average, low below 0.95 times,
      otherwise neither. */
  function PerformanceClass(stock: Stats): (p: Performance)
    ensures p == High <==> Greater(Ratio(stock), 1.05)
    ensures p == Low <==> Less(Ratio(stock), 0.95)
  {
    var ratio := Ratio(stock);
    if Greater(ratio, 1.05) then High
    else if Less(ratio, 0.95) then Low
    else Middle
  }

  /** Against a positive average, the class compares the latest price with 5 percent above and
      below the average. */
  lemma PerformanceAgainstAverage(stock: Stats)
    requires NullAsZero(stock.avgPrice) > 0.0
    ensures var p, l, a := PerformanceClass(stock), NullAsZero(stock.latestPrice), NullAsZero(stock.avgPrice);
      && (p == High <==> l > 1.05 * a)
      && (p == Low <==> l < 0.95 * a)
      && (p == Middle <==> 0.95 * a <= l <= 1.05 * a)
  {
    var l, a := NullAsZero(stock.latestPrice), NullAsZero(stock.avgPrice);
    assert Ratio(stock) == Finite(l / a);
    QuotientCompare(l, a, 1.05);
    QuotientCompare(l, a, 0.95);
  }

  /** `Number(x.toFixed(2))` for a finite `x`: the nearest multiple of 0.01, a tie rounded away
      from zero. It is positive exactly from 0.005 up and negative exactly from -0.005 down,
      and never more than 0.005 away from `x`. */
  function Round2(x: real): (r: real)
    ensures IsCents(r)
    ensures x >= 0.0 ==> r - 0.005 <= x < r + 0.005
    ensures x < 0.0 ==> r - 0.005 < x <= r + 0.005
    ensures r > 0.0 <==> x >= 0.005
    ensures r < 0.0 <==> x <= -0.005
  {
    if x >= 0.0 then RoundUp(x)
    else
      var u := RoundUp(-x);
      assert (-u * 100.0).Floor == -((u * 100.0).Floor);
      -u
  }

  /** A whole number of hundredths. */
  predicate IsCents(r: real) {
    (r * 100.0).Floor as real == r * 100.0
  }

  /** Half-up rounding to two decimals of a non-negative number. */
  function RoundUp(x: real): (r: real)
    requires x >= 0.0
    ensures IsCents(r)
    ensures r - 0.005 <= x < r + 0.005
    ensures r > 0.0 <==> x >= 0.005
    ensures r >= 0.0
  {
    var n := (x * 100.0 + 0.5).Floor;
    assert n as real <= x * 100.0 + 0.5 < n as real + 1.0;
    assert n as real / 100.0 * 100.0 == n as real;
    n as real / 100.0
  }

  /** `Number(n.toFixed(2))`: infinities and `NaN` print as themselves and read back so. */
  function RoundNum(n: Num): (r: Num)
    ensures n.Finite? <==> r.Finite?
    ensures n.Finite? ==> r.v == Round2(n.v)
    ensures !n.Finite? ==> r == n
  {
    if n.Finite? then Finite(Round2(n.v)) else n
  }

  /** The three labels of `getPerformanceLabel`: above the average by a percentage, below it by
      a percentage, or equal to it. */
  datatype Label = AboveAverage(percent: Num) | BelowAverage(percent: Num) | AtAverage

  /** `(stock.latest_price - stock.avg_price) / stock.avg_price * 100`. */
  function PercentFromAverage(stock: Stats): Num {
    var l, a := NullAsZero(stock.latestPrice), NullAsZero(stock.avgPrice);
    Scale(Div(l - a, a), 100.0)
  }

  /** `getPerformanceLabel(stock)`: the sign of the rounded percentage picks the label; a
      label below the average carries the absolute value. */
  function PerformanceLabel(stock: Stats): (t: Label)
    ensures var r := RoundNum(PercentFromAverage(stock));
      && (t.AboveAverage? <==> Greater(r, 0.0))
      && (t.BelowAverage? <==> Less(r, 0.0))
      && (t.AboveAverage? ==> t.percent == r)
      && (t.BelowAverage? ==> t.percent == Abs(r))
  {
    var r := RoundNum(PercentFromAverage(stock));
    if Greater(r, 0.0) then AboveAverage(r)
    else if Less(r, 0.0) then BelowAverage(Abs(r))
    else AtAverage
  }

  /** For a non-zero average the label is decided by the exact percentage: above from 0.005
      percent up, below from -0.005 percent down, equal in between (where the rounded value is
      zero); the percentage shown is within 0.005 of the exact one. */
  lemma LabelByPercent(stock: Stats)
    requires NullAsZero(stock.avgPrice) != 0.0
    ensures var t, p := PerformanceLabel(stock), PercentFromAverage(stock);
      && p.Finite?
      && (t.AboveAverage? <==> p.v >= 0.005)
      && (t.BelowAverage? <==> p.v <= -0.005)
      && (t.AtAverage? <==> -0.005 < p.v < 0.005)
      && (t.AboveAverage? ==> t.percent.Finite? && -0.005 <= t.percent.v - p.v <= 0.005)
      && (t.BelowAverage? ==> t.percent.Finite? && -0.005 <= t.percent.v + p.v <= 0.005)
  {
  }

  /** The class and the label never contradict each other: a high performer is labelled above
      its average and a low performer below it, for every pair of prices. */
  lemma ClassAgreesWithLabel(stock: Stats)
    ensures PerformanceClass(stock) == High ==> PerformanceLabel(stock).AboveAverage?
    ensures PerformanceClass(stock) == Low ==> PerformanceLabel(stock).BelowAverage?
  {
    var l, a := NullAsZero(stock.latestPrice), NullAsZero(stock.avgPrice);
    if a != 0.0 {
      var q := l / a;
      assert q * a == l;
      assert (q - 1.0) * a == l - a;
      Cancel(q - 1.0, a);
      assert PercentFromAverage(stock) == Finite((q - 1.0) * 100.0);
    }
  }

  /** The key the cards are ranked by: `latest_price / avg_price`, with a zero or missing
      average (where the comparator sees a non-finite value) ranked as 0. */
  function PerformanceKey(stock: Stats): real {
    var a := NullAsZero(stock.avgPrice);
    if a == 0.0 then 0.0 else NullAsZero(stock.latestPrice) / a
  }

  /** The header line of `renderCompare`: the no-data message, or the best and worst
      performers. */
  datatype Standing = NoData | Standing(best: Stats, worst: Stats)

  /** `renderCompare(data)`: no data when the stocks are missing or empty; otherwise the first
      and the last of a copy sorted by ratio, descending: both are among the stocks, the best
      ranks at least as high as every stock and the worst no higher than any. */
  function RankPerformance(stocks: Option<seq<Stats>>): (r: Standing)
    ensures r.NoData? <==> stocks.None? || |stocks.value| == 0
    ensures r.Standing? ==> r.best in stocks.value && r.worst in stocks.value
    ensures r.Standing? ==> forall x :: x in stocks.value ==>
      PerformanceKey(r.worst) <= PerformanceKey(x) <= PerformanceKey(r.best)
    ensures r.Standing? ==> var best := Filter(stocks.value, KeyIs(PerformanceKey, PerformanceKey(r.best)));
      |best| > 0 && r.best == best[0]
    ensures r.Standing? ==> var worst := Filter(stocks.value, KeyIs(PerformanceKey, PerformanceKey(r.worst)));
      |worst| > 0 && r.worst == worst[|worst| - 1]
  {
    if stocks.None? || |stocks.value| == 0 then NoData
    else
      var sorted := SortDesc(stocks.value, PerformanceKey);
      SortDescFirstIsMax(stocks.value, PerformanceKey);
      SortDescLastIsMin(stocks.value, PerformanceKey);
      SortDescFirstTie(stocks.value, PerformanceKey);
      SortDescLastTie(stocks.value, PerformanceKey);
      assert sorted[0] in multiset(stocks.value) by { assert sorted[0] in multiset(sorted); }
      assert sorted[|sorted| - 1] in multiset(stocks.value) by { assert sorted[|sorted| - 1] in multiset(sorted); }
      Standing(sorted[0], sorted[|sorted| - 1])
  }
}

=== FILE: render_daily.dfy ===
/** The computations of the daily market page (static/js/render/daily.js): market breadth over
    the day's rows and the gainers and losers lists. Its date and volume formatting is
    `RenderStock`'s. */
module RenderDaily {
  import opened Wrappers
  import opened Seqs
  import opened Sorting
  import opened StockApi
  import opened JsNumber

  /** What `calculateMarketStats` returns, with the two ratios before `toFixed(1)`. */
  datatype MarketStats = MarketStats(total: nat, up: nat, down: nat, flat: nat, upRatio: real, downRatio: real)

  /** `rows.map(r => r.ChangePercent).filter(c => c !== null && c !== undefined)`. */
  function Changes(rows: seq<DailyRow>): (cs: seq<real>)
    ensures |cs| == Count(rows, HasChange)
  {
    if rows == [] then []
    else (if HasChange(rows[0]) then [Change(rows[0])] else []) + Changes(rows[1..])
  }

  predicate Positive(c: real) { c > 0.0 }
  predicate Negative(c: real) { c < 0.0 }
  predicate Zero(c: real) { c == 0.0 }

  /** A row that rose, fell, or stayed level: it has a change, of that sign. */
  predicate Rose(row: DailyRow) { HasChange(row) && Change(row) > 0.0 }
  predicate Fell(row: DailyRow) { HasChange(row) && Change(row) < 0.0 }
  predicate Level(row: DailyRow) { HasChange(row) && Change(row) == 0.0 }

  /** `calculateMarketStats(rows)`: `null` for missing or empty rows; otherwise the number of
      rows, the numbers that rose, fell and stayed level (rows without a change are in none of
      them), and the rising and falling shares of all rows in percent. */
  function CalculateMarketStats(rows: Option<seq<DailyRow>>): (r: Option<MarketStats>)
    ensures r.None? <==> rows.None? || |rows.value| == 0
    ensures r.Some? ==> r.value.total == |rows.value|
    ensures r.Some? ==> r.value.up == Count(rows.value, Rose)
    ensures r.Some? ==> r.value.down == Count(rows.value, Fell)
    ensures r.Some? ==> r.value.flat == Count(rows.value, Level)
    ensures r.Some? ==> r.value.up + r.value.down + r.value.flat == Count(rows.value, HasChange) <= r.value.total
    ensures r.Some? ==> 0.0 <= r.value.upRatio && 0.0 <= r.value.downRatio && r.value.upRatio + r.value.downRatio <= 100.0
    ensures r.Some? ==> r.value.upRatio == Percent(r.value.up, r.value.total)
    ensures r.Some? ==> r.value.downRatio == Percent(r.value.down, r.value.total)
  {
    if rows.None? || |rows.value| == 0 then None
    else
      var changes := Changes(rows.value);
      var up := Count(changes, Positive);
      var down := Count(changes, Negative);
      var total := |rows.value|;
      MarketCounts(rows.value);
      RatioBounds(up, down, total);
      Some(MarketStats(total, up, down, Count(changes, Zero), Percent(up, total), Percent(down, total)))
  }

  /** The three counts over the changes are the counts of rising, falling and level rows, and
      together they count the rows with a change. */
  lemma MarketCounts(rows: seq<DailyRow>)
    ensures Count(Changes(rows), Positive) == Count(rows, Rose)
    ensures Count(Changes(rows), Negative) == Count(rows, Fell)
    ensures Count(Changes(rows), Zero) == Count(rows, Level)
    ensures Count(rows, Rose) + Count(rows, Fell) + Count(rows, Level) == Count(rows, HasChange)
  {
    ChangesCount(rows, Positive, Rose);
    ChangesCount(rows, Negative, Fell);
    ChangesCount(rows, Zero, Level);
    SignsPartition(Changes(rows));
  }

  /** Counting the changes of a sign is counting the rows with a change of that sign. */
  lemma {:induction false} ChangesCount(rows: seq<DailyRow>, p: real -> bool, q: DailyRow -> bool)
    requires forall row :: q(row) <==> HasChange(row) && p(Change(row))
    ensures Count(Changes(rows), p) == Count(rows, q)
  {
    if rows != [] {
      ChangesCount(rows[1..], p, q);
      var head := if HasChange(rows[0]) then [Change(rows[0])] else [];
      assert Changes(rows) == head + Changes(rows[1..]);
      CountAppend(head, Changes(rows[1..]), p);
      if HasChange(rows[0]) {
        assert head[1..] == [];
      }
    }
  }

  /** Every change is positive, negative or zero, and only one of them. */
  lemma {:induction false} SignsPartition(cs: seq<real>)
    ensures Count(cs, Positive) + Count(cs, Negative) + Count(cs, Zero) == |cs|
  {
    if cs != [] {
      SignsPartition(cs[1..]);
    }
  }

  /** `part / total * 100`. */
  function Percent(part: nat, total: nat): (p: real)
    requires total > 0
    ensures 0.0 <= p
    ensures part <= total ==> p <= 100.0
    ensures p == 0.0 <==> part == 0
  {
    var t := total as real;
    var q := part as real / t;
    ShareOf(if part <= total then part as real else 0.0, t);
    assert q * t == part as real;
    assert part > 0 ==> q > 0.0 by { SignOfProduct(q, t); }
    q * 100.0
  }

  /** Two shares of disjoint parts add up to at most the whole. */
  lemma RatioBounds(up: nat, down: nat, total: nat)
    requires 0 < total && up + down <= total
    ensures Percent(up, total) + Percent(down, total) <= 100.0
  {
    SharesSum(up as real, down as real, total as real);
  }

  /** `getRankedStocks(rows, topGainers, limit)`: the rows with a change, sorted by change
      (descending for gainers, ascending for losers), cut to `slice(0, limit)`. The rows are a
      subset of the input; every row with a change that is left out ranks no better than any
      row kept. */
  function RankedStocks(rows: seq<DailyRow>, topGainers: bool, limit: int): (r: seq<DailyRow>)
    ensures |r| == SliceEnd(Count(rows, HasChange), limit)
    ensures multiset(r) <= multiset(rows)
    ensures forall i :: 0 <= i < |r| ==> HasChange(r[i])
    ensures topGainers ==> SortedDesc(r, Change)
    ensures !topGainers ==> SortedAsc(r, Change)
    ensures topGainers ==> forall x, i :: multiset(r)[x] < multiset(rows)[x] && HasChange(x) && 0 <= i < |r| ==> Change(x) <= Change(r[i])
    ensures !topGainers ==> forall x, i :: multiset(r)[x] < multiset(rows)[x] && HasChange(x) && 0 <= i < |r| ==> Change(r[i]) <= Change(x)
    ensures forall d :: Filter(r, KeyIs(Change, d)) <= Filter(Filter(rows, HasChange), KeyIs(Change, d))
  {
    var candidates := Filter(rows, HasChange);
    var k := SliceEnd(|candidates|, limit);
    if topGainers then
      TopGainers(rows, limit);
      GainerTies(candidates, k);
      SortDesc(candidates, Change)[..k]
    else
      TopLosers(rows, limit);
      LoserTies(candidates, k);
      SortDesc(candidates, Fall)[..k]
  }

  /** The gainers branch of `getRankedStocks`: the first rows of the descending sort by change. */
  lemma TopGainers(rows: seq<DailyRow>, limit: int)
    ensures var c := Filter(rows, HasChange); var r := SortDesc(c, Change)[..SliceEnd(|c|, limit)];
      && |r| == SliceEnd(Count(rows, HasChange), limit)
      && multiset(r) <= multiset(rows)
      && (forall i :: 0 <= i < |r| ==> HasChange(r[i]))
      && SortedDesc(r, Change)
      && forall x, i :: multiset(r)[x] < multiset(rows)[x] && HasChange(x) && 0 <= i < |r| ==> Change(x) <= Change(r[i])
  {
    var c := Filter(rows, HasChange);
    Ranked(rows, c, Change, SliceEnd(|c|, limit));
  }

  /** The losers branch of `getRankedStocks`: the first rows of the descending sort by fall,
      which is the ascending sort by change. */
  lemma TopLosers(rows: seq<DailyRow>, limit: int)
    ensures var c := Filter(rows, HasChange); var r := SortDesc(c, Fall)[..SliceEnd(|c|, limit)];
      && |r| == SliceEnd(Count(rows, HasChange), limit)
      && multiset(r) <= multiset(rows)
      && (forall i :: 0 <= i < |r| ==> HasChange(r[i]))
      && SortedAsc(r, Change)
      && forall x, i :: multiset(r)[x] < multiset(rows)[x] && HasChange(x) && 0 <= i < |r| ==> Change(r[i]) <= Change(x)
  {
    var c := Filter(rows, HasChange);
    var k := SliceEnd(|c|, limit);
    Ranked(rows, c, Fall, k);
    FallIsRise(rows, SortDesc(c, Fall)[..k]);
  }

  /** The page's two lists of ten, as it calls them, are the data adapter's `getGainers` and
      `getLosers` with their default limit. */
  lemma RankedAsAdapter(rows: seq<DailyRow>)
    ensures RankedStocks(rows, true, 10) == Gainers(rows, None)
    ensures RankedStocks(rows, false, 10) == Losers(rows, None)
  {
    assert SliceLimit(None, RankLimit) == 10;
  }
}

=== FILE: render_stats.dfy ===
/** The trend and volatility figures of the statistics card (static/js/render/stats.js). The
    trend labels are named here in English; the card shows them in Chinese. */
module RenderStats {
  import opened JsNumber

  /** The five outcomes of `analyzeTrend`: strong rise, mild rise, clear drop, mild drop,
      level. */
  datatype Trend = StrongRise | MildRise | ClearDrop | MildDrop | Steady

  /** The CSS class each trend is shown with. */
  function TrendClass(t: Trend): string {
    match t
    case StrongRise => "up"
    case MildRise => "up"
    case ClearDrop => "down"
    case MildDrop => "down"
    case Steady => "flat"
  }

  /** `(latest - avg) / avg * 100`. */
  function TrendPercent(latest: real, avg: real): Num {
    Scale(Div(latest - avg, avg), 100.0)
  }

  /** `analyzeTrend(latest, avg)`: above 2 percent a strong rise, above 0 a mild rise, below
      -2 a clear drop, below 0 a mild drop, anything else (zero, or `NaN` when both are zero)
      level. */
  function AnalyzeTrend(latest: real, avg: real): (t: Trend)
    ensures var p := TrendPercent(latest, avg);
      && (t == StrongRise <==> Greater(p, 2.0))
      && (t == MildRise <==> Greater(p, 0.0) && !Greater(p, 2.0))
      && (t == ClearDrop <==> Less(p, -2.0))
      && (t == MildDrop <==> Less(p, 0.0) && !Less(p, -2.0))
  {
    var p := TrendPercent(latest, avg);
    if Greater(p, 2.0) then StrongRise
    else if Greater(p, 0.0) then MildRise
    else if Less(p, -2.0) then ClearDrop
    else if Less(p, 0.0) then MildDrop
    else Steady
  }

  /** Exactly one class fires, decided by the sign of the percentage alone: `up` when it is
      positive, `down` when negative, `flat` when it is zero or `NaN`. */
  lemma TrendClassBySign(latest: real, avg: real)
    ensures var p, c := TrendPercent(latest, avg), TrendClass(AnalyzeTrend(latest, avg));
      && (c == "up" <==> Greater(p, 0.0))
      && (c == "down" <==> Less(p, 0.0))
      && (c == "flat" <==> !Greater(p, 0.0) && !Less(p, 0.0))
  {
    var p := TrendPercent(latest, avg);
    if p.Finite? {
      assert Greater(p, 2.0) ==> Greater(p, 0.0);
      assert Less(p, -2.0) ==> Less(p, 0.0);
    }
  }

  /** Against a positive average, the trend compares the latest price with the average and
      with 2 percent above and below it. */
  lemma TrendAgainstAverage(latest: real, avg: real)
    requires avg > 0.0
    ensures var t := AnalyzeTrend(latest, avg);
      && (t == StrongRise <==> latest > 1.02 * avg)
      && (t == MildRise <==> avg < latest <= 1.02 * avg)
      && (t == ClearDrop <==> latest < 0.98 * avg)
      && (t == MildDrop <==> 0.98 * avg <= latest < avg)
      && (t == Steady <==> latest == avg)
  {
    var q := (latest - avg) / avg;
    assert TrendPercent(latest, avg) == Finite(q * 100.0);
    QuotientCompare(latest - avg, avg, 0.02);
    QuotientCompare(latest - avg, avg, -0.02);
    QuotientCompare(latest - avg, avg, 0.0);
  }

  /** The volatility figure `(max - min) / avg * 100`. */
  function Volatility(max: real, min: real, avg: real): (v: Num)
    ensures avg != 0.0 ==> v == Finite((max - min) / avg * 100.0)
    ensures avg == 0.0 ==> (v == PosInf <==> max > min) && (v == NegInf <==> max < min) && (v == NaN <==> max == min)
    ensures avg > 0.0 && min <= max ==> v.Finite? && v.v >= 0.0
    ensures avg > 0.0 && min == max ==> v == Finite(0.0)
  {
    var q := Div(max - min, avg);
    assert avg > 0.0 ==> q.Finite? && q.v * avg == max - min;
    Scale(q, 100.0)
  }
}

=== FILE: render_stock.dfy ===
/** The formatting helpers of the stock page (static/js/render/stock.js). The daily and range
    pages carry identical copies of `formatDate`, `formatPrice` and `formatVolume`
    (static/js/render/daily.js, static/js/render/analysis.js), which are modelled here once.
    `Number.prototype.toFixed` is the host function `toFixed(x, digits)`. */
module RenderStock {
  import opened Wrappers
  import opened JsString

  /** `String(date)` for a row's date: the decimal digits of the number, `"null"` when the
      date is missing. */
  function DateString(date: Option<int>): string {
    if date.None? then "null" else IntToString(date.value)
  }

  /** `formatDate` on `String(date)`: an eight-character `YYYYMMDD` becomes `YYYY/MM/DD`; any
      other string is returned as it is. */
  function FormatDate(s: string): (r: string)
    ensures |s| != 8 ==> r == s
    ensures |s| == 8 ==> |r| == 10 && r[4] == '/' && r[7] == '/'
    ensures |s| == 8 ==> r[..4] == s[..4] && r[5..7] == s[4..6] && r[8..] == s[6..]
  {
    if |s| != 8 then s else s[..4] + "/" + s[4..6] + "/" + s[6..]
  }

  /** Formatting an already formatted date changes nothing: the result of the eight-character
      case has ten characters. */
  lemma FormatDateIdempotent(s: string)
    ensures FormatDate(FormatDate(s)) == FormatDate(s)
  {
  }

  /** Dropping the two slashes undoes the formatting of a date without slashes. */
  lemma FormatDateUndo(s: string)
    requires |s| == 8 && '/' !in s
    ensures RemoveAll(FormatDate(s), '/') == s
  {
    var a, b, c := s[..4], s[4..6], s[6..];
    assert FormatDate(s) == (a + ['/'] + b) + ['/'] + c;
    RemoveAllAround(a + ['/'] + b, c, '/');
    RemoveAllAround(a, b, '/');
    assert a + b + c == s;
  }

  /** Every eight-digit date number (the `YYYYMMDD` dates of the data files) is formatted with
      its slashes. */
  lemma EightDigitDatesFormatted(d: int)
    requires 10000000 <= d < 100000000
    ensures |FormatDate(DateString(Some(d)))| == 10
  {
    assert Pow10(1) == 10;
    assert Pow10(2) == 100;
    assert Pow10(3) == 1000;
    assert Pow10(4) == 10000;
    assert Pow10(5) == 100000;
    assert Pow10(6) == 1000000;
    assert Pow10(7) == 10000000;
    assert Pow10(8) == 100000000;
    NatToStringLength(d, 8);
  }

  /** `formatPrice(value)`: `'-'` for a missing price, else `value.toFixed(2)`. */
  function FormatPrice(value: Option<real>, toFixed: (real, nat) -> string): (r: string)
    ensures value.None? ==> r == "-"
    ensures value.Some? ==> r == toFixed(value.value, 2)
  {
    if value.None? then "-" else toFixed(value.value, 2)
  }

  /** `!value` for a volume: `null` and `0` are falsy. */
  predicate Falsy(value: Option<int>) {
    value.None? || value.value == 0
  }

  /** `formatVolume(value)`: `'-'` for a falsy volume; millions with one decimal and `M`;
      thousands with no decimals and `K`; below a thousand the number itself. */
  function FormatVolume(value: Option<int>, toFixed: (real, nat) -> string): (r: string)
    ensures Falsy(value) ==> r == "-"
    ensures !Falsy(value) && value.value >= 1000000 ==> r == toFixed(value.value as real / 1000000.0, 1) + "M"
    ensures !Falsy(value) && 1000 <= value.value < 1000000 ==> r == toFixed(value.value as real / 1000.0, 0) + "K"
    ensures !Falsy(value) && value.value < 1000 ==> r == IntToString(value.value)
  {
    if Falsy(value) then "-"
    else if value.value >= 1000000 then toFixed(value.value as real / 1000000.0, 1) + "M"
    else if value.value >= 1000 then toFixed(value.value as real / 1000.0, 0) + "K"
    else IntToString(value.value)
  }

  /** The last character of a decimal integer is a digit. */
  lemma IntToStringEndsInDigit(n: int)
    ensures IsDigit(IntToString(n)[|IntToString(n)| - 1])
  {
    if n < 0 {
      var t := NatToString(-n);
      assert IntToString(n) == "-" + t;
      assert IntToString(n)[|IntToString(n)| - 1] == t[|t| - 1];
    }
  }

  /** The shape of a formatted volume tells its range: `'-'` exactly for a falsy volume, a
      final `M` exactly from a million up, a final `K` exactly from a thousand to below a
      million, and otherwise the decimal digits of the volume. */
  lemma VolumeSuffix(value: Option<int>, toFixed: (real, nat) -> string)
    ensures var r := FormatVolume(value, toFixed);
      && |r| > 0
      && (r == "-" <==> Falsy(value))
      && (r[|r| - 1] == 'M' <==> !Falsy(value) && value.value >= 1000000)
      && (r[|r| - 1] == 'K' <==> !Falsy(value) && 1000 <= value.value < 1000000)
  {
    var r := FormatVolume(value, toFixed);
    if !Falsy(value) {
      if value.value < 1000 {
        IntToStringEndsInDigit(value.value);
        assert r == IntToString(value.value);
        assert r != "-" by {
          if value.value < 0 {
            assert |NatToString(-value.value)| >= 1;
            assert r == "-" + NatToString(-value.value);
          } else {
            assert IsDigit(r[0]);
          }
        }
      } else {
        assert r[|r| - 1] in "MK";
      }
    }
  }
}

=== FILE: seqs.dfy ===
/** Sequence helpers standing in for JavaScript's `filter`, `reduce`, `Math.max`/`Math.min`
    and `Array.prototype.slice`. */
module Seqs {

  /** `s.filter(p)`: the elements of `s` satisfying `p`, in order. */
  function Filter<T(==)>(s: seq<T>, p: T -> bool): (r: seq<T>)
    ensures |r| <= |s|
    ensures forall i :: 0 <= i < |r| ==> r[i] in s && p(r[i])
    ensures forall i :: 0 <= i < |s| && p(s[i]) ==> s[i] in r
  {
    if s == [] then [] else if p(s[0]) then [s[0]] + Filter(s[1..], p) else Filter(s[1..], p)
  }

  /** `a` can be obtained from `b` by deleting elements: the order of what is kept is preserved. */
  predicate IsSubsequence<T(==)>(a: seq<T>, b: seq<T>)
    decreases |b|
  {
    if a == [] then true
    else if b == [] then false
    else if a[0] == b[0] then IsSubsequence(a[1..], b[1..])
    else IsSubsequence(a, b[1..])
  }

  lemma {:induction false} IsSubsequenceCons<T>(x: T, a: seq<T>, b: seq<T>)
    requires IsSubsequence(a, b)
    ensures IsSubsequence(a, [x] + b)
    decreases |b|, 1
  {
    assert ([x] + b)[1..] == b;
    if a != [] && a[0] == x {
      IsSubsequenceDropHead(a, b);
    }
  }

  lemma {:induction false} IsSubsequenceDropHead<T>(a: seq<T>, b: seq<T>)
    requires IsSubsequence(a, b) && a != []
    ensures IsSubsequence(a[1..], b)
    decreases |b|, 0
  {
    assert b != [];
    assert [b[0]] + b[1..] == b;
    if a[0] == b[0] {
      IsSubsequenceCons(b[0], a[1..], b[1..]);
    } else {
      IsSubsequenceDropHead(a, b[1..]);
      IsSubsequenceCons(b[0], a[1..], b[1..]);
    }
  }

  /** A filter keeps the order of what it keeps. */
  lemma {:induction false} FilterIsSubsequence<T>(s: seq<T>, p: T -> bool)
    ensures IsSubsequence(Filter(s, p), s)
  {
    if s != [] {
      FilterIsSubsequence(s[1..], p);
      if p(s[0]) {
        assert ([s[0]] + Filter(s[1..], p))[1..] == Filter(s[1..], p);
      } else {
        IsSubsequenceCons(s[0], Filter(s[1..], p), s[1..]);
        assert [s[0]] + s[1..] == s;
      }
    }
  }

  lemma {:induction false} FilterMultiset<T>(s: seq<T>, p: T -> bool, x: T)
    ensures multiset(Filter(s, p))[x] == if p(x) then multiset(s)[x] else 0
  {
    if s != [] {
      FilterMultiset(s[1..], p, x);
      assert s == [s[0]] + s[1..];
    }
  }

  /** A first element that passes is the first element kept. */
  lemma FilterHead<T>(s: seq<T>, p: T -> bool)
    requires |s| > 0 && p(s[0])
    ensures |Filter(s, p)| > 0 && Filter(s, p)[0] == s[0]
  {
  }

  /** A last element that passes is the last element kept. */
  lemma FilterLast<T>(s: seq<T>, p: T -> bool)
    requires |s| > 0 && p(s[|s| - 1])
    ensures var r := Filter(s, p); |r| > 0 && r[|r| - 1] == s[|s| - 1]
  {
    var n := |s| - 1;
    assert s == s[..n] + [s[n]];
    FilterAppend(s[..n], [s[n]], p);
    assert Filter([s[n]], p) == [s[n]] by { assert [s[n]][1..] == []; }
  }

  /** A filter that rejects nothing is the identity. */
  lemma {:induction false} FilterAll<T>(s: seq<T>, p: T -> bool)
    requires forall i :: 0 <= i < |s| ==> p(s[i])
    ensures Filter(s, p) == s
  {
    if s != [] {
      FilterAll(s[1..], p);
      assert [s[0]] + s[1..] == s;
    }
  }

  /** A filter that rejects everything is empty. */
  lemma {:induction false} FilterNone<T>(s: seq<T>, p: T -> bool)
    requires forall i :: 0 <= i < |s| ==> !p(s[i])
    ensures Filter(s, p) == []
  {
    if s != [] {
      FilterNone(s[1..], p);
    }
  }

  /** Filtering the first `k` elements gives a prefix of the filtered whole. */
  lemma {:induction false} FilterTake<T>(s: seq<T>, k: nat, p: T -> bool)
    requires k <= |s|
    ensures Filter(s[..k], p) <= Filter(s, p)
  {
    if k > 0 {
      var t := s[1..];
      FilterTake(t, k - 1, p);
      assert s[..k] == [s[0]] + t[..k - 1];
      assert Filter(s[..k], p) == (if p(s[0]) then [s[0]] else []) + Filter(t[..k - 1], p);
      assert Filter(s, p) == (if p(s[0]) then [s[0]] else []) + Filter(t, p);
      PrefixCons(if p(s[0]) then [s[0]] else [], Filter(t[..k - 1], p), Filter(t, p));
    }
  }

  /** One filtered sequence stays a prefix of another under an equivalent filter. */
  lemma FilterPrefixAgree<T>(a: seq<T>, b: seq<T>, p: T -> bool, q: T -> bool)
    requires Filter(a, p) <= Filter(b, p)
    requires forall x :: p(x) == q(x)
    ensures Filter(a, q) <= Filter(b, q)
  {
    FilterAgree(a, p, q);
    FilterAgree(b, p, q);
  }

  /** A common front keeps one sequence a prefix of another. */
  lemma PrefixCons<T>(x: seq<T>, a: seq<T>, b: seq<T>)
    requires a <= b
    ensures x + a <= x + b
  {
    assert (x + b)[..|x + a|] == x + b[..|a|];
  }

  /** Filters that agree on every element of the sequence keep the same elements. */
  lemma {:induction false} FilterAgree<T>(s: seq<T>, p: T -> bool, q: T -> bool)
    requires forall x :: x in s ==> p(x) == q(x)
    ensures Filter(s, p) == Filter(s, q)
  {
    if s != [] {
      assert forall x :: x in s[1..] ==> x in s;
      FilterAgree(s[1..], p, q);
    }
  }

  /** Filtering distributes over concatenation. */
  lemma {:induction false} FilterAppend<T>(a: seq<T>, b: seq<T>, p: T -> bool)
    ensures Filter(a + b, p) == Filter(a, p) + Filter(b, p)
  {
    if a == [] {
      assert a + b == b;
    } else {
      assert (a + b)[0] == a[0];
      assert (a + b)[1..] == a[1..] + b;
      FilterAppend(a[1..], b, p);
    }
  }

  /** Extending a prefix by one element. */
  lemma PrefixWhole<T>(s: seq<T>, i: nat)
    requires i == |s|
    ensures s[..i] == s
  {
  }

  /** Appending the head of `s` and then a prefix of its tail appends a prefix of `s`, one
      longer. */
  lemma PrefixOfTail<T>(p: seq<T>, s: seq<T>, m: nat)
    requires m < |s|
    ensures p + [s[0]] + s[1..][..m] == p + s[..m + 1]
  {
    assert s[..m + 1] == [s[0]] + s[1..][..m];
  }

  lemma PrefixSnoc<T>(s: seq<T>, i: nat)
    requires i < |s|
    ensures s[..i + 1] == s[..i] + [s[i]]
  {
  }

  /** Number of elements of `s` satisfying `p` (`s.filter(p).length`). */
  function Count<T(==)>(s: seq<T>, p: T -> bool): (n: nat)
    ensures n <= |s|
    ensures n == |Filter(s, p)|
  {
    if s == [] then 0 else (if p(s[0]) then 1 else 0) + Count(s[1..], p)
  }

  lemma {:induction false} CountAppend<T>(a: seq<T>, b: seq<T>, p: T -> bool)
    ensures Count(a + b, p) == Count(a, p) + Count(b, p)
  {
    if a == [] {
      assert a + b == b;
    } else {
      assert (a + b)[0] == a[0];
      assert (a + b)[1..] == a[1..] + b;
      CountAppend(a[1..], b, p);
    }
  }

  /** `values.reduce((a, b) => a + b, 0)` over reals. */
  function Sum(s: seq<real>): real {
    if s == [] then 0.0 else s[0] + Sum(s[1..])
  }

  /** The same fold over integers. */
  function SumInt(s: seq<int>): int {
    if s == [] then 0 else s[0] + SumInt(s[1..])
  }

  /** `Math.max(...s)` for a non-empty `s`. */
  function Max(s: seq<real>): (m: real)
    requires |s| > 0
    ensures m in s
    ensures forall i :: 0 <= i < |s| ==> s[i] <= m
  {
    if |s| == 1 then s[0]
    else var t := Max(s[1..]); if s[0] >= t then s[0] else t
  }

  /** `Math.min(...s)` for a non-empty `s`. */
  function Min(s: seq<real>): (m: real)
    requires |s| > 0
    ensures m in s
    ensures forall i :: 0 <= i < |s| ==> m <= s[i]
  {
    if |s| == 1 then s[0]
    else var t := Min(s[1..]); if s[0] <= t then s[0] else t
  }

  /** A sum of values bounded by `lo` and `hi` is bounded by `|s|` times each. */
  lemma {:induction false} SumBounds(s: seq<real>, lo: real, hi: real)
    requires forall i :: 0 <= i < |s| ==> lo <= s[i] <= hi
    ensures |s| as real * lo <= Sum(s) <= |s| as real * hi
  {
    if s != [] {
      SumBounds(s[1..], lo, hi);
      var m := |s[1..]| as real;
      assert |s| as real == m + 1.0;
      assert (m + 1.0) * lo == m * lo + lo;
      assert (m + 1.0) * hi == m * hi + hi;
    }
  }

  lemma DivBounds(total: real, n: real, lo: real, hi: real)
    requires n > 0.0 && n * lo <= total <= n * hi
    ensures lo <= total / n <= hi
  {
    var q := total / n;
    assert q * n == total;
    assert n * (q - lo) >= 0.0;
    assert n * (hi - q) >= 0.0;
  }

  /** The arithmetic mean of a non-empty sequence. */
  function Mean(s: seq<real>): real
    requires |s| > 0
  {
    Sum(s) / |s| as real
  }

  /** The arithmetic mean of a non-empty sequence lies between its minimum and its maximum. */
  lemma {:induction false} MeanBetweenMinAndMax(s: seq<real>)
    requires |s| > 0
    ensures Min(s) <= Mean(s) <= Max(s)
  {
    MeanBounds(s, Min(s), Max(s));
  }

  lemma {:induction false} MeanBounds(s: seq<real>, lo: real, hi: real)
    requires |s| > 0
    requires forall i :: 0 <= i < |s| ==> lo <= s[i] <= hi
    ensures lo <= Mean(s) <= hi
  {
    SumBounds(s, lo, hi);
    DivBounds(Sum(s), |s| as real, lo, hi);
  }

  /** JavaScript's `ToIntegerOrInfinity` on a finite number: truncation toward zero. */
  function Trunc(x: real): (r: int)
    ensures x >= 0.0 ==> r as real <= x < r as real + 1.0
    ensures x < 0.0 ==> r as real - 1.0 < x <= r as real
  {
    if x >= 0.0 then x.Floor else -((-x).Floor)
  }

  /** The end index `arr.slice(0, end)` uses: a negative end counts back from the length,
      and the result is clamped to `0..len`. */
  function SliceEnd(len: nat, end: int): (k: nat)
    ensures k <= len
    ensures 0 <= end <= len ==> k == end
    ensures end > len ==> k == len
    ensures end < 0 ==> k == if len + end < 0 then 0 else len + end
  {
    if end < 0 then (if len + end < 0 then 0 else len + end)
    else if end > len then len else end
  }

  /** `arr.slice(0, end)`. */
  function Take<T>(s: seq<T>, end: int): (r: seq<T>)
    ensures |r| == SliceEnd(|s|, end)
    ensures r == s[..|r|]
  {
    s[..SliceEnd(|s|, end)]
  }
}

=== FILE: sorting.dfy ===
/** The stable sorts the source performs with `Array.prototype.sort` and a numeric comparator
    (`(a, b) => key(b) - key(a)` sorts by descending key; the ascending comparator
    `(a, b) => key(a) - key(b)` is the descending sort on the negated key). The sort is modelled
    as a stable insertion sort on values, which never touches the sequence it is given. */
module Sorting {
  import opened Seqs

  /** Non-increasing by `key`. */
  ghost predicate SortedDesc<T>(s: seq<T>, key: T -> real) {
    forall i, j :: 0 <= i < j < |s| ==> key(s[i]) >= key(s[j])
  }

  /** Non-decreasing by `key`. */
  ghost predicate SortedAsc<T>(s: seq<T>, key: T -> real) {
    forall i, j :: 0 <= i < j < |s| ==> key(s[i]) <= key(s[j])
  }

  /** Places `x` before the first element whose key is not larger than its own, so that `x`
      stays ahead of the equal-keyed elements that followed it in the input. */
  function Insert<T>(x: T, s: seq<T>, key: T -> real): (r: seq<T>)
    ensures |r| == |s| + 1
    ensures multiset(r) == multiset(s) + multiset{x}
  {
    if s == [] || key(s[0]) <= key(x) then [x] + s
    else
      assert s == [s[0]] + s[1..];
      [s[0]] + Insert(x, s[1..], key)
  }

  lemma {:induction false} InsertSorted<T>(x: T, s: seq<T>, key: T -> real)
    requires SortedDesc(s, key)
    ensures SortedDesc(Insert(x, s, key), key)
  {
    if s != [] && key(s[0]) > key(x) {
      InsertSorted(x, s[1..], key);
      var r := Insert(x, s, key);
      var t := Insert(x, s[1..], key);
      assert r == [s[0]] + t;
      forall k | 0 <= k < |t| ensures key(s[0]) >= key(t[k]) {
        assert t[k] in multiset(t);
        assert t[k] == x || t[k] in multiset(s[1..]);
        if t[k] != x {
          var m :| 0 <= m < |s[1..]| && s[1..][m] == t[k];
          assert s[m + 1] == t[k];
        }
      }
    }
  }

  /** `[...s].sort((a, b) => key(b) - key(a))`. */
  function SortDesc<T>(s: seq<T>, key: T -> real): (r: seq<T>)
    ensures |r| == |s|
    ensures multiset(r) == multiset(s)
  {
    if s == [] then []
    else
      assert s == [s[0]] + s[1..];
      Insert(s[0], SortDesc(s[1..], key), key)
  }

  /** The elements whose key is `c`: the ties a sort by `key` may not reorder. */
  function KeyIs<T>(key: T -> real, c: real): T -> bool {
    x => key(x) == c
  }

  /** Inserting `x` puts it ahead of every element with the same key and keeps their order. */
  lemma {:induction false} InsertKeepsTies<T>(x: T, s: seq<T>, key: T -> real, c: real)
    ensures Filter(Insert(x, s, key), KeyIs(key, c)) == (if key(x) == c then [x] else []) + Filter(s, KeyIs(key, c))
  {
    var p := KeyIs(key, c);
    if s == [] || key(s[0]) <= key(x) {
      assert ([x] + s)[1..] == s;
    } else {
      InsertKeepsTies(x, s[1..], key, c);
      var t := Insert(x, s[1..], key);
      assert ([s[0]] + t)[1..] == t;
      assert s == [s[0]] + s[1..];
    }
  }

  /** The sort is stable: the elements sharing any one key come out in their input order. */
  lemma {:induction false} SortDescStable<T>(s: seq<T>, key: T -> real, c: real)
    ensures Filter(SortDesc(s, key), KeyIs(key, c)) == Filter(s, KeyIs(key, c))
  {
    if s != [] {
      var p := KeyIs(key, c);
      var t := SortDesc(s[1..], key);
      assert SortDesc(s, key) == Insert(s[0], t, key);
      SortDescStable(s[1..], key, c);
      InsertKeepsTies(s[0], t, key, c);
      assert Filter(s, p) == (if key(s[0]) == c then [s[0]] else []) + Filter(s[1..], p);
    }
  }

  /** The first `k` elements of a descending sort hold, for each key, the first elements of the
      input with that key, in input order: a slice after the sort keeps the earliest ties. */
  lemma SortDescPrefixTies<T>(s: seq<T>, key: T -> real, k: nat, c: real)
    requires k <= |s|
    ensures Filter(SortDesc(s, key)[..k], KeyIs(key, c)) <= Filter(s, KeyIs(key, c))
  {
    FilterTake(SortDesc(s, key), k, KeyIs(key, c));
    SortDescStable(s, key, c);
  }

  /** The first element of a descending sort is the first element of the input, in input order,
      among those with the largest key. */
  lemma SortDescFirstTie<T>(s: seq<T>, key: T -> real)
    requires |s| > 0
    ensures var r := SortDesc(s, key);
      var ties := Filter(s, KeyIs(key, key(r[0])));
      |ties| > 0 && ties[0] == r[0]
  {
    var r := SortDesc(s, key);
    SortDescStable(s, key, key(r[0]));
    FilterHead(r, KeyIs(key, key(r[0])));
  }

  /** The last element of a descending sort is the last element of the input, in input order,
      among those with the smallest key. */
  lemma SortDescLastTie<T>(s: seq<T>, key: T -> real)
    requires |s| > 0
    ensures var r := SortDesc(s, key);
      var ties := Filter(s, KeyIs(key, key(r[|r| - 1])));
      |ties| > 0 && ties[|ties| - 1] == r[|r| - 1]
  {
    var r := SortDesc(s, key);
    SortDescStable(s, key, key(r[|r| - 1]));
    FilterLast(r, KeyIs(key, key(r[|r| - 1])));
  }

  /** The descending sort returns a permutation of its input ordered by non-increasing key. */
  lemma {:induction false} SortDescSorted<T>(s: seq<T>, key: T -> real)
    ensures SortedDesc(SortDesc(s, key), key)
  {
    if s != [] {
      SortDescSorted(s[1..], key);
      InsertSorted(s[0], SortDesc(s[1..], key), key);
    }
  }

  /** The first element of a descending sort has the largest key of the input. */
  lemma SortDescFirstIsMax<T>(s: seq<T>, key: T -> real)
    requires |s| > 0
    ensures forall x :: x in s ==> key(x) <= key(SortDesc(s, key)[0])
  {
    var r := SortDesc(s, key);
    SortDescSorted(s, key);
    forall x | x in s ensures key(x) <= key(r[0]) {
      assert x in multiset(r);
      var m :| 0 <= m < |r| && r[m] == x;
    }
  }

  /** Every element of a descending sort has a key at least that of its last element. */
  lemma SortDescLastIsMin<T>(s: seq<T>, key: T -> real)
    requires |s| > 0
    ensures forall x :: x in s ==> key(SortDesc(s, key)[|s| - 1]) <= key(x)
  {
    var r := SortDesc(s, key);
    SortDescSorted(s, key);
    forall x | x in s ensures key(r[|r| - 1]) <= key(x) {
      assert x in multiset(r);
      var m :| 0 <= m < |r| && r[m] == x;
    }
  }

  /** A prefix of a descending sort: part of the input, ordered, and its top: whatever it
      leaves behind ranks no higher than anything it keeps (`sort(...).slice(0, k)`). */
  lemma {:induction false} PrefixOfSort<T>(s: seq<T>, key: T -> real, k: nat)
    requires k <= |s|
    ensures var r := SortDesc(s, key)[..k];
      && multiset(r) <= multiset(s)
      && SortedDesc(r, key)
      && forall x, i :: multiset(r)[x] < multiset(s)[x] && 0 <= i < k ==> key(x) <= key(r[i])
  {
    SortDescSorted(s, key);
    PrefixOfSorted(SortDesc(s, key), s, key, k);
  }

  /** The same for any ordered permutation of `s`. */
  lemma PrefixOfSorted<T>(sorted: seq<T>, s: seq<T>, key: T -> real, k: nat)
    requires k <= |sorted| && multiset(sorted) == multiset(s) && SortedDesc(sorted, key)
    ensures var r := sorted[..k];
      && multiset(r) <= multiset(s)
      && SortedDesc(r, key)
      && forall x, i :: multiset(r)[x] < multiset(s)[x] && 0 <= i < k ==> key(x) <= key(r[i])
  {
    var r := sorted[..k];
    assert sorted == r + sorted[k..];
    assert multiset(sorted) == multiset(r) + multiset(sorted[k..]);
    forall x, i | multiset(r)[x] < multiset(s)[x] && 0 <= i < k ensures key(x) <= key(r[i]) {
      assert x in multiset(sorted[k..]);
      var m :| 0 <= m < |sorted[k..]| && sorted[k..][m] == x;
      assert sorted[k + m] == x;
    }
  }
}

=== FILE: stock_api.dfy ===
/** The local CSV data adapter of static/js/api.js: a naive CSV reader, the row normalisers,
    date sorting and range filtering, window statistics, and the rankings; the TTL cache and
    the `StockAPI` methods that use it are in `DataAdapter`. `Number(text)` is the parameter
    `parse` (see `Coerce`). */
module StockApi {
  import opened Wrappers
  import opened JsString
  import opened Seqs
  import opened Sorting
  import opened Coerce

  /** `CONFIG.DEFAULT_LIMIT`, `CONFIG.DEFAULT_STATS_DAYS`. */
  const DefaultLimit: int := 100
  const DefaultStatsDays: int := 20
  /** The limit `getGainers`/`getLosers` fall back to. */
  const RankLimit: int := 10

  // ---------------------------------------------------------------------------------------
  // parseCsv: one record per non-empty line, cells split on every comma.

  /** A parsed CSV row: header to cell text. */
  type CsvRow = map<string, string>

  /** A line of `text.split(/\r?\n/)` keeps no carriage return that stood before its line feed. */
  function DropCr(line: string): (r: string)
    ensures r == line || line == r + "\r"
  {
    if line != [] && line[|line| - 1] == '\r' then line[..|line| - 1] else line
  }

  /** `text.split(/\r?\n/)`: split at each line feed, a carriage return just before it
      belonging to the separator. The last piece is followed by no separator. */
  function Lines(text: string): (r: seq<string>)
    ensures |r| >= 1
  {
    var pieces := Split(text, {'\n'});
    seq(|pieces|, i requires 0 <= i < |pieces| => if i < |pieces| - 1 then DropCr(pieces[i]) else pieces[i])
  }

  /** `values[idx] ?? ''`. */
  function Cell(values: seq<string>, idx: nat): string {
    if idx < |values| then values[idx] else ""
  }

  /** The position of the last occurrence of `h` in `headers`. */
  function LastIndex(headers: seq<string>, h: string): (k: nat)
    requires h in headers
    ensures k < |headers| && headers[k] == h
    ensures forall j :: k < j < |headers| ==> headers[j] != h
  {
    var n := |headers| - 1;
    if headers[n] == h then n
    else
      assert h in headers[..n] by {
        var m :| 0 <= m < |headers| && headers[m] == h;
        assert headers[..n][m] == h;
      }
      LastIndex(headers[..n], h)
  }

  /** `headers.forEach((header, idx) => { row[header] = values[idx] ?? '' })`: every header is
      a key, and a header given twice keeps its last cell. */
  function RowOf(headers: seq<string>, values: seq<string>): (row: CsvRow)
    ensures forall h :: h in row <==> h in headers
    ensures forall h :: h in headers ==> row[h] == Cell(values, LastIndex(headers, h))
  {
    if headers == [] then map[]
    else
      var n := |headers| - 1;
      var prefix := RowOf(headers[..n], values);
      assert headers == headers[..n] + [headers[n]];
      prefix[headers[n] := Cell(values, n)]
  }

  predicate NonEmptyLine(line: string) {
    line != ""
  }

  /** `parseCsv(text)`: nothing for blank text; otherwise the first line gives the headers and
      every later non-empty line one row. */
  function ParseCsv(text: string): (rows: seq<CsvRow>)
    ensures AllSpace(text) ==> rows == []
    ensures !AllSpace(text) ==> var lines := Lines(Trim(text));
      && |rows| == Count(lines[1..], NonEmptyLine)
      && (forall i :: 0 <= i < |rows| ==> forall h :: h in rows[i] <==> h in Split(lines[0], {','}))
      && forall i :: 0 <= i < |rows| ==>
           rows[i] == RowOf(Split(lines[0], {','}), Split(Filter(lines[1..], NonEmptyLine)[i], {','}))
  {
    TrimEmptyIffAllSpace(text);
    var normalized := Trim(text);
    if normalized == "" then []
    else
      var lines := Lines(normalized);
      var headers := Split(lines[0], {','});
      RowsOf(headers, Filter(lines[1..], NonEmptyLine))
  }

  /** One row per data line, in order, each keyed by the headers. */
  function RowsOf(headers: seq<string>, body: seq<string>): (rows: seq<CsvRow>)
    ensures |rows| == |body|
    ensures forall i :: 0 <= i < |rows| ==> rows[i] == RowOf(headers, Split(body[i], {','}))
    ensures forall i :: 0 <= i < |rows| ==> forall h :: h in rows[i] <==> h in headers
  {
    seq(|body|, i requires 0 <= i < |body| => RowOf(headers, Split(body[i], {','})))
  }

  /** A header line and one line of cells, all free of commas and line breaks, read back as
      the row mapping each header to its cell. */
  lemma {:induction false} ParseCsvOneRow(headers: seq<string>, cells: seq<string>)
    requires |headers| >= 1 && |cells| >= 1
    requires FreeOf(headers, {',', '\n', '\r'}) && FreeOf(cells, {',', '\n', '\r'})
    requires headers[0] != "" && !IsSpace(headers[0][0])
    requires cells[|cells| - 1] != "" && !IsSpace(cells[|cells| - 1][|cells[|cells| - 1]| - 1])
    ensures var rows := ParseCsv(Join(headers, ",") + "\n" + Join(cells, ","));
      |rows| == 1 && (forall h :: h in rows[0] <==> h in headers)
      && forall h :: h in headers ==> rows[0][h] == Cell(cells, LastIndex(headers, h))
  {
    var h, c := Join(headers, ","), Join(cells, ",");
    OneRowLines(headers, cells);
    assert [h, c][1..] == [c];
    assert Filter([c], NonEmptyLine) == [c] by {
      assert [c][1..] == [];
    }
    SplitJoin(headers, {','}, ',');
    SplitJoin(cells, {','}, ',');
  }

  /** The text of a header line and one line of cells is not blank, is its own trim, and splits
      into those two lines, the second not empty. */
  lemma OneRowLines(headers: seq<string>, cells: seq<string>)
    requires |headers| >= 1 && |cells| >= 1
    requires FreeOf(headers, {',', '\n', '\r'}) && FreeOf(cells, {',', '\n', '\r'})
    requires headers[0] != "" && !IsSpace(headers[0][0])
    requires cells[|cells| - 1] != "" && !IsSpace(cells[|cells| - 1][|cells[|cells| - 1]| - 1])
    ensures var h, c := Join(headers, ","), Join(cells, ",");
      var text := h + "\n" + c;
      !AllSpace(text) && c != "" && Lines(Trim(text)) == [h, c]
  {
    var h, c := Join(headers, ","), Join(cells, ",");
    JoinEnds(headers, ",");
    JoinEnds(cells, ",");
    assert h != "" && !IsSpace(h[0]) by {
      assert h[..|headers[0]|] == headers[0];
    }
    assert c != "" && !IsSpace(c[|c| - 1]) by {
      var last := cells[|cells| - 1];
      assert c[|c| - |last|..] == last;
      assert c[|c| - 1] == last[|last| - 1];
    }
    JoinFree(headers, ",", '\n');
    JoinFree(cells, ",", '\n');
    JoinFree(headers, ",", '\r');
    TwoLineText(h, c);
  }

  /** A line starting with a non-space, a line feed and a line ending with a non-space is not
      blank, is its own trim, and splits into those two lines. */
  lemma TwoLineText(h: string, c: string)
    requires h != "" && !IsSpace(h[0]) && c != "" && !IsSpace(c[|c| - 1])
    requires '\n' !in h && '\n' !in c && '\r' !in h
    ensures var text := h + "\n" + c;
      !AllSpace(text) && Lines(Trim(text)) == [h, c]
  {
    var text := h + "\n" + c;
    assert text[0] == h[0] && text[|text| - 1] == c[|c| - 1];
    TrimTrimmed(text);
    LinesOfTwo(h, c);
  }

  /** A line without line feed or carriage return, a line feed, and a line without line feed
      are those two lines. */
  lemma LinesOfTwo(a: string, b: string)
    requires '\n' !in a && '\n' !in b && '\r' !in a
    ensures Lines(a + "\n" + b) == [a, b]
  {
    SplitAtOne(a, b);
    assert a == [] || a[|a| - 1] != '\r';
    var r := Lines(a + "\n" + b);
    assert |r| == 2 && r[0] == a && r[1] == b;
  }

  /** A join starts with its first part and ends with its last. */
  lemma {:induction false} JoinEnds(parts: seq<string>, sep: string)
    requires |parts| >= 1
    ensures var j := Join(parts, sep);
      |j| >= |parts[0]| && j[..|parts[0]|] == parts[0]
      && |j| >= |parts[|parts| - 1]| && j[|j| - |parts[|parts| - 1]|..] == parts[|parts| - 1]
  {
    if |parts| > 1 {
      JoinEnds(parts[1..], sep);
      var j := Join(parts, sep);
      assert j == parts[0] + sep + Join(parts[1..], sep);
      assert parts[1..][|parts[1..]| - 1] == parts[|parts| - 1];
    }
  }

  /** Two lines without line feeds split into those two lines. */
  lemma {:induction false} SplitAtOne(a: string, b: string)
    requires '\n' !in a && '\n' !in b
    ensures Split(a + "\n" + b, {'\n'}) == [a, b]
  {
    SplitJoin([a, b], {'\n'}, '\n');
    assert Join([a, b], "\n") == a + "\n" + Join([b], "\n");
    assert FreeOf([a, b], {'\n'});
  }

  // ---------------------------------------------------------------------------------------
  // Row normalisation.

  /** A cell of a parsed row; `undefined` when the header is missing. */
  function Field(row: CsvRow, header: string): Option<string> {
    if header in row then Some(row[header]) else None
  }

  /** `row.Name ? row.Name.trim() : ''`: missing and empty text both give `''`. */
  function TrimOrEmpty(value: Option<string>): (r: string)
    ensures r == if value.Some? then Trim(value.value) else ""
    ensures IsTrimmed(r)
    ensures r == "" <==> value.None? || AllSpace(value.value)
  {
    TrimEmptyIffAllSpace(value.GetOr(""));
    if value.Some? && value.value != "" then Trim(value.value) else ""
  }

  /** A row of `stock/{code}.csv` after `normalizeStockRow`. */
  datatype StockRow = StockRow(date: Option<int>, name: string, open: Option<real>,
                               high: Option<real>, low: Option<real>, close: Option<real>,
                               volume: Option<int>)

  /** A row of `daily/{date}.csv` after `normalizeDailyRow`. */
  datatype DailyRow = DailyRow(date: Option<int>, code: string, name: string, open: Option<real>,
                               high: Option<real>, low: Option<real>, close: Option<real>,
                               changePercent: Option<real>, volume: Option<int>)

  /** `normalizeStockRow`: the date and volume as integers, the prices as numbers, the name
      trimmed. */
  function NormalizeStockRow(row: CsvRow, parse: string -> Option<real>): (r: StockRow)
    ensures r.date == ToInt(Field(row, "Date"), parse) && r.volume == ToInt(Field(row, "Volume"), parse)
    ensures r.name == (if Field(row, "Name").Some? then Trim(Field(row, "Name").value) else "") && IsTrimmed(r.name)
    ensures r.open == ToNumber(Field(row, "Open"), parse) && r.high == ToNumber(Field(row, "High"), parse)
    ensures r.low == ToNumber(Field(row, "Low"), parse) && r.close == ToNumber(Field(row, "Close"), parse)
  {
    StockRow(ToInt(Field(row, "Date"), parse), TrimOrEmpty(Field(row, "Name")),
             ToNumber(Field(row, "Open"), parse), ToNumber(Field(row, "High"), parse),
             ToNumber(Field(row, "Low"), parse), ToNumber(Field(row, "Close"), parse),
             ToInt(Field(row, "Volume"), parse))
  }

  /** `row.ChangePct ?? row.ChangePercent`: the `ChangePct` column whenever the file has one,
      even when its cell is empty. */
  function ChangeText(row: CsvRow): (v: Option<string>)
    ensures "ChangePct" in row ==> v == Some(row["ChangePct"])
    ensures "ChangePct" !in row ==> v == Field(row, "ChangePercent")
  {
    if "ChangePct" in row then Some(row["ChangePct"]) else Field(row, "ChangePercent")
  }

  /** `normalizeDailyRow`: like `normalizeStockRow`, with the code from the `Symbol` column and
      the change read as a percentage. */
  function NormalizeDailyRow(row: CsvRow, parse: string -> Option<real>): (r: DailyRow)
    ensures r.date == ToInt(Field(row, "Date"), parse) && r.volume == ToInt(Field(row, "Volume"), parse)
    ensures r.code == (if Field(row, "Symbol").Some? then Trim(Field(row, "Symbol").value) else "") && IsTrimmed(r.code)
    ensures r.name == (if Field(row, "Name").Some? then Trim(Field(row, "Name").value) else "") && IsTrimmed(r.name)
    ensures r.open == ToNumber(Field(row, "Open"), parse) && r.high == ToNumber(Field(row, "High"), parse)
    ensures r.low == ToNumber(Field(row, "Low"), parse) && r.close == ToNumber(Field(row, "Close"), parse)
    ensures r.changePercent == ToPercent(ChangeText(row), parse)
  {
    DailyRow(ToInt(Field(row, "Date"), parse), TrimOrEmpty(Field(row, "Symbol")),
             TrimOrEmpty(Field(row, "Name")),
             ToNumber(Field(row, "Open"), parse), ToNumber(Field(row, "High"), parse),
             ToNumber(Field(row, "Low"), parse), ToNumber(Field(row, "Close"), parse),
             ToPercent(ChangeText(row), parse), ToInt(Field(row, "Volume"), parse))
  }

  /** `parseCsv(text).map(normalizeStockRow)`. */
  function StockRows(text: string, parse: string -> Option<real>): (rows: seq<StockRow>)
    ensures |rows| == |ParseCsv(text)|
  {
    var csv := ParseCsv(text);
    seq(|csv|, i requires 0 <= i < |csv| => NormalizeStockRow(csv[i], parse))
  }

  /** `parseCsv(text).map(normalizeDailyRow)`. */
  function DailyRows(text: string, parse: string -> Option<real>): (rows: seq<DailyRow>)
    ensures |rows| == |ParseCsv(text)|
  {
    var csv := ParseCsv(text);
    seq(|csv|, i requires 0 <= i < |csv| => NormalizeDailyRow(csv[i], parse))
  }

  // ---------------------------------------------------------------------------------------
  // Sorting and filtering by date.

  /** `Number(row.Date)`: a missing date counts as 0. */
  function DateNum(row: StockRow): real {
    if row.date.Some? then row.date.value as real else 0.0
  }

  /** `sortByDateDesc(rows)`: a sorted copy, newest first; `rows` itself is a value and keeps
      its order. */
  function SortByDateDesc(rows: seq<StockRow>): (r: seq<StockRow>)
    ensures multiset(r) == multiset(rows)
    ensures SortedDesc(r, DateNum)
    ensures forall d :: Filter(r, KeyIs(DateNum, d)) == Filter(rows, KeyIs(DateNum, d))
  {
    SortDescSorted(rows, DateNum);
    forall d ensures Filter(SortDesc(rows, DateNum), KeyIs(DateNum, d)) == Filter(rows, KeyIs(DateNum, d)) {
      SortDescStable(rows, DateNum, d);
    }
    SortDesc(rows, DateNum)
  }

  /** The row test of `filterByDateRange`; a bound that is not a number (`None`) keeps
      nothing. */
  predicate InRange(row: StockRow, start: Option<real>, end: Option<real>) {
    start.Some? && end.Some? && start.value <= DateNum(row) <= end.value
  }

  /** `filterByDateRange(rows, start, end)`: the rows dated within both bounds, inclusive, in
      their order. */
  function FilterByDateRange(rows: seq<StockRow>, start: Option<real>, end: Option<real>): (r: seq<StockRow>)
    ensures IsSubsequence(r, rows)
    ensures forall i :: 0 <= i < |r| ==> InRange(r[i], start, end)
    ensures forall i :: 0 <= i < |rows| && InRange(rows[i], start, end) ==> rows[i] in r
    ensures forall x :: multiset(r)[x] == if InRange(x, start, end) then multiset(rows)[x] else 0
  {
    var p := row => InRange(row, start, end);
    FilterIsSubsequence(rows, p);
    forall x ensures multiset(Filter(rows, p))[x] == if p(x) then multiset(rows)[x] else 0 {
      FilterMultiset(rows, p, x);
    }
    Filter(rows, p)
  }

  // ---------------------------------------------------------------------------------------
  // Window statistics.

  /** `values.filter(Number.isFinite)` on a column: the present values, in order. */
  function Present(column: seq<Option<real>>): (r: seq<real>)
    ensures |r| <= |column|
    ensures forall x :: x in r <==> Some(x) in column
  {
    if column == [] then []
    else
      assert column == [column[0]] + column[1..];
      (if column[0].Some? then [column[0].value] else []) + Present(column[1..])
  }

  function CloseColumn(rows: seq<StockRow>): (c: seq<Option<real>>)
    ensures |c| == |rows| && forall i :: 0 <= i < |rows| ==> c[i] == rows[i].close
  {
    seq(|rows|, i requires 0 <= i < |rows| => rows[i].close)
  }

  function HighColumn(rows: seq<StockRow>): (c: seq<Option<real>>)
    ensures |c| == |rows| && forall i :: 0 <= i < |rows| ==> c[i] == rows[i].high
  {
    seq(|rows|, i requires 0 <= i < |rows| => rows[i].high)
  }

  function LowColumn(rows: seq<StockRow>): (c: seq<Option<real>>)
    ensures |c| == |rows| && forall i :: 0 <= i < |rows| ==> c[i] == rows[i].low
  {
    seq(|rows|, i requires 0 <= i < |rows| => rows[i].low)
  }

  function Closes(rows: seq<StockRow>): seq<real> {
    Present(CloseColumn(rows))
  }

  /** The result of `calculateStats`. */
  datatype Stats = Stats(code: string, daysCount: nat, latestPrice: Option<real>,
                         avgPrice: Option<real>, maxPrice: Option<real>, minPrice: Option<real>,
                         latestDate: Option<string>)

  /** `latest.Date ? String(latest.Date) : null`: a missing date and the date 0 give `null`. */
  function DateText(date: Option<int>): (r: Option<string>)
    ensures r.Some? <==> date.Some? && date.value != 0
  {
    if date.Some? && date.value != 0 then Some(IntToString(date.value)) else None
  }

  /** `calculateStats(code, rows)`: the window's size and newest row, the mean of the closes,
      the largest high and the smallest low; a statistic without values is `null`, and an
      empty window has only its code and a count of 0. */
  function CalculateStats(code: string, rows: seq<StockRow>): (s: Stats)
    ensures s.code == code && s.daysCount == |rows|
    ensures rows == [] ==> s == Stats(code, 0, None, None, None, None, None)
    ensures rows != [] ==> s.latestPrice == rows[0].close && s.latestDate == DateText(rows[0].date)
    ensures s.avgPrice.Some? <==> rows != [] && exists i :: 0 <= i < |rows| && rows[i].close.Some?
    ensures s.avgPrice.Some? ==> |Closes(rows)| > 0 && s.avgPrice.value == Mean(Closes(rows))
    ensures s.maxPrice.Some? <==> rows != [] && exists i :: 0 <= i < |rows| && rows[i].high.Some?
    ensures s.maxPrice.Some? ==>
      (exists i :: 0 <= i < |rows| && rows[i].high == s.maxPrice)
      && (forall i :: 0 <= i < |rows| && rows[i].high.Some? ==> rows[i].high.value <= s.maxPrice.value)
    ensures s.minPrice.Some? <==> rows != [] && exists i :: 0 <= i < |rows| && rows[i].low.Some?
    ensures s.minPrice.Some? ==>
      (exists i :: 0 <= i < |rows| && rows[i].low == s.minPrice)
      && (forall i :: 0 <= i < |rows| && rows[i].low.Some? ==> s.minPrice.value <= rows[i].low.value)
  {
    if rows == [] then Stats(code, 0, None, None, None, None, None)
    else Stats(code, |rows|, rows[0].close, AverageClose(rows), HighestHigh(rows), LowestLow(rows),
               DateText(rows[0].date))
  }

  /** `closes.reduce(+, 0) / closes.length`, or `null` without closes. */
  function AverageClose(rows: seq<StockRow>): (a: Option<real>)
    ensures a.Some? <==> exists i :: 0 <= i < |rows| && rows[i].close.Some?
    ensures a.Some? ==> |Closes(rows)| > 0 && a.value == Mean(Closes(rows))
  {
    PresentNonEmpty(CloseColumn(rows));
    var closes := Closes(rows);
    if |closes| > 0 then Some(Mean(closes)) else None
  }

  /** `Math.max(...highs)`, or `null` without highs. */
  function HighestHigh(rows: seq<StockRow>): (m: Option<real>)
    ensures m.Some? <==> exists i :: 0 <= i < |rows| && rows[i].high.Some?
    ensures m.Some? ==> exists i :: 0 <= i < |rows| && rows[i].high == m
    ensures m.Some? ==> forall i :: 0 <= i < |rows| && rows[i].high.Some? ==> rows[i].high.value <= m.value
  {
    var column := HighColumn(rows);
    PresentNonEmpty(column);
    var highs := Present(column);
    if |highs| > 0 then
      var top := Max(highs);
      assert Some(top) in column;
      assert forall i :: 0 <= i < |rows| && rows[i].high.Some? ==> rows[i].high.value in highs by {
        forall i | 0 <= i < |rows| && rows[i].high.Some? ensures rows[i].high.value in highs {
          assert Some(rows[i].high.value) == column[i];
        }
      }
      Some(top)
    else None
  }

  /** `Math.min(...lows)`, or `null` without lows. */
  function LowestLow(rows: seq<StockRow>): (m: Option<real>)
    ensures m.Some? <==> exists i :: 0 <= i < |rows| && rows[i].low.Some?
    ensures m.Some? ==> exists i :: 0 <= i < |rows| && rows[i].low == m
    ensures m.Some? ==> forall i :: 0 <= i < |rows| && rows[i].low.Some? ==> m.value <= rows[i].low.value
  {
    var column := LowColumn(rows);
    PresentNonEmpty(column);
    var lows := Present(column);
    if |lows| > 0 then
      var bottom := Min(lows);
      assert Some(bottom) in column;
      assert forall i :: 0 <= i < |rows| && rows[i].low.Some? ==> rows[i].low.value in lows by {
        forall i | 0 <= i < |rows| && rows[i].low.Some? ensures rows[i].low.value in lows {
          assert Some(rows[i].low.value) == column[i];
        }
      }
      Some(bottom)
    else None
  }

  /** A column has present values exactly when some row has one. */
  lemma PresentNonEmpty(column: seq<Option<real>>)
    ensures |Present(column)| > 0 <==> exists i :: 0 <= i < |column| && column[i].Some?
  {
    var values := Present(column);
    if exists i :: 0 <= i < |column| && column[i].Some? {
      var i :| 0 <= i < |column| && column[i].Some?;
      assert Some(column[i].value) in column;
      assert column[i].value in values;
    }
    if |values| > 0 {
      assert values[0] in values;
      assert Some(values[0]) in column;
    }
  }

  /** The average close lies between the smallest and the largest close of the window. */
  lemma {:induction false} AverageWithinCloses(code: string, rows: seq<StockRow>)
    requires CalculateStats(code, rows).avgPrice.Some?
    ensures var s := CalculateStats(code, rows);
      exists i, j :: 0 <= i < |rows| && 0 <= j < |rows| && rows[i].close.Some? && rows[j].close.Some?
        && rows[i].close.value <= s.avgPrice.value <= rows[j].close.value
  {
    MeanWithinCloses(rows);
  }

  lemma MeanWithinCloses(rows: seq<StockRow>)
    requires |Closes(rows)| > 0
    ensures var m := Mean(Closes(rows));
      exists i, j :: 0 <= i < |rows| && 0 <= j < |rows| && rows[i].close.Some? && rows[j].close.Some?
        && rows[i].close.value <= m <= rows[j].close.value
  {
    var closes := Closes(rows);
    MeanBetweenMinAndMax(closes);
    var lo := Min(closes);
    var hi := Max(closes);
    assert Some(lo) in CloseColumn(rows) && Some(hi) in CloseColumn(rows);
    var i :| 0 <= i < |rows| && CloseColumn(rows)[i] == Some(lo);
    var j :| 0 <= j < |rows| && CloseColumn(rows)[j] == Some(hi);
  }

  // ---------------------------------------------------------------------------------------
  // Windows and rankings.

  /** The end handed to `slice(0, end)` for `Number(limit) || fallback`: a missing or zero
      limit takes the fallback, any other number is truncated toward zero (a negative one
      counts back from the end). */
  function SliceLimit(limit: Option<real>, fallback: int): (end: int)
    ensures limit.None? || limit.value == 0.0 ==> end == fallback
    ensures limit.Some? && limit.value != 0.0 ==> end == Trunc(limit.value)
    ensures limit.Some? && limit.value >= 1.0 ==> 1 <= end && end as real <= limit.value
  {
    if limit.None? || limit.value == 0.0 then fallback else Trunc(limit.value)
  }

  /** `sortByDateDesc(rows).slice(0, Number(limit) || fallback)`: the newest rows, newest
      first; every row left out is no newer than any row kept. */
  function Window(rows: seq<StockRow>, limit: Option<real>, fallback: int): (w: seq<StockRow>)
    ensures |w| == SliceEnd(|rows|, SliceLimit(limit, fallback)) && multiset(w) <= multiset(rows)
    ensures SortedDesc(w, DateNum)
    ensures forall x, i :: multiset(w)[x] < multiset(rows)[x] && 0 <= i < |w| ==> DateNum(x) <= DateNum(w[i])
  {
    var k := SliceEnd(|rows|, SliceLimit(limit, fallback));
    PrefixOfSort(rows, DateNum, k);
    SortByDateDesc(rows)[..k]
  }

  predicate HasChange(row: DailyRow) {
    row.changePercent.Some?
  }

  /** The ranking key of a row with a change. */
  function Change(row: DailyRow): real {
    row.changePercent.GetOr(0.0)
  }

  /** The opposite key: ranking by it descending ranks by change ascending. */
  function Fall(row: DailyRow): real {
    -Change(row)
  }

  /** `rows.filter(...).sort(by change descending).slice(0, Number(limit) || 10)`: the rows
      with a change, at most `limit` of them, largest change first; a row with a change that
      is left out gained no more than any row kept. */
  function Gainers(rows: seq<DailyRow>, limit: Option<real>): (r: seq<DailyRow>)
    ensures |r| == SliceEnd(Count(rows, HasChange), SliceLimit(limit, RankLimit))
    ensures limit.Some? && limit.value >= 1.0 ==> |r| as real <= limit.value
    ensures multiset(r) <= multiset(rows)
    ensures forall i :: 0 <= i < |r| ==> HasChange(r[i])
    ensures SortedDesc(r, Change)
    ensures forall x, i :: multiset(r)[x] < multiset(rows)[x] && HasChange(x) && 0 <= i < |r| ==> Change(x) <= Change(r[i])
    ensures forall d :: Filter(r, KeyIs(Change, d)) <= Filter(Filter(rows, HasChange), KeyIs(Change, d))
  {
    var candidates := Filter(rows, HasChange);
    var k := SliceEnd(|candidates|, SliceLimit(limit, RankLimit));
    Ranked(rows, candidates, Change, k);
    GainerTies(candidates, k);
    SortDesc(candidates, Change)[..k]
  }

  /** `rows.filter(...).sort(by change ascending).slice(0, Number(limit) || 10)`: the rows
      with a change, at most `limit` of them, smallest change first; a row with a change that
      is left out lost no more than any row kept. */
  function Losers(rows: seq<DailyRow>, limit: Option<real>): (r: seq<DailyRow>)
    ensures |r| == SliceEnd(Count(rows, HasChange), SliceLimit(limit, RankLimit))
    ensures limit.Some? && limit.value >= 1.0 ==> |r| as real <= limit.value
    ensures multiset(r) <= multiset(rows)
    ensures forall i :: 0 <= i < |r| ==> HasChange(r[i])
    ensures SortedAsc(r, Change)
    ensures forall x, i :: multiset(r)[x] < multiset(rows)[x] && HasChange(x) && 0 <= i < |r| ==> Change(r[i]) <= Change(x)
    ensures forall d :: Filter(r, KeyIs(Change, d)) <= Filter(Filter(rows, HasChange), KeyIs(Change, d))
  {
    var candidates := Filter(rows, HasChange);
    var k := SliceEnd(|candidates|, SliceLimit(limit, RankLimit));
    Ranked(rows, candidates, Fall, k);
    LoserTies(candidates, k);
    FallIsRise(rows, SortDesc(candidates, Fall)[..k]);
    SortDesc(candidates, Fall)[..k]
  }

  /** The top `k` by change keep, for each change, the earliest rows with it, in input order. */
  lemma GainerTies(candidates: seq<DailyRow>, k: nat)
    requires k <= |candidates|
    ensures forall d :: Filter(SortDesc(candidates, Change)[..k], KeyIs(Change, d)) <= Filter(candidates, KeyIs(Change, d))
  {
    forall d ensures Filter(SortDesc(candidates, Change)[..k], KeyIs(Change, d)) <= Filter(candidates, KeyIs(Change, d)) {
      SortDescPrefixTies(candidates, Change, k, d);
    }
  }

  /** The bottom `k` by change keep, for each change, the earliest rows with it, in input order. */
  lemma LoserTies(candidates: seq<DailyRow>, k: nat)
    requires k <= |candidates|
    ensures forall d :: Filter(SortDesc(candidates, Fall)[..k], KeyIs(Change, d)) <= Filter(candidates, KeyIs(Change, d))
  {
    forall d ensures Filter(SortDesc(candidates, Fall)[..k], KeyIs(Change, d)) <= Filter(candidates, KeyIs(Change, d)) {
      LoserTie(candidates, k, d);
    }
  }

  /** One change value `d` of `LoserTies`, through the fall `-d`. */
  lemma LoserTie(candidates: seq<DailyRow>, k: nat, d: real)
    requires k <= |candidates|
    ensures Filter(SortDesc(candidates, Fall)[..k], KeyIs(Change, d)) <= Filter(candidates, KeyIs(Change, d))
  {
    var c := 0.0 - d;
    SortDescPrefixTies(candidates, Fall, k, c);
    FallIsChange(c, d);
    FilterPrefixAgree(SortDesc(candidates, Fall)[..k], candidates, KeyIs(Fall, c), KeyIs(Change, d));
  }

  /** A row's fall is `c` exactly when its change is `d = -c`. */
  lemma FallIsChange(c: real, d: real)
    requires c + d == 0.0
    ensures forall x :: KeyIs(Fall, c)(x) == KeyIs(Change, d)(x)
  {
    forall x ensures KeyIs(Fall, c)(x) == KeyIs(Change, d)(x) {
      assert Fall(x) == -Change(x);
    }
  }

  /** Ranked by `Fall` descending is ranked by `Change` ascending. */
  lemma FallIsRise(rows: seq<DailyRow>, r: seq<DailyRow>)
    requires SortedDesc(r, Fall)
    requires forall x, i :: multiset(r)[x] < multiset(rows)[x] && HasChange(x) && 0 <= i < |r| ==> Fall(x) <= Fall(r[i])
    ensures SortedAsc(r, Change)
    ensures forall x, i :: multiset(r)[x] < multiset(rows)[x] && HasChange(x) && 0 <= i < |r| ==> Change(r[i]) <= Change(x)
  {
    forall i, j | 0 <= i < j < |r| ensures Change(r[i]) <= Change(r[j]) {
      assert Fall(r[i]) >= Fall(r[j]);
    }
  }

  /** The top `k` of the rows with a change, by any key. */
  lemma Ranked(rows: seq<DailyRow>, candidates: seq<DailyRow>, key: DailyRow -> real, k: nat)
    requires candidates == Filter(rows, HasChange) && k <= |candidates|
    ensures var r := SortDesc(candidates, key)[..k];
      && multiset(r) <= multiset(rows)
      && (forall i :: 0 <= i < |r| ==> HasChange(r[i]))
      && SortedDesc(r, key)
      && forall x, i :: multiset(r)[x] < multiset(rows)[x] && HasChange(x) && 0 <= i < k ==> key(x) <= key(r[i])
  {
    FilteredPrefixOfSort(rows, HasChange, key, k);
  }

  /** A prefix of the descending sort of the elements that pass a filter: part of the input,
      every element passing, ordered, and its top among the passing elements. */
  lemma FilteredPrefixOfSort<T>(rows: seq<T>, p: T -> bool, key: T -> real, k: nat)
    requires k <= |Filter(rows, p)|
    ensures var r := SortDesc(Filter(rows, p), key)[..k];
      && multiset(r) <= multiset(rows)
      && (forall i :: 0 <= i < |r| ==> p(r[i]))
      && SortedDesc(r, key)
      && forall x, i :: multiset(r)[x] < multiset(rows)[x] && p(x) && 0 <= i < k ==> key(x) <= key(r[i])
  {
    var candidates := Filter(rows, p);
    PrefixOfSort(candidates, key, k);
    FilterMultisetBound(rows, p);
    forall x | p(x) ensures multiset(candidates)[x] == multiset(rows)[x] {
      FilterMultiset(rows, p, x);
    }
    TopOfPassing(rows, candidates, SortDesc(candidates, key)[..k], p, key);
  }

  /** Part `r` of the passing elements `c` of `rows`, ranked above the rest of `c`, is made of
      passing elements and ranked above every other passing element of `rows`. */
  lemma TopOfPassing<T>(rows: seq<T>, c: seq<T>, r: seq<T>, p: T -> bool, key: T -> real)
    requires multiset(r) <= multiset(c) <= multiset(rows)
    requires forall i :: 0 <= i < |c| ==> p(c[i])
    requires forall x :: p(x) ==> multiset(c)[x] == multiset(rows)[x]
    requires forall x, i :: multiset(r)[x] < multiset(c)[x] && 0 <= i < |r| ==> key(x) <= key(r[i])
    ensures forall i :: 0 <= i < |r| ==> p(r[i])
    ensures forall x, i :: multiset(r)[x] < multiset(rows)[x] && p(x) && 0 <= i < |r| ==> key(x) <= key(r[i])
  {
    forall i | 0 <= i < |r| ensures p(r[i]) {
      assert r[i] in multiset(c);
    }
  }

  /** A filter keeps at most the elements it was given. */
  lemma FilterMultisetBound<T>(s: seq<T>, p: T -> bool)
    ensures multiset(Filter(s, p)) <= multiset(s)
  {
    forall x ensures multiset(Filter(s, p))[x] <= multiset(s)[x] {
      FilterMultiset(s, p, x);
    }
  }

  // ---------------------------------------------------------------------------------------
  // The response cache.

  /** `CACHE_TTL_MS` for `Number(CONFIG.CACHE_MINUTES)` (`None` when it is not finite): five
      minutes by default, never negative. */
  function CacheTtl(minutes: Option<real>): (ttl: real)
    ensures ttl >= 0.0
    ensures minutes.None? ==> ttl == 300000.0
    ensures minutes.Some? && minutes.value <= 0.0 ==> ttl == 0.0
    ensures minutes.Some? && minutes.value > 0.0 ==> ttl == minutes.value * 60000.0
  {
    var m := if minutes.Some? then minutes.value else 5.0;
    (if m > 0.0 then m else 0.0) * 60.0 * 1000.0
  }

  /** What the cache holds: the rows of a stock file or of a daily file. */
  datatype Cached = Stocks(stockRows: seq<StockRow>) | Dailies(dailyRows: seq<DailyRow>)

  datatype Entry = Entry(value: Cached, expiresAt: real)

  type Cache = map<string, Entry>

  /** What `readCache(key)` returns at time `now`: nothing when caching is off, the key is
      absent or its entry has expired (`now > expiresAt`), else the stored value. */
  function CacheLookup(cache: Cache, ttl: real, key: string, now: real): Option<Cached> {
    if ttl == 0.0 || key !in cache || now > cache[key].expiresAt then None else Some(cache[key].value)
  }

  /** The cache after `readCache(key)`: an expired entry is deleted. */
  function AfterLookup(cache: Cache, ttl: real, key: string, now: real): Cache {
    if ttl != 0.0 && key in cache && now > cache[key].expiresAt then cache - {key} else cache
  }

  /** The cache after `writeCache(key, value)`: unchanged when caching is off. */
  function CacheStore(cache: Cache, ttl: real, key: string, value: Cached, now: real): Cache {
    if ttl == 0.0 then cache else cache[key := Entry(value, now + ttl)]
  }

  /** A value written is read back, unchanged, until its time to live has passed. */
  lemma StoreThenLookup(cache: Cache, ttl: real, key: string, value: Cached, now: real, later: real)
    requires ttl > 0.0 && later <= now + ttl
    ensures CacheLookup(CacheStore(cache, ttl, key, value, now), ttl, key, later) == Some(value)
    ensures AfterLookup(CacheStore(cache, ttl, key, value, now), ttl, key, later) == CacheStore(cache, ttl, key, value, now)
  {
  }

  /** Once its time to live has passed, a value written is a miss and the read deletes it. */
  lemma StoreThenExpire(cache: Cache, ttl: real, key: string, value: Cached, now: real, later: real)
    requires ttl > 0.0 && later > now + ttl
    ensures CacheLookup(CacheStore(cache, ttl, key, value, now), ttl, key, later) == None
    ensures key !in AfterLookup(CacheStore(cache, ttl, key, value, now), ttl, key, later)
  {
  }

  /** A time to live of 0 switches the cache off: writes keep nothing and reads always miss. */
  lemma ZeroTtlNeverHits(cache: Cache, key: string, value: Cached, now: real, later: real)
    ensures CacheStore(cache, 0.0, key, value, now) == cache
    ensures CacheLookup(cache, 0.0, key, later) == None
    ensures AfterLookup(cache, 0.0, key, later) == cache
  {
  }

  /** Reading or writing one key leaves every other entry as it was. */
  lemma OtherKeysUntouched(cache: Cache, ttl: real, key: string, other: string, value: Cached, now: real)
    requires other != key
    ensures var w := CacheStore(cache, ttl, key, value, now);
      (other in w <==> other in cache) && (other in w ==> w[other] == cache[other])
    ensures var a := AfterLookup(cache, ttl, key, now);
      (other in a <==> other in cache) && (other in a ==> a[other] == cache[other])
  {
  }

  function StockKey(code: string): string { "stock:" + code }
  function DailyKey(date: string): string { "daily:" + date }

  /** The file a stock or a daily key is loaded from, relative to the data directory. */
  function StockPath(code: string): string { "stock/" + code + ".csv" }
  function DailyPath(date: string): string { "daily/" + date + ".csv" }

  /** `loadStockRows(code)` without the cache: the normalised rows of the fetched file, or the
      error the request failed with. `fetch` maps a data file to its text. */
  function FetchStock(code: string, fetch: string -> Result<string, string>, parse: string -> Option<real>): Result<seq<StockRow>, string> {
    match fetch(StockPath(code))
    case Ok(text) => Ok(StockRows(text, parse))
    case Err(e) => Err(e)
  }

  /** `loadDailyRows(date)` without the cache. */
  function FetchDaily(date: string, fetch: string -> Result<string, string>, parse: string -> Option<real>): Result<seq<DailyRow>, string> {
    match fetch(DailyPath(date))
    case Ok(text) => Ok(DailyRows(text, parse))
    case Err(e) => Err(e)
  }

  /** A cache entry holds what its key's file gives. */
  predicate Serves(key: string, value: Cached, fetch: string -> Result<string, string>, parse: string -> Option<real>) {
    if |key| >= 6 && key[..6] == "stock:" then value.Stocks? && FetchStock(key[6..], fetch, parse) == Ok(value.stockRows)
    else if |key| >= 6 && key[..6] == "daily:" then value.Dailies? && FetchDaily(key[6..], fetch, parse) == Ok(value.dailyRows)
    else false
  }

  /** Every entry of `cache` holds what its file gives. */
  ghost predicate CacheServes(cache: Cache, fetch: string -> Result<string, string>, parse: string -> Option<real>) {
    forall k :: k in cache ==> Serves(k, cache[k].value, fetch, parse)
  }

  /** A stock key serves exactly the rows of its stock's file. */
  lemma StockKeyServes(code: string, value: Cached, fetch: string -> Result<string, string>, parse: string -> Option<real>)
    ensures Serves(StockKey(code), value, fetch, parse) <==> value.Stocks? && FetchStock(code, fetch, parse) == Ok(value.stockRows)
  {
    var key := StockKey(code);
    assert key[..6] == "stock:" && key[6..] == code;
  }

  /** A daily key serves exactly the rows of its day's file. */
  lemma DailyKeyServes(date: string, value: Cached, fetch: string -> Result<string, string>, parse: string -> Option<real>)
    ensures Serves(DailyKey(date), value, fetch, parse) <==> value.Dailies? && FetchDaily(date, fetch, parse) == Ok(value.dailyRows)
  {
    var key := DailyKey(date);
    assert key[..6] == "daily:" && key[6..] == date;
    assert key[..6] != "stock:" by { assert key[0] == 'd' && "stock:"[0] == 's'; }
  }

  /** A lookup in a cache whose entries hold what their files give returns such a value and
      keeps every remaining entry so. */
  lemma LookupServes(cache: Cache, ttl: real, key: string, now: real, fetch: string -> Result<string, string>, parse: string -> Option<real>)
    requires CacheServes(cache, fetch, parse)
    ensures CacheServes(AfterLookup(cache, ttl, key, now), fetch, parse)
    ensures CacheLookup(cache, ttl, key, now).Some? ==> Serves(key, CacheLookup(cache, ttl, key, now).value, fetch, parse)
  {
  }

  /** Storing what a file gives keeps every entry holding what its file gives. */
  lemma StoreServes(cache: Cache, ttl: real, key: string, value: Cached, now: real, fetch: string -> Result<string, string>, parse: string -> Option<real>)
    requires CacheServes(cache, fetch, parse) && Serves(key, value, fetch, parse)
    ensures CacheServes(CacheStore(cache, ttl, key, value, now), fetch, parse)
  {
  }

  /** The cache after `loadStockRows(code)` at time `now`: as it was on a live hit; otherwise
      with an expired entry dropped and, when the file loads, its rows stored under the key. */
  function AfterStockLoad(cache: Cache, ttl: real, code: string, now: real, fetch: string -> Result<string, string>, parse: string -> Option<real>): Cache {
    var key := StockKey(code);
    if CacheLookup(cache, ttl, key, now).Some? then cache
    else
      var dropped := AfterLookup(cache, ttl, key, now);
      match FetchStock(code, fetch, parse)
      case Ok(rows) => CacheStore(dropped, ttl, key, Stocks(rows), now)
      case Err(_) => dropped
  }

  /** The cache after `loadDailyRows(date)` at time `now`, in the same way. */
  function AfterDailyLoad(cache: Cache, ttl: real, date: string, now: real, fetch: string -> Result<string, string>, parse: string -> Option<real>): Cache {
    var key := DailyKey(date);
    if CacheLookup(cache, ttl, key, now).Some? then cache
    else
      var dropped := AfterLookup(cache, ttl, key, now);
      match FetchDaily(date, fetch, parse)
      case Ok(rows) => CacheStore(dropped, ttl, key, Dailies(rows), now)
      case Err(_) => dropped
  }

  /** The cache after loading each of `codes` in turn. */
  function AfterStockLoads(cache: Cache, ttl: real, codes: seq<string>, now: real, fetch: string -> Result<string, string>, parse: string -> Option<real>): Cache
    decreases |codes|
  {
    if codes == [] then cache
    else AfterStockLoad(AfterStockLoads(cache, ttl, codes[..|codes| - 1], now, fetch, parse), ttl, codes[|codes| - 1], now, fetch, parse)
  }

  /** Loading one more code of a list loads it after the ones before it. */
  lemma AfterStockLoadsSnoc(cache: Cache, ttl: real, codes: seq<string>, i: nat, now: real, fetch: string -> Result<string, string>, parse: string -> Option<real>)
    requires i < |codes|
    ensures AfterStockLoads(cache, ttl, codes[..i + 1], now, fetch, parse)
      == AfterStockLoad(AfterStockLoads(cache, ttl, codes[..i], now, fetch, parse), ttl, codes[i], now, fetch, parse)
  {
    assert codes[..i + 1][..i] == codes[..i];
  }

  /** Loading stocks touches only their own keys: every other entry stays as it was, and no
      other key appears. */
  lemma {:induction false} AfterStockLoadsFrame(cache: Cache, ttl: real, codes: seq<string>, now: real, fetch: string -> Result<string, string>, parse: string -> Option<real>, k: string)
    requires forall c :: c in codes ==> k != StockKey(c)
    ensures var after := AfterStockLoads(cache, ttl, codes, now, fetch, parse);
      (k in after <==> k in cache) && (k in after ==> after[k] == cache[k])
    decreases |codes|
  {
    if codes != [] {
      var front := codes[..|codes| - 1];
      assert forall c :: c in front ==> c in codes;
      AfterStockLoadsFrame(cache, ttl, front, now, fetch, parse, k);
    }
  }

  /** `getSummary`'s entry for one stock. */
  datatype Summary = Summary(code: string, latestDate: Option<string>, latestPrice: Option<real>, totalRecords: nat)

  /** `codes` as `compare` and `getSummary` take them: each trimmed, the empty ones dropped. */
  function CodeList(codes: seq<string>): (r: seq<string>)
    ensures forall i :: 0 <= i < |r| ==> r[i] != "" && IsTrimmed(r[i])
    ensures codes == [] ==> r == []
  {
    var trimmed := seq(|codes|, i requires 0 <= i < |codes| => Trim(codes[i]));
    Filter(trimmed, NonEmptyLine)
  }

  /** One more code adds its trimmed text at the end of the list, unless it is blank. */
  lemma CodeListAppend(codes: seq<string>, code: string)
    ensures CodeList(codes + [code]) == CodeList(codes) + (if Trim(code) == "" then [] else [Trim(code)])
  {
    var all := codes + [code];
    var trimmed := seq(|all|, i requires 0 <= i < |all| => Trim(all[i]));
    var front := seq(|codes|, i requires 0 <= i < |codes| => Trim(codes[i]));
    assert trimmed == front + [Trim(code)];
    FilterAppend(front, [Trim(code)], NonEmptyLine);
    assert [Trim(code)][1..] == [];
  }

  /** `String(codes).split(',')` for codes given as text. */
  function CodesOfText(text: string): seq<string> {
    Split(text, {','})
  }

  /** `getLatest` on loaded rows: the newest row, or an error for a stock without rows. */
  function Latest(code: string, rows: seq<StockRow>): (r: Result<StockRow, string>)
    ensures r.Err? <==> rows == []
    ensures r.Ok? ==> r.value in rows && forall x :: x in rows ==> DateNum(x) <= DateNum(r.value)
    ensures r.Ok? ==> var ties := Filter(rows, KeyIs(DateNum, DateNum(r.value)));
      |ties| > 0 && r.value == ties[0]
  {
    if rows == [] then Err("No stock data for " + code)
    else
      SortDescFirstIsMax(rows, DateNum);
      SortDescFirstTie(rows, DateNum);
      var sorted := SortByDateDesc(rows);
      assert sorted[0] in multiset(rows);
      Ok(sorted[0])
  }

  /** `getStats` on loaded rows: the statistics of the window, or an error when it is empty. */
  function WindowStats(code: string, rows: seq<StockRow>, days: Option<real>): (r: Result<Stats, string>)
    ensures r.Err? <==> Window(rows, days, DefaultStatsDays) == []
    ensures r.Ok? ==> r.value == CalculateStats(code, Window(rows, days, DefaultStatsDays)) && r.value.daysCount > 0
  {
    var w := Window(rows, days, DefaultStatsDays);
    if w == [] then Err("No stock data for " + code) else Ok(CalculateStats(code, w))
  }

  /** What `compare` contributes for one code, once it is loaded: nothing when loading failed
      or the window is empty, else the window's statistics. */
  function CompareLoaded(code: string, loaded: Result<seq<StockRow>, string>, days: Option<real>): (r: seq<Stats>)
    ensures |r| <= 1
    ensures |r| == 1 ==> r[0].code == code && r[0].daysCount > 0
    ensures r == [] <==> loaded.Err? || Window(loaded.value, days, DefaultStatsDays) == []
    ensures r != [] ==> loaded.Ok? && r[0] == CalculateStats(code, Window(loaded.value, days, DefaultStatsDays))
  {
    match loaded
    case Err(_) => []
    case Ok(rows) => match WindowStats(code, rows, days)
      case Err(_) => []
      case Ok(s) => [s]
  }

  /** The body of `compare`'s loop: the window's statistics are pushed unless loading failed
      or the window is empty. */
  method PushStats(stocks: seq<Stats>, code: string, loaded: Result<seq<StockRow>, string>, days: Option<real>) returns (r: seq<Stats>)
    ensures r == stocks + CompareLoaded(code, loaded, days)
  {
    if loaded.Err? {
      assert CompareLoaded(code, loaded, days) == [];
      return stocks;
    }
    var subset := Window(loaded.value, days, DefaultStatsDays);
    if subset == [] {
      assert CompareLoaded(code, loaded, days) == [] by {
        assert WindowStats(code, loaded.value, days).Err?;
      }
      return stocks;
    }
    var stats := CalculateStats(code, subset);
    assert CompareLoaded(code, loaded, days) == [stats] by {
      assert WindowStats(code, loaded.value, days) == Ok(stats);
    }
    return stocks + [stats];
  }

  /** The results of `f` for each code, concatenated in the order of the codes. */
  function ConcatMap<T>(codes: seq<string>, f: string -> seq<T>): seq<T> {
    if codes == [] then [] else f(codes[0]) + ConcatMap(codes[1..], f)
  }

  lemma {:induction false} ConcatMapAppend<T>(codes: seq<string>, code: string, f: string -> seq<T>)
    ensures ConcatMap(codes + [code], f) == ConcatMap(codes, f) + f(code)
  {
    var t := codes + [code];
    if codes == [] {
      assert t[1..] == [];
    } else {
      assert t[0] == codes[0] && t[1..] == codes[1..] + [code];
      ConcatMapAppend(codes[1..], code, f);
    }
  }

  /** `compare`'s contribution of each code. */
  function CompareEach(days: Option<real>, fetch: string -> Result<string, string>, parse: string -> Option<real>): string -> seq<Stats> {
    code => CompareLoaded(code, FetchStock(code, fetch, parse), days)
  }

  /** `compare(codes, days)`'s `stocks`, code by code. */
  function CompareAll(codes: seq<string>, days: Option<real>, fetch: string -> Result<string, string>, parse: string -> Option<real>): seq<Stats>
  {
    ConcatMap(codes, CompareEach(days, fetch, parse))
  }

  lemma CompareAllAppend(codes: seq<string>, code: string, days: Option<real>, fetch: string -> Result<string, string>, parse: string -> Option<real>)
    ensures CompareAll(codes + [code], days, fetch, parse)
      == CompareAll(codes, days, fetch, parse) + CompareLoaded(code, FetchStock(code, fetch, parse), days)
  {
    ConcatMapAppend(codes, code, CompareEach(days, fetch, parse));
  }

  /** The code of a `compare` entry. */
  function StatsCode(s: Stats): string {
    s.code
  }

  /** The codes the entries report, in order. */
  function CodesOf<T>(entries: seq<T>, codeOf: T -> string): seq<string> {
    seq(|entries|, i requires 0 <= i < |entries| => codeOf(entries[i]))
  }

  /** `compare` keeps the order of the codes and reports only codes it was given, each with a
      non-empty window. */
  lemma CompareKeepsOrder(codes: seq<string>, days: Option<real>, fetch: string -> Result<string, string>, parse: string -> Option<real>)
    ensures var r := CompareAll(codes, days, fetch, parse);
      IsSubsequence(CodesOf(r, StatsCode), codes) && forall i :: 0 <= i < |r| ==> r[i].daysCount > 0
  {
    var f := CompareEach(days, fetch, parse);
    forall c ensures |f(c)| <= 1 && (|f(c)| == 1 ==> StatsCode(f(c)[0]) == c) {
      assert f(c) == CompareLoaded(c, FetchStock(c, fetch, parse), days);
    }
    ConcatMapKeepsOrder(codes, f, StatsCode);
    var r := CompareAll(codes, days, fetch, parse);
    forall i | 0 <= i < |r| ensures r[i].daysCount > 0 {
      CompareOnlyLoaded(codes, days, fetch, parse, r[i]);
    }
  }

  /** Concatenating at most one entry per code, each reporting its own code, keeps the codes
      in order. */
  lemma {:induction false} ConcatMapKeepsOrder<T>(codes: seq<string>, f: string -> seq<T>, codeOf: T -> string)
    requires forall c :: |f(c)| <= 1 && (|f(c)| == 1 ==> codeOf(f(c)[0]) == c)
    ensures IsSubsequence(CodesOf(ConcatMap(codes, f), codeOf), codes)
  {
    if codes != [] {
      ConcatMapKeepsOrder(codes[1..], f, codeOf);
      EntryCons(codes[0], codes[1..], f(codes[0]), ConcatMap(codes[1..], f), codeOf);
      assert [codes[0]] + codes[1..] == codes;
    }
  }

  /** One code's contribution in front of the rest keeps the codes in order. */
  lemma EntryCons<T>(code: string, codes: seq<string>, one: seq<T>, rest: seq<T>, codeOf: T -> string)
    requires |one| <= 1 && (|one| == 1 ==> codeOf(one[0]) == code)
    requires IsSubsequence(CodesOf(rest, codeOf), codes)
    ensures IsSubsequence(CodesOf(one + rest, codeOf), [code] + codes)
  {
    var r := one + rest;
    if one == [] {
      assert r == rest;
      IsSubsequenceCons(code, CodesOf(rest, codeOf), codes);
    } else {
      assert CodesOf(r, codeOf) == [code] + CodesOf(rest, codeOf);
      assert CodesOf(r, codeOf)[1..] == CodesOf(rest, codeOf);
      assert ([code] + codes)[1..] == codes;
    }
  }

  /** An entry of a concatenation comes from one of the codes. */
  lemma {:induction false} ConcatMapMember<T>(codes: seq<string>, f: string -> seq<T>, x: T)
    requires x in ConcatMap(codes, f)
    ensures exists c :: c in codes && x in f(c)
  {
    assert ConcatMap(codes, f) == f(codes[0]) + ConcatMap(codes[1..], f);
    if x !in f(codes[0]) {
      ConcatMapMember(codes[1..], f, x);
      var c :| c in codes[1..] && x in f(c);
      assert c in codes;
    }
  }

  /** Every entry of `compare` is the statistics of a given code that loaded with a
      non-empty window: codes that fail to load or have an empty window are skipped. */
  lemma CompareOnlyLoaded(codes: seq<string>, days: Option<real>, fetch: string -> Result<string, string>, parse: string -> Option<real>, x: Stats)
    requires x in CompareAll(codes, days, fetch, parse)
    ensures exists c :: (c in codes && FetchStock(c, fetch, parse).Ok?
      && Window(FetchStock(c, fetch, parse).value, days, DefaultStatsDays) != []
      && x == CalculateStats(c, Window(FetchStock(c, fetch, parse).value, days, DefaultStatsDays)))
  {
    var f := CompareEach(days, fetch, parse);
    ConcatMapMember(codes, f, x);
    var c :| c in codes && x in f(c);
    assert x in CompareLoaded(c, FetchStock(c, fetch, parse), days);
    CompareEntry(c, FetchStock(c, fetch, parse), days, x);
  }

  lemma CompareEntry(code: string, loaded: Result<seq<StockRow>, string>, days: Option<real>, x: Stats)
    requires x in CompareLoaded(code, loaded, days)
    ensures loaded.Ok? && Window(loaded.value, days, DefaultStatsDays) != []
    ensures x == CalculateStats(code, Window(loaded.value, days, DefaultStatsDays))
  {
  }

  /** A code that fails to load, or whose window is empty, adds nothing. */
  lemma CompareSkips(codes: seq<string>, code: string, days: Option<real>, fetch: string -> Result<string, string>, parse: string -> Option<real>)
    requires FetchStock(code, fetch, parse).Err? || Window(FetchStock(code, fetch, parse).value, days, DefaultStatsDays) == []
    ensures CompareAll(codes + [code], days, fetch, parse) == CompareAll(codes, days, fetch, parse)
  {
    CompareAllAppend(codes, code, days, fetch, parse);
  }

  /** `compare` drops no code whose file loads with a non-empty window. */
  lemma {:induction false} CompareKeepsEvery(codes: seq<string>, days: Option<real>, fetch: string -> Result<string, string>, parse: string -> Option<real>, c: string)
    requires c in codes
    requires FetchStock(c, fetch, parse).Ok? && WindowStats(c, FetchStock(c, fetch, parse).value, days).Ok?
    ensures WindowStats(c, FetchStock(c, fetch, parse).value, days).value in CompareAll(codes, days, fetch, parse)
  {
    var one := CompareLoaded(codes[0], FetchStock(codes[0], fetch, parse), days);
    var rest := CompareAll(codes[1..], days, fetch, parse);
    assert CompareAll(codes, days, fetch, parse) == one + rest;
    if codes[0] != c {
      assert c in codes[1..];
      CompareKeepsEvery(codes[1..], days, fetch, parse, c);
    }
  }

  /** What `getSummary` contributes for one code, once it is loaded: nothing when loading
      failed or there are no rows, else the newest row's date and close and the number of
      rows. */
  function SummaryLoaded(code: string, loaded: Result<seq<StockRow>, string>): (r: seq<Summary>)
    ensures |r| <= 1
    ensures |r| == 1 ==> r[0].code == code && r[0].totalRecords > 0
    ensures r != [] <==> loaded.Ok? && loaded.value != []
    ensures r != [] ==> r[0].totalRecords == |loaded.value|
    ensures r != [] ==> r[0].latestPrice == Latest(code, loaded.value).value.close
    ensures r != [] ==> r[0].latestDate == DateText(Latest(code, loaded.value).value.date)
  {
    match loaded
    case Err(_) => []
    case Ok(rows) =>
      var sorted := SortByDateDesc(rows);
      if sorted == [] then []
      else [Summary(code, DateText(sorted[0].date), sorted[0].close, |sorted|)]
  }

  /** The body of `getSummary`'s loop: the newest row and the row count are pushed unless
      loading failed or there are no rows. */
  method PushSummary(stocks: seq<Summary>, code: string, loaded: Result<seq<StockRow>, string>) returns (r: seq<Summary>)
    ensures r == stocks + SummaryLoaded(code, loaded)
  {
    if loaded.Err? {
      return stocks;
    }
    var sorted := SortByDateDesc(loaded.value);
    if sorted == [] {
      return stocks;
    }
    return stocks + [Summary(code, DateText(sorted[0].date), sorted[0].close, |sorted|)];
  }

  /** `getSummary`'s contribution of each code. */
  function SummaryEach(fetch: string -> Result<string, string>, parse: string -> Option<real>): string -> seq<Summary> {
    code => SummaryLoaded(code, FetchStock(code, fetch, parse))
  }

  /** `getSummary(codes)`'s `stocks`, code by code. */
  function SummaryAll(codes: seq<string>, fetch: string -> Result<string, string>, parse: string -> Option<real>): seq<Summary>
  {
    ConcatMap(codes, SummaryEach(fetch, parse))
  }

  lemma SummaryAllAppend(codes: seq<string>, code: string, fetch: string -> Result<string, string>, parse: string -> Option<real>)
    ensures SummaryAll(codes + [code], fetch, parse) == SummaryAll(codes, fetch, parse) + SummaryLoaded(code, FetchStock(code, fetch, parse))
  {
    ConcatMapAppend(codes, code, SummaryEach(fetch, parse));
  }

  /** The code of a `getSummary` entry. */
  function SummaryCode(s: Summary): string {
    s.code
  }

  /** `getSummary` keeps the order of the codes and reports only codes it was given, each with
      at least one record. */
  lemma SummaryKeepsOrder(codes: seq<string>, fetch: string -> Result<string, string>, parse: string -> Option<real>)
    ensures var r := SummaryAll(codes, fetch, parse);
      IsSubsequence(CodesOf(r, SummaryCode), codes) && forall i :: 0 <= i < |r| ==> r[i].totalRecords > 0
  {
    var f := SummaryEach(fetch, parse);
    forall c ensures |f(c)| <= 1 && (|f(c)| == 1 ==> SummaryCode(f(c)[0]) == c) {
      assert f(c) == SummaryLoaded(c, FetchStock(c, fetch, parse));
    }
    ConcatMapKeepsOrder(codes, f, SummaryCode);
    var r := SummaryAll(codes, fetch, parse);
    forall i | 0 <= i < |r| ensures r[i].totalRecords > 0 {
      SummaryOnlyLoaded(codes, fetch, parse, r[i]);
    }
  }

  /** Every entry of `getSummary` is the newest row's date and close and the row count of a
      given code that loaded with rows: codes that fail to load or have no rows are skipped. */
  lemma SummaryOnlyLoaded(codes: seq<string>, fetch: string -> Result<string, string>, parse: string -> Option<real>, x: Summary)
    requires x in SummaryAll(codes, fetch, parse)
    ensures exists c :: (c in codes && FetchStock(c, fetch, parse).Ok? && FetchStock(c, fetch, parse).value != []
      && x == Summary(c, DateText(Latest(c, FetchStock(c, fetch, parse).value).value.date),
                      Latest(c, FetchStock(c, fetch, parse).value).value.close, |FetchStock(c, fetch, parse).value|))
  {
    var f := SummaryEach(fetch, parse);
    ConcatMapMember(codes, f, x);
    var c :| c in codes && x in f(c);
    assert x in SummaryLoaded(c, FetchStock(c, fetch, parse));
    SummaryEntry(c, FetchStock(c, fetch, parse), x);
  }

  lemma SummaryEntry(code: string, loaded: Result<seq<StockRow>, string>, x: Summary)
    requires x in SummaryLoaded(code, loaded)
    ensures loaded.Ok? && loaded.value != []
    ensures x == Summary(code, DateText(Latest(code, loaded.value).value.date), Latest(code, loaded.value).value.close, |loaded.value|)
  {
  }

  /** `getSummary` drops no code whose file loads with rows. */
  lemma {:induction false} SummaryKeepsEvery(codes: seq<string>, fetch: string -> Result<string, string>, parse: string -> Option<real>, c: string)
    requires c in codes
    requires FetchStock(c, fetch, parse).Ok? && FetchStock(c, fetch, parse).value != []
    ensures var rows := FetchStock(c, fetch, parse).value;
      Summary(c, DateText(Latest(c, rows).value.date), Latest(c, rows).value.close, |rows|) in SummaryAll(codes, fetch, parse)
  {
    var one := SummaryLoaded(codes[0], FetchStock(codes[0], fetch, parse));
    var rest := SummaryAll(codes[1..], fetch, parse);
    assert SummaryAll(codes, fetch, parse) == one + rest;
    if codes[0] != c {
      assert c in codes[1..];
      SummaryKeepsEvery(codes[1..], fetch, parse, c);
    }
  }

  /** A code that fails to load, or has no rows, adds nothing. */
  lemma SummarySkips(codes: seq<string>, code: string, fetch: string -> Result<string, string>, parse: string -> Option<real>)
    requires FetchStock(code, fetch, parse).Err? || FetchStock(code, fetch, parse).value == []
    ensures SummaryAll(codes + [code], fetch, parse) == SummaryAll(codes, fetch, parse)
  {
    SummaryAllAppend(codes, code, fetch, parse);
  }

  /** The data adapter: the module-level `cache` of static/js/api.js with its time to live, and
      the `StockAPI` methods that load through it. A data file is read through `fetch`. */
  class DataAdapter {
    const ttl: real
    var cache: Cache

    /** Every entry holds what its file gives, so a hit returns what a fetch would. */
    ghost predicate Coherent(fetch: string -> Result<string, string>, parse: string -> Option<real>)
      reads this
    {
      CacheServes(cache, fetch, parse)
    }

    /** The cache at start-up, for `Number(CONFIG.CACHE_MINUTES)`. */
    constructor(minutes: Option<real>)
      ensures ttl == CacheTtl(minutes) && cache == map[]
    {
      ttl := CacheTtl(minutes);
      cache := map[];
    }

    /** `readCache(key)` at time `now`. */
    method ReadCache(key: string, now: real) returns (r: Option<Cached>)
      modifies this
      ensures r == CacheLookup(old(cache), ttl, key, now)
      ensures cache == AfterLookup(old(cache), ttl, key, now)
    {
      if ttl == 0.0 {
        return None;
      }
      if key !in cache {
        return None;
      }
      var entry := cache[key];
      if now > entry.expiresAt {
        cache := cache - {key};
        return None;
      }
      return Some(entry.value);
    }

    /** `writeCache(key, value)` at time `now`. */
    method WriteCache(key: string, value: Cached, now: real)
      modifies this
      ensures cache == CacheStore(old(cache), ttl, key, value, now)
    {
      if ttl == 0.0 {
        return;
      }
      cache := cache[key := Entry(value, now + ttl)];
    }

    /** `loadStockRows(code)`: a live cache entry when there is one, else the fetched file,
        which is then cached. The rows are always those of the file. */
    method LoadStockRows(code: string, now: real, fetch: string -> Result<string, string>, parse: string -> Option<real>)
      returns (r: Result<seq<StockRow>, string>)
      requires Coherent(fetch, parse)
      modifies this
      ensures Coherent(fetch, parse)
      ensures r == FetchStock(code, fetch, parse)
      ensures CacheLookup(old(cache), ttl, StockKey(code), now).Some? ==> cache == old(cache)
      ensures CacheLookup(old(cache), ttl, StockKey(code), now).None? && r.Err? ==>
        cache == AfterLookup(old(cache), ttl, StockKey(code), now)
      ensures CacheLookup(old(cache), ttl, StockKey(code), now).None? && r.Ok? ==>
        cache == CacheStore(AfterLookup(old(cache), ttl, StockKey(code), now), ttl, StockKey(code), Stocks(r.value), now)
      ensures cache == AfterStockLoad(old(cache), ttl, code, now, fetch, parse)
    {
      var key := StockKey(code);
      LookupServes(cache, ttl, key, now, fetch, parse);
      var cached := ReadCache(key, now);
      if cached.Some? {
        StockKeyServes(code, cached.value, fetch, parse);
      }
      if cached.Some? && cached.value.Stocks? {
        return Ok(cached.value.stockRows);
      }
      var fetched := FetchStock(code, fetch, parse);
      if fetched.Err? {
        return fetched;
      }
      StockKeyServes(code, Stocks(fetched.value), fetch, parse);
      StoreServes(cache, ttl, key, Stocks(fetched.value), now, fetch, parse);
      WriteCache(key, Stocks(fetched.value), now);
      return fetched;
    }

    /** `loadDailyRows(date)`, like `LoadStockRows`. */
    method LoadDailyRows(date: string, now: real, fetch: string -> Result<string, string>, parse: string -> Option<real>)
      returns (r: Result<seq<DailyRow>, string>)
      requires Coherent(fetch, parse)
      modifies this
      ensures Coherent(fetch, parse)
      ensures r == FetchDaily(date, fetch, parse)
      ensures CacheLookup(old(cache), ttl, DailyKey(date), now).Some? ==> cache == old(cache)
      ensures CacheLookup(old(cache), ttl, DailyKey(date), now).None? && r.Err? ==>
        cache == AfterLookup(old(cache), ttl, DailyKey(date), now)
      ensures CacheLookup(old(cache), ttl, DailyKey(date), now).None? && r.Ok? ==>
        cache == CacheStore(AfterLookup(old(cache), ttl, DailyKey(date), now), ttl, DailyKey(date), Dailies(r.value), now)
      ensures cache == AfterDailyLoad(old(cache), ttl, date, now, fetch, parse)
    {
      var key := DailyKey(date);
      LookupServes(cache, ttl, key, now, fetch, parse);
      var cached := ReadCache(key, now);
      if cached.Some? {
        DailyKeyServes(date, cached.value, fetch, parse);
      }
      if cached.Some? && cached.value.Dailies? {
        return Ok(cached.value.dailyRows);
      }
      var fetched := FetchDaily(date, fetch, parse);
      if fetched.Err? {
        return fetched;
      }
      DailyKeyServes(date, Dailies(fetched.value), fetch, parse);
      StoreServes(cache, ttl, key, Dailies(fetched.value), now, fetch, parse);
      WriteCache(key, Dailies(fetched.value), now);
      return fetched;
    }

    /** `getStock(code, limit)`: the newest `limit` rows (100 when not given). */
    method GetStock(code: string, limit: Option<real>, now: real, fetch: string -> Result<string, string>, parse: string -> Option<real>)
      returns (r: Result<seq<StockRow>, string>)
      requires Coherent(fetch, parse)
      modifies this
      ensures Coherent(fetch, parse)
      ensures cache == AfterStockLoad(old(cache), ttl, code, now, fetch, parse)
      ensures FetchStock(code, fetch, parse).Err? ==> r == FetchStock(code, fetch, parse)
      ensures FetchStock(code, fetch, parse).Ok? ==> r == Ok(Window(FetchStock(code, fetch, parse).value, limit, DefaultLimit))
    {
      var rows := LoadStockRows(code, now, fetch, parse);
      if rows.Err? {
        return rows;
      }
      return Ok(Window(rows.value, limit, DefaultLimit));
    }

    /** `getLatest(code)`: the newest row; it throws for a stock without rows. */
    method GetLatest(code: string, now: real, fetch: string -> Result<string, string>, parse: string -> Option<real>)
      returns (r: Result<StockRow, string>)
      requires Coherent(fetch, parse)
      modifies this
      ensures Coherent(fetch, parse)
      ensures cache == AfterStockLoad(old(cache), ttl, code, now, fetch, parse)
      ensures FetchStock(code, fetch, parse).Err? ==> r == Err(FetchStock(code, fetch, parse).error)
      ensures FetchStock(code, fetch, parse).Ok? ==> r == Latest(code, FetchStock(code, fetch, parse).value)
    {
      var rows := LoadStockRows(code, now, fetch, parse);
      if rows.Err? {
        return Err(rows.error);
      }
      return Latest(code, rows.value);
    }

    /** `getStats(code, days)`: the statistics of the newest `days` rows (20 when not given);
        it throws when that window is empty. */
    method GetStats(code: string, days: Option<real>, now: real, fetch: string -> Result<string, string>, parse: string -> Option<real>)
      returns (r: Result<Stats, string>)
      requires Coherent(fetch, parse)
      modifies this
      ensures Coherent(fetch, parse)
      ensures cache == AfterStockLoad(old(cache), ttl, code, now, fetch, parse)
      ensures FetchStock(code, fetch, parse).Err? ==> r == Err(FetchStock(code, fetch, parse).error)
      ensures FetchStock(code, fetch, parse).Ok? ==> r == WindowStats(code, FetchStock(code, fetch, parse).value, days)
    {
      var rows := LoadStockRows(code, now, fetch, parse);
      if rows.Err? {
        return Err(rows.error);
      }
      return WindowStats(code, rows.value, days);
    }

    /** `getRange(code, start, end)`: the rows within the bounds, newest first. */
    method GetRange(code: string, start: Option<real>, end: Option<real>, now: real, fetch: string -> Result<string, string>, parse: string -> Option<real>)
      returns (r: Result<seq<StockRow>, string>)
      requires Coherent(fetch, parse)
      modifies this
      ensures Coherent(fetch, parse)
      ensures cache == AfterStockLoad(old(cache), ttl, code, now, fetch, parse)
      ensures FetchStock(code, fetch, parse).Err? ==> r == FetchStock(code, fetch, parse)
      ensures FetchStock(code, fetch, parse).Ok? ==> r == Ok(SortByDateDesc(FilterByDateRange(FetchStock(code, fetch, parse).value, start, end)))
    {
      var rows := LoadStockRows(code, now, fetch, parse);
      if rows.Err? {
        return rows;
      }
      return Ok(SortByDateDesc(FilterByDateRange(rows.value, start, end)));
    }

    /** `compare(codes, days)`: the statistics of each code in turn, skipping codes that fail
        to load or have an empty window. */
    method Compare(codes: seq<string>, days: Option<real>, now: real, fetch: string -> Result<string, string>, parse: string -> Option<real>)
      returns (stocks: seq<Stats>)
      requires Coherent(fetch, parse)
      modifies this
      ensures Coherent(fetch, parse)
      ensures cache == AfterStockLoads(old(cache), ttl, CodeList(codes), now, fetch, parse)
      ensures stocks == CompareAll(CodeList(codes), days, fetch, parse)
    {
      var list := CodeList(codes);
      stocks := [];
      var i := 0;
      assert list[..0] == [];
      while i < |list|
        invariant 0 <= i <= |list|
        invariant Coherent(fetch, parse)
        invariant stocks == CompareAll(list[..i], days, fetch, parse)
        invariant cache == AfterStockLoads(old(cache), ttl, list[..i], now, fetch, parse)
      {
        var code := list[i];
        CompareAllAppend(list[..i], code, days, fetch, parse);
        PrefixSnoc(list, i);
        AfterStockLoadsSnoc(old(cache), ttl, list, i, now, fetch, parse);
        var rows := LoadStockRows(code, now, fetch, parse);
        stocks := PushStats(stocks, code, rows, days);
        i := i + 1;
      }
      PrefixWhole(list, i);
    }

    /** `getSummary(codes)`: the newest row and row count of each code in turn, skipping codes
        that fail to load or have no rows; `total_stocks` counts the entries. */
    method GetSummary(codes: seq<string>, now: real, fetch: string -> Result<string, string>, parse: string -> Option<real>)
      returns (totalStocks: nat, stocks: seq<Summary>)
      requires Coherent(fetch, parse)
      modifies this
      ensures Coherent(fetch, parse)
      ensures cache == AfterStockLoads(old(cache), ttl, CodeList(codes), now, fetch, parse)
      ensures stocks == SummaryAll(CodeList(codes), fetch, parse) && totalStocks == |stocks|
    {
      var list := CodeList(codes);
      stocks := [];
      var i := 0;
      assert list[..0] == [];
      while i < |list|
        invariant 0 <= i <= |list|
        invariant Coherent(fetch, parse)
        invariant stocks == SummaryAll(list[..i], fetch, parse)
        invariant cache == AfterStockLoads(old(cache), ttl, list[..i], now, fetch, parse)
      {
        var code := list[i];
        SummaryAllAppend(list[..i], code, fetch, parse);
        PrefixSnoc(list, i);
        AfterStockLoadsSnoc(old(cache), ttl, list, i, now, fetch, parse);
        var rows := LoadStockRows(code, now, fetch, parse);
        stocks := PushSummary(stocks, code, rows);
        i := i + 1;
      }
      PrefixWhole(list, i);
      totalStocks := |stocks|;
    }

    /** `getDaily(date)`. */
    method GetDaily(date: string, now: real, fetch: string -> Result<string, string>, parse: string -> Option<real>)
      returns (r: Result<seq<DailyRow>, string>)
      requires Coherent(fetch, parse)
      modifies this
      ensures Coherent(fetch, parse)
      ensures cache == AfterDailyLoad(old(cache), ttl, date, now, fetch, parse)
      ensures r == FetchDaily(date, fetch, parse)
    {
      r := LoadDailyRows(date, now, fetch, parse);
    }

    /** `getGainers(date, limit)`. */
    method GetGainers(date: string, limit: Option<real>, now: real, fetch: string -> Result<string, string>, parse: string -> Option<real>)
      returns (r: Result<seq<DailyRow>, string>)
      requires Coherent(fetch, parse)
      modifies this
      ensures Coherent(fetch, parse)
      ensures cache == AfterDailyLoad(old(cache), ttl, date, now, fetch, parse)
      ensures FetchDaily(date, fetch, parse).Err? ==> r == FetchDaily(date, fetch, parse)
      ensures FetchDaily(date, fetch, parse).Ok? ==> r == Ok(Gainers(FetchDaily(date, fetch, parse).value, limit))
    {
      var rows := LoadDailyRows(date, now, fetch, parse);
      if rows.Err? {
        return rows;
      }
      return Ok(Gainers(rows.value, limit));
    }

    /** `getLosers(date, limit)`. */
    method GetLosers(date: string, limit: Option<real>, now: real, fetch: string -> Result<string, string>, parse: string -> Option<real>)
      returns (r: Result<seq<DailyRow>, string>)
      requires Coherent(fetch, parse)
      modifies this
      ensures Coherent(fetch, parse)
      ensures cache == AfterDailyLoad(old(cache), ttl, date, now, fetch, parse)
      ensures FetchDaily(date, fetch, parse).Err? ==> r == FetchDaily(date, fetch, parse)
      ensures FetchDaily(date, fetch, parse).Ok? ==> r == Ok(Losers(FetchDaily(date, fetch, parse).value, limit))
    {
      var rows := LoadDailyRows(date, now, fetch, parse);
      if rows.Err? {
        return rows;
      }
      return Ok(Losers(rows.value, limit));
    }
  }
}

=== FILE: wrappers.dfy ===
/** Failure-compatible wrappers shared by every module of the model. */
module Wrappers {

  /** A value that may be absent; `None` stands for JavaScript's `null`/`undefined`
      (and, for numbers, for a non-finite value that the source turns into `null`). */
  datatype Option<+T> = None | Some(value: T) {
    function GetOr(default: T): T {
      match this
      case Some(v) => v
      case None => default
    }
  }

  /** The outcome of an operation that the source lets throw. */
  datatype Result<+T, +E> = Ok(value: T) | Err(error: E)
}
